=== FILE: README.md ===
# Combat lander: a verified model of the lock-step game engine

Combat lander is a multiplayer browser game. Each player flies a lander
over a moon surface. A player wins by landing on the pad, or by being the
last lander alive. Every client runs the same simulation as the
authoritative server, one tick at a time. Players' inputs are time-stamped
with the tick they belong to. When an input or a server sync arrives for a
past tick, the engine restores the closest earlier snapshot, applies the
change, and replays the logged inputs forward to the present tick
(rollback networking).

This project models that core in Dafny:

- the shared engine (`Engine`, module `Engine`, over sorted snapshot and
  input logs from `Timelines`);
- the client engine (`ClientEngines`): routing of server messages,
  full/partial sync, local and remote inputs, the tick timer;
- the server engine (`ServerEngines` with the pure rules in `ServerRules`):
  message handling, joins and resets, the input queue, the win rules, the
  reset countdown, syncs and garbage collection;
- the game state container (`GameStates`) with its landers (`Landers`),
  rockets (`Rockets`) and physics objects (`GameObjects`), and the
  id-keyed merge of serialised entities (`Tables`);
- the keyboard controller (`Controls`) and angle normalisation
  (`AngleMath`).

Code that changes state step by step is modelled as classes with
`modifies` clauses. Each such method is proved against a specification
function, for example `Replay`, `Inserted`, `Trimmed`, `Closest`,
`UpsertAll`, `PreStepped` or `Judged`. The properties of those functions
are proved as lemmas.

The physics world is abstract. The engine sees the game as a value,
`GameImage`. Stepping, applying an input and merging a sync payload are
function-valued fields of `WorldOps`. Randomness (colour choice, new game
ids and maps), clocks (`now`, `wallClock`), sockets (an `outbox` of sent
messages) and timers (a `timers` list fired by `FireTimer`) are parameters
or state fields.

The shared engine is one class, `Engine.Engine`. It carries a `role`
(client with a player id, or server). The role resolves the two overrides
of `applyPlayerInput`. The client and server engines each own an `Engine`.

## Model

| member | source | states |
|---|---|---|
| Timelines.FindIndexAfter | game/engine.ts:141-146 | the index of the first entry later than the cutoff, or -1 exactly when no entry is later; every entry before it is no later |
| Timelines.InsertPosition | game/engine.ts:103-110 | the insertion point: every entry before it is at or before the tick, the entry at it is after |
| Timelines.Inserted | game/engine.ts:103-110 | savePlayerEvent's insertion: the new input goes right after every input of the same or an earlier tick, and the log grows by one |
| Timelines.InsertedSorted | game/engine.ts:103-110 | inserting into a time-sorted log keeps it sorted and adds exactly the new message (multiset) |
| Timelines.InsertedAfterEqual | game/engine.ts:103-110 | in a sorted log, every input before the new one is at or before its tick and every input after it is later, so it lands after inputs of the same tick |
| Timelines.TrimmedSpec | game/engine.ts:141-146 | trimming keeps a suffix of the list |
| Timelines.TrimmedSuffix | game/engine.ts:141-146 | trimming keeps a sorted (or strictly sorted) list so, and keeps only entries of the original list |
| Timelines.TrimmedKeepsLater | game/engine.ts:141-146 | every entry later than the cutoff survives, at its shifted position |
| Timelines.TrimmedSortedAllLater | game/engine.ts:141-146 | when a sorted list has a later entry, everything kept is later than the cutoff |
| Timelines.Closest | game/engine.ts:115-122 | findClosestSnapshot's index: the last snapshot at or before the tick, or none exactly when every snapshot is later |
| Timelines.ClosestIs | game/engine.ts:115-122 | the last entry at or before the tick, with only later entries after it, is what Closest finds |
| Timelines.PlacedStrict | game/client-engine.ts:140-146 | storing a snapshot keeps the ticks strictly increasing, keeps every snapshot of another tick, adds nothing else, and Closest finds the new snapshot at its own tick |
| Timelines.PlacedOverwrites | game/client-engine.ts:140-146 | a snapshot for a tick already stored replaces it in place |
| Timelines.PlacedInserts | game/client-engine.ts:140-146 | a snapshot for a new tick is spliced in at its sorted position |
| AngleMath.RaiseAbove | utils/math.ts:4-6 | the first loop ends at or above -pi and leaves an angle already there alone |
| AngleMath.LowerBelow | utils/math.ts:7-9 | the second loop ends below pi, keeps an angle at or above -pi there, and leaves an angle below pi alone |
| AngleMath.Normalize | utils/math.ts:3-11 | normalizeAngle's result lies in [-pi, pi), and an angle already in range is unchanged |
| AngleMath.NormalizeTurns | utils/math.ts:3-11 | the result differs from the input by a whole number of turns |
| AngleMath.NormalizeIdempotent | utils/math.ts:3-11 | normalising twice is normalising once |
| AngleMath.NormalizeAngle | utils/math.ts:3-11 | the two while loops compute Normalize, so the result lies in [-pi, pi) |
| GameObjects.WrappedX | game/objects/game-object.ts:42-48 | wrapTranslation's x: shifted by one world width when left of 0 or right of the width, unchanged inside; a body at most one width outside ends inside |
| GameObjects.GameObject.constructor | game/objects/game-object.ts:4-9 | the object holds the collider (and its body handle) it was given |
| GameObjects.GameObject.WrapTranslation | game/objects/game-object.ts:42-48 | the collider's translation is wrapped by WrappedX and its y and rotation are kept |
| GameObjects.GameObject.UpdateCollider | game/objects/game-object.ts:27-33 | the collider is re-read from the world by the object's handle; a missing handle is the NoColliderFound error and leaves the collider |
| GameObjects.GameObject.Rebind | game/objects/sky.ts:26-29 | the sky object is re-bound to the new handle when the world has it, and is otherwise left as it was (the source stores an undefined collider then; see Left out) |
| Tables.FirstIndex | game/game-state.ts:143-165 | the first position of a key, absent exactly when the key does not occur |
| Tables.FirstIndexUnique | game/game-state.ts:143-165 | a position whose key does not occur earlier is the first index |
| Tables.NewKeys | game/game-state.ts:143-165 | the payload keys that were not in the table |
| Tables.UpsertAllKeys | game/game-state.ts:143-165 | after merging, the keys are the old keys in their old order, followed by the new ones in payload order |
| Tables.UpsertAllCovers | game/game-state.ts:143-165 | after merging, a key is present exactly when it was in the table or in the payload |
| Tables.UpsertAllUntouched | game/game-state.ts:143-165 | an entry whose key is not in the payload keeps its position and value |
| Tables.UpsertAllGrows | game/game-state.ts:143-165 | merging adds at most one entry per payload item and removes none |
| Tables.UpsertFind | game/game-state.ts:143-165 | after one upsert, the key's first entry is the new item and other keys' entries are unchanged |
| Tables.UpsertAllLatest | game/game-state.ts:143-165 | for a key's last payload item, the merged table's entry for that key is exactly that item |
| Rockets.Rocket.constructor | game/rocket.ts:52-63 | a new rocket has the Constructed fields over its physics object |
| Rockets.Rocket.PostStep | game/rocket.ts:65-68 | a rocket ages by exactly one tick per post-step |
| Rockets.Rocket.MergeFrom | game/rocket.ts:95-98 | every serialised field is copied from the payload, then the collider is re-read by the rocket's own handle |
| Rockets.Rocket.MaybeRemove | game/rocket.ts:85-93 | an expired rocket (age at or past its weapon's lifetime) is pulled from the rocket list and its body removed from the world; otherwise both are unchanged |
| Rockets.Pulled | game/rocket.ts:85-93 | lodash pull: every occurrence of the element is gone and every other element stays |
| Rockets.PulledOnce | game/rocket.ts:85-93 | pulling an element that occurs once removes exactly that position |
| Rockets.PulledAbsent | game/rocket.ts:85-93 | pulling an absent element changes nothing |
| Rockets.CreatedFromAsWritten | game/rocket.ts:44-63 | what createFrom as written leaves: the payload's fields with the age reset to 0 |
| Rockets.CreateFromResetsAge | game/rocket.ts:44-63 | a 5-tick-old rocket rebuilt by createFrom as written is 0 ticks old |
| Rockets.CreateFromAsWritten | game/rocket.ts:44-50 | createFrom as written: fails exactly when the handle is missing, and otherwise yields a fresh rocket with CreatedFromAsWritten's fields |
| Rockets.CreateFrom | game/rocket.ts:44-50 | createFrom as intended: fails exactly when the handle is missing, and otherwise the rebuilt rocket serialises back to its payload |
| Landers.InitialFields | game/objects/lander.ts:30-57 | a new lander is alive, with no intents, full health, full fuel, zero throttle and full ammo for each weapon |
| Landers.Lander.constructor | game/objects/lander.ts:88-96 | a new lander has InitialFields for its id, name and colour |
| Landers.Processed | game/objects/lander.ts:120-147 | processInput: a dead lander ignores every input; otherwise exactly the event's intent flag or joystick target changes, and health, fuel, throttle, target rotation and ammo are kept |
| Landers.Thrusted | game/objects/lander.ts:122-127 | a thrust event sets the flag of its direction and nothing else |
| Landers.Rotated | game/objects/lander.ts:128-133 | a rotate event sets the flag of its direction and nothing else |
| Landers.Joysticked | game/objects/lander.ts:134-145 | a joystick event sets the rotation flags it carries and the joystick target, and nothing else |
| Landers.Lander.ProcessInput | game/objects/lander.ts:120-147 | the lander's new fields are Processed of its old fields |
| Landers.Lander.Thrust | game/objects/lander.ts:122-127 | the lander's new fields are Thrusted of its old fields |
| Landers.Lander.Rotate | game/objects/lander.ts:128-133 | the lander's new fields are Rotated of its old fields |
| Landers.Lander.Joystick | game/objects/lander.ts:134-145 | the lander's new fields are Joysticked of its old fields |
| Landers.Damaged | game/objects/lander.ts:149-166 | with infinite health, damage costs exactly 1; otherwise health drops by the damage but never below 0, stays within [0, 100], and at 0 the throttle, every intent and both targets are cleared |
| Landers.Lander.TakeDamage | game/objects/lander.ts:149-166 | the lander's new fields are Damaged of its old fields |
| Landers.Lander.Freeze | game/objects/lander.ts:156-164 | throttle 0, every intent off, both targets cleared |
| Landers.ReplenishOne | game/objects/lander.ts:233-240 | a weapon gains at most one round, exactly when below its maximum and past its wait, restarting the wait; it never exceeds the maximum |
| Landers.Replenished | game/objects/lander.ts:233-240 | each weapon type is replenished by ReplenishOne independently |
| Landers.Lander.ReplenishWeapons | game/objects/lander.ts:233-240 | the loop over the weapon types computes Replenished |
| Landers.Lander.Refill | game/objects/lander.ts:173-181 | infinite health refills health to 100, infinite fuel refills fuel to 100, and nothing else changes |
| Landers.ChosenTargetRotation | game/objects/lander.ts:189-201 | while rotating, a target inside [-pi, pi); with no rotation intent and no joystick, no target |
| Landers.Lander.ChooseTargetRotation | game/objects/lander.ts:189-201 | the target rotation becomes ChosenTargetRotation |
| Landers.ChosenThrottle | game/objects/lander.ts:203-209 | while thrusting, the throttle stays within [0, 1]; otherwise it follows the joystick target or stays |
| Landers.Lander.ChooseThrottle | game/objects/lander.ts:203-209 | the throttle becomes ChosenThrottle |
| Landers.BurnedFuel | game/objects/lander.ts:211-230 | fuel never goes below 0, and with no throttle and no rotation to make none is burnt |
| Landers.Lander.BurnFuel | game/objects/lander.ts:211-230 | the fuel becomes BurnedFuel |
| Landers.Steered | game/objects/lander.ts:186-230 | an empty tank forces the throttle to 0 and changes nothing else; the thrust throttle stays within [0, 1]; fuel stays non-negative; identity, health, ammo and intents are kept |
| Landers.Lander.Steer | game/objects/lander.ts:186-230 | the lander's new fields are Steered of its old fields |
| Landers.PreStepped | game/objects/lander.ts:172-241 | preStep: the refills, the empty-tank gate, the thrust throttle within [0, 1], non-negative fuel, at most one more round per weapon after its wait, and identity and intents kept |
| Landers.Lander.PreStep | game/objects/lander.ts:172-241 | the lander's new fields are PreStepped of its old fields at the body's current rotation |
| Landers.Lander.MergeFrom | game/objects/lander.ts:115-118 | every serialised field is copied from the payload, then the collider is re-read by the lander's own handle |
| Landers.Lander.SetFields | game/objects/lander.ts:19-28 | the serialised field set becomes exactly the given one |
| Landers.Lander.SetIdentityAndTargets | game/objects/lander.ts:19-28 | id, name, colour, throttle and both targets are copied |
| Landers.Lander.SetStatus | game/objects/lander.ts:19-28 | health, fuel, ammo and the four intent flags are copied |
| Landers.CreateFrom | game/objects/lander.ts:75-86 | fails exactly when the handle is missing, and otherwise the new lander serialises back to its payload |
| Engine.FindLander | game/game-state.ts:68-70 | the first lander with the id, or none exactly when no lander has it |
| Engine.Select | game/engine.ts:71-73 | getPlayerInputsAt: exactly the logged inputs matching the filter, in log order |
| Engine.SelectAppend | game/engine.ts:71-73 | selecting from two logs joined is joining the two selections |
| Engine.SelectNone | game/engine.ts:71-73 | a log with no matching input selects nothing |
| Engine.SelectTrimmedAbove | game/engine.ts:127-131 | trimming below a tick does not change that tick's inputs |
| Engine.ApplyOne | game/engine.ts:75-77 | applyPlayerInput with both overrides: the client ignores another player's fire-rocket and applies everything else; the server applies every input and raises the broadcast flag for a fire-rocket or a tick before the last sync |
| Engine.ServerBroadcastFlag | game/server-engine.ts:271-280 | after a batch on the server, the flag is up exactly when it was up, or a batch input fires a rocket, or the batch is non-empty at a tick before the last sync |
| Engine.WithoutRemoteRockets | game/client-engine.ts:39-49 | the log without other players' fire-rocket inputs |
| Engine.ClientApplyIgnoresRemoteRockets | game/client-engine.ts:39-49 | on the client, applying a batch is applying it without other players' fire-rocket inputs |
| Engine.SelectWithoutRemoteRockets | game/client-engine.ts:39-49 | filtering remote rockets commutes with selecting one tick's inputs |
| Engine.ClientReplayIgnoresRemoteRockets | game/client-engine.ts:39-49 | a client replay is the same with other players' fire-rocket inputs removed from the log |
| Engine.ReplayCompose | game/engine.ts:53-58 | replaying from a to c is replaying from a to b, then from b to c |
| Engine.ReplayWindow | game/engine.ts:53-58 | a replay depends only on the inputs of the ticks it passes |
| Engine.ReplayTrimmed | game/engine.ts:127-131 | garbage-collecting inputs at or before the replay start leaves the replay unchanged |
| Engine.TrimmedHistoryValid | game/engine.ts:127-131 | trimming keeps the history invariant: snapshots strictly sorted and not in the future, inputs sorted |
| Engine.StepTarget | game/engine.ts:16-29 | the first step goes to the next tick; later steps go to at least the next tick and to the wall-clock tick when behind |
| Engine.Engine.constructor | game/engine.ts:5-14 | the engine starts at the initial tick with no snapshots, no inputs and no pending broadcast, and satisfies the history invariant |
| Engine.Engine.StepOne | game/engine.ts:31-34 | one tick of the world and the counter advanced by one |
| Engine.Engine.Step | game/engine.ts:16-29 | the tick reaches StepTarget, the world is stepped once per tick, the first call records the start time, and the invariant is kept |
| Engine.Engine.ApplyPlayerInput | game/engine.ts:75-77 | the state becomes ApplyOne of the old state at the current tick |
| Engine.Engine.ApplyPlayerInputs | game/engine.ts:64-69 | the inputs are applied one after another, in order |
| Engine.Engine.ApplyPlayerInputsAt | game/engine.ts:60-62 | the selected logged inputs are applied in log order |
| Engine.Engine.ReplayTo | game/engine.ts:53-58 | the tick becomes the later of now and the target, and the state becomes Replay over the log; the invariant is kept |
| Engine.Engine.SaveSnapshot | game/engine.ts:79-84 | the current tick's state is appended as a snapshot |
| Engine.Engine.InsertSnapshot | game/client-engine.ts:140-146 | the snapshot is stored in tick order, overwriting one of the same tick, and the history invariant is kept for a snapshot not in the future |
| Engine.Engine.RestoreSnapshot | game/engine.ts:86-90 | the game merges the snapshot's full state, and the tick becomes the snapshot's |
| Engine.Engine.FindClosestSnapshot | game/engine.ts:115-122 | the snapshot at the Closest index, or none |
| Engine.Engine.RestoreSnapshotTo | game/engine.ts:92-101 | succeeds exactly when a snapshot at or before the tick exists, then restores it; on failure nothing changes |
| Engine.Engine.RestoreApplyReplay | game/engine.ts:36-51 | at the current tick, the patch is applied directly; otherwise it fails exactly when no snapshot is found (and changes nothing), and on success it restores, patches and replays back to the old tick |
| Engine.Engine.SavePlayerEvent | game/engine.ts:103-110 | the input log becomes Inserted of the old log, keeping it sorted |
| Engine.Engine.GarbageCollect | game/engine.ts:127-131 | snapshots and inputs are both trimmed at `timestep - lookback`, keeping the invariant |
| Engine.Engine.TrimSnapshots | game/engine.ts:127-146 | the snapshots are trimmed, staying strictly sorted and not in the future |
| Engine.Engine.TrimInputs | game/engine.ts:127-146 | the inputs are trimmed, staying sorted |
| Engine.Engine.Reset | game/server-engine.ts:112-116 | both logs are emptied |
| Engine.Engine.TimerStep | game/client-engine.ts:202-208 | Step, then a snapshot appended exactly on ticks that are multiples of the snapshot frequency |
| ClientEngines.Route | game/client-engine.ts:66-127 | handleMessage's dispatch: another game's messages are dropped except a reset; syncs only without a winner; out-of-order syncs, partials more than two periods old, the player's own echoed inputs and inputs at or before the last sync are dropped; every other kind reaches its handler |
| ClientEngines.UnseenInputs | game/client-engine.ts:159-161 | exactly the player's logged inputs at or before the sync tick that the server's tick list does not cover |
| ClientEngines.StaleIff | game/client-engine.ts:159-164 | a partial sync is stale exactly when some logged input is unseen |
| ClientEngines.OthersNeverStale | game/client-engine.ts:159-161 | with no input of the player's own, no partial sync is stale |
| ClientEngines.ClientGcAsWrittenDropsUnsynced | game/client-engine.ts:211-213 | as written, at tick 1000 with the last sync at 400, the collection drops an input of tick 500 that is newer than the last sync |
| ClientEngines.ClientGcKeepsUnsynced | game/client-engine.ts:211-213 | with the corrected lookback, every input newer than the last sync survives the collection |
| ClientEngines.ClientGcPreservesReplay | game/client-engine.ts:211-213 | with the corrected lookback, any replay from the last sync onward is unchanged by the collection |
| ClientEngines.ClientEngine.constructor | game/client-engine.ts:16-32 | a client engine at the initial tick over the given state, with empty logs |
| ClientEngines.ClientEngine.SelfLander | game/client-engine.ts:230-232 | the lander with the player's id, or none exactly when there is none |
| ClientEngines.ClientEngine.ProcessLocalInput | game/client-engine.ts:51-64 | without an own lander nothing happens; otherwise the input is stamped with the current tick, logged in tick order and sent to the server (it takes effect when that tick is replayed) |
| ClientEngines.ClientEngine.ReceiveRemoteInput | game/client-engine.ts:100-105 | the remote input is logged in tick order; for a past tick the game is rolled back to the closest snapshot and replayed to the present, failing with no change when there is none; at the current tick the game is left for the next step; the new game is RemoteInputGame of the old state |
| ClientEngines.ClientEngine.ApplyReset | game/client-engine.ts:112-116 | a reset empties both logs, merges the full state and moves every tick counter to the reset tick (the controller reset is a no-op; see Left out) |
| ClientEngines.ClientEngine.ApplyFullSync | game/client-engine.ts:135-157 | a full sync is stored as a snapshot at its tick, the last sync becomes that tick, and the game is restored from it and replayed to the present |
| ClientEngines.ClientEngine.StoreFullSnapshot | game/client-engine.ts:140-146 | the snapshot list becomes Placed of the old one and Closest finds the new snapshot at its own tick |
| ClientEngines.ClientEngine.RestoreFromFull | game/client-engine.ts:151-156 | the game is restored from the stored full sync and replayed to the old tick |
| ClientEngines.ClientEngine.ApplyPartialSync | game/client-engine.ts:158-199 | a stale partial sync changes nothing; otherwise the last sync moves to its tick, and the game is rolled back, patched and replayed, or a full sync is requested when no snapshot is found |
| ClientEngines.ClientEngine.HandleSync | game/client-engine.ts:87-90 | a sync from the future is caught up to first; the input log is kept and the last sync moves unless a partial is stale; a full sync joins the snapshot list (a partial leaves it); the game is SyncedGame of the old state (the catch-up replay, then the restore, merge and replay of the sync); a full-sync request is sent exactly when SyncRequest says so (a fresh partial from the past with no snapshot to restore) |
| ClientEngines.ClientEngine.HandleMessage | game/client-engine.ts:66-127 | for each Route outcome: dropped messages change nothing; a sync has HandleSync's effect on the tick, the logs, the snapshots, the game and the outbox; a remote input has ReceiveRemoteInput's effect on the log and the game; resets, meta, reset notices and chat have their handler's effect on the whole view |
| ClientEngines.ClientEngine.HandleGameMessage | game/client-engine.ts:72-116 | the sync, remote-input and reset branches, each with its handler's effect |
| ClientEngines.ClientEngine.HandleOtherMessage | game/client-engine.ts:66-127 | the dropped messages change nothing; meta, reset notices and chat change only their part of the view |
| ClientEngines.ClientEngine.TimerStep | game/client-engine.ts:202-215 | the tick reaches StepTarget after other players' inputs of the old tick are applied; snapshots are saved and garbage is collected on their periods, at the last sync: the corrected cutoff of Findings row 1 (see Left out) |
| ClientEngines.ClientEngine.StepWithRemoteInputs | game/client-engine.ts:206-208 | other players' inputs of the current tick are applied, then the engine steps and saves a snapshot when due |
| ClientEngines.ClientEngine.CollectIfDue | game/client-engine.ts:211-213 | on collection ticks, both logs are trimmed at the last sync: the corrected lookback of Findings row 1, not the source's; otherwise they are unchanged |
| ServerRules.Unused | game/server-engine.ts:32-39 | the palette colours no lander uses |
| ServerRules.PickedColor | game/server-engine.ts:32-39 | a palette colour, and an unused one whenever one is left |
| ServerEngines.ColorForChoice | game/server-engine.ts:31-39 | a requested colour is kept; otherwise the colour comes from the palette, unused when possible |
| ServerEngines.WithLanderAppends | game/server-engine.ts:31-49 | addPlayer appends exactly one new lander for the player and keeps the others |
| ServerEngines.ServerEngine.AddPlayer | game/server-engine.ts:31-49 | the game gains the player's lander with the picked colour |
| ServerEngines.Route | game/server-engine.ts:51-100 | handleMessage's dispatch: another game's messages are obsolete; every other kind reaches exactly its handler |
| ServerEngines.ServerEngine.Join | game/server-engine.ts:57-63 | the player joins with a picked colour; the joiner gets a reset and everyone a partial sync |
| ServerEngines.ServerEngine.AnnounceJoin | game/server-engine.ts:57-63 | a reset to the sender and a partial sync to everyone, moving the last sync |
| ServerEngines.ServerEngine.QueueInputMessage | game/server-engine.ts:64-66 | the input is queued and relayed to everyone, and nothing else changes |
| ServerEngines.ServerEngine.RequestStart | game/server-engine.ts:67-72 | the requester joins and the game is reset with the requested options |
| ServerEngines.ServerEngine.ScheduleRequestedReset | game/server-engine.ts:73-83 | a reset is scheduled after the wait: timestamp set, countdown announced, timer queued |
| ServerEngines.ServerEngine.FireTimer | game/server-engine.ts:78-83 | a fired reset timer resets the game when a reset is still pending and does nothing otherwise; the timer is consumed either way |
| ServerEngines.ServerEngine.CancelResetCountdown | game/server-engine.ts:84-90 | the pending reset is cleared and the cancellation announced, and nothing else changes |
| ServerEngines.ServerEngine.RenameLander | game/server-engine.ts:91-96 | the game becomes Renamed: the sender's lander, when present, takes the new name; nothing else changes |
| ServerEngines.RenamedOnlyName | game/server-engine.ts:91-96 | only the first lander with the sender's id changes, and only in its name; the lander count and the rest of the game are kept |
| ServerEngines.ServerEngine.RenamePlayer | game/server-engine.ts:91-96 | the rename, followed by a partial sync to everyone |
| ServerEngines.ServerEngine.Relay | game/server-engine.ts:97-98 | the message goes to everyone and nothing else changes |
| ServerEngines.ServerEngine.HandleMessage | game/server-engine.ts:51-100 | for each Route outcome that handler's effect: join adds the lander and sends the reset and the partial sync; start adds the lander and resets the game to ResetImage with its announcement; rename renames and sends a partial sync; input, reset request, cancel and chat change exactly their part of the view; obsolete and unhandled messages change nothing; connections, running state and tick never change |
| ServerEngines.ServerEngine.HandlePlayerMessage | game/server-engine.ts:57-96 | join adds the lander and sends the reset and the partial sync; start adds the lander, then the game becomes ResetImage with logs and queue emptied and the reset announced; rename gives the game Renamed and sends a partial sync |
| ServerEngines.ServerEngine.HandleRelayMessage | game/server-engine.ts:64-98 | input, reset, cancel and chat messages have their handlers' effects |
| ServerRules.PlayerInputsUpTo | game/server-engine.ts:102-110 | exactly the logged inputs of one player up to the tick |
| ServerRules.PlayerInputsSorted | game/server-engine.ts:102-110 | one player's inputs from a sorted log are sorted |
| ServerRules.LastTicks | game/server-engine.ts:106 | the corrected slice: the last at most 100 ticks, a suffix of the list |
| ServerRules.LastTicksAsWrittenAgrees | game/server-engine.ts:106 | `slice(len - 100)` agrees with LastTicks exactly for at most 50 or at least 100 ticks; with 60 ticks it keeps only 40 |
| ServerRules.LanderIds | game/server-engine.ts:102-110 | exactly the ids of the landers |
| ServerRules.TicksRecordCovers | game/server-engine.ts:102-110 | the record has one entry per lander id, holding that player's last (at most 100) logged ticks: the corrected LastTicks of Findings row 3 |
| ServerRules.LoggedNeverUnseen | game/server-engine.ts:102-110 | every input in the server's sorted log is covered by the record it sends, so the client never finds it unseen |
| ServerRules.LoggedNeverUnseenAsWritten | game/server-engine.ts:102-110 | with the slice as written (Findings row 3) the record still covers every logged input, so that finding never makes the client's staleness filter flag a logged input |
| ServerRules.TailCovers | game/server-engine.ts:102-110 | a sorted tick at or after the oldest kept one is among the kept ticks |
| ServerRules.SuffixCovers | game/server-engine.ts:102-110 | a sorted tick at or after the first of any non-empty tail is in that tail |
| ServerEngines.ServerEngine.GetLastPlayerInputTimesteps | game/server-engine.ts:102-110 | the loop over the landers builds TicksRecord, whose lists are the corrected LastTicks of Findings row 3 |
| ServerEngines.PartialSyncRecords | game/server-engine.ts:282-290 | the partial sync carries the current tick, game id, partial state and tick record |
| ServerEngines.ServerEngine.MakePartialMessage | game/server-engine.ts:282-290 | the message is PartialSync of the current state |
| ServerEngines.ServerEngine.SyncNow | game/server-engine.ts:223-228 | a partial sync goes to everyone and the last sync becomes the current tick |
| ServerEngines.ServerEngine.Broadcast | game/server-engine.ts:245-250 | the message goes to everyone; a partial sync moves the last sync to the current tick |
| ServerEngines.ServerEngine.Send | game/server-engine.ts:267-269 | the message goes to one connection |
| ServerEngines.ServerEngine.ClearAndAnnounce | game/server-engine.ts:112-116 | both logs, the pending reset and the queue are emptied and the reset announced |
| ServerRules.Rejoined | game/server-engine.ts:122-146 | each connected previous lander comes back as a new lander with its id, name and colour |
| ServerRules.KeptWins | game/server-engine.ts:122-146 | with preserveScores, exactly the scores of connected previous players are kept; otherwise none |
| ServerRules.ResetKeepsConnected | game/server-engine.ts:122-146 | after a reset: a new game id and no winner; exactly the connected previous players' landers return, in order, alive and with no intents; the map is kept with preserveMap; scores are cleared without preserveScores |
| ServerEngines.ServerEngine.RejoinOne | game/server-engine.ts:130-140 | a connected previous player is re-added with its wins when kept; a disconnected one is skipped |
| ServerEngines.ServerEngine.RejoinPlayers | game/server-engine.ts:130-140 | the loop builds Rejoined and KeptWins over the connected previous landers |
| ServerEngines.ServerEngine.RebuildGame | game/server-engine.ts:122-146 | the game becomes ResetImage |
| ServerEngines.ServerEngine.ResetGame | game/server-engine.ts:122-146 | the game becomes ResetImage, both logs and the queue are emptied, and the reset is announced |
| ServerEngines.ServerEngine.OnConnect | game/server-engine.ts:148-156 | the connection is recorded, the server runs, and the newcomer gets an init message |
| ServerEngines.ServerEngine.OnDisconnect | game/server-engine.ts:158-161 | the connection is removed, and the server runs exactly while someone is connected |
| ServerEngines.ServerEngine.MaybeStart | game/server-engine.ts:323-329 | the server runs once someone is connected |
| ServerEngines.ServerEngine.MaybeStop | game/server-engine.ts:331-336 | the server stops once nobody is connected |
| ServerRules.SortByTimeSpec | game/server-engine.ts:252-265 | the sorted queue is sorted and a permutation of the queue |
| ServerRules.SortedFirstIsEarliest | game/server-engine.ts:252-265 | the first queued input after sorting is the earliest one |
| ServerRules.InsertedAllSorted | game/server-engine.ts:252-265 | inserting a batch into a sorted log keeps it sorted and adds exactly the batch (multiset) |
| ServerEngines.ServerEngine.SaveAll | game/server-engine.ts:252-265 | the loop saves the batch, so the log becomes InsertedAll |
| ServerEngines.ServerEngine.DrainQueue | game/server-engine.ts:252-265 | the queue is sorted, emptied and logged; the log gains exactly the queued inputs |
| ServerEngines.ServerEngine.ReplayFromTick | game/server-engine.ts:252-265 | the game is rolled back to the earliest queued tick and replayed to the present |
| ServerEngines.ServerEngine.ProcessInputQueue | game/server-engine.ts:252-265 | the queue is logged in order and emptied; an empty queue changes nothing; otherwise the game is replayed from the earliest queued tick |
| ServerEngines.ServerEngine.PostStepOne | game/server-engine.ts:238-243 | removed objects raise the immediate-broadcast flag (no modelled tick calls it; see Left out) |
| ServerRules.AddWins | game/server-engine.ts:173-205 | a player's score grows by n and other scores are kept |
| ServerRules.LandingsNone | game/server-engine.ts:173-192 | without a live landed lander, the landing check changes nothing |
| ServerRules.LandingsWinner | game/server-engine.ts:173-192 | the last live landed lander in lander order is recorded as the winner by landing |
| ServerRules.LandingsWins | game/server-engine.ts:173-192 | scores are never lost, and a player who did not land keeps their score |
| ServerRules.ConnectedMembers | game/server-engine.ts:194-205 | exactly the landers whose players are connected |
| ServerRules.ConnectedAll | game/server-engine.ts:194-205 | when every player is connected, every lander is kept |
| ServerRules.AliveOfMembers | game/server-engine.ts:194-205 | exactly the live landers |
| ServerRules.LastLanderRuleSpec | game/server-engine.ts:194-205 | without a winner, a last-lander win happens exactly when more than one connected lander exists and exactly one is alive; the winner is that only live connected lander, and it scores one point |
| ServerRules.Judged | game/server-engine.ts:171-205 | a game that already has a winner is not judged again |
| ServerRules.LandingBeatsLastLander | game/server-engine.ts:173-205 | a landing found in the same tick wins over the last-lander rule |
| ServerEngines.ServerEngine.CheckLandings | game/server-engine.ts:173-192 | the landing loop records the Landings result in the game |
| ServerEngines.ServerEngine.CheckLastLander | game/server-engine.ts:194-205 | the last-lander check records the LastLanderRule result in the game |
| ServerEngines.ServerEngine.CheckWinners | game/server-engine.ts:173-205 | both checks together record the Judged result |
| ServerEngines.ServerEngine.StartCountdownIfOver | game/server-engine.ts:207-219 | when the game has just been won or every lander is dead, the end-of-game reset is scheduled and announced |
| ServerEngines.ServerEngine.JudgeIfOngoing | game/server-engine.ts:171-219 | during a reset countdown nothing is judged; otherwise winners are judged and the countdown starts exactly when due |
| ServerEngines.ServerEngine.SyncIfDue | game/server-engine.ts:223-228 | on sync ticks, or when a broadcast is pending, a partial sync goes out; otherwise nothing is sent |
| ServerEngines.ServerEngine.CollectIfDue | game/server-engine.ts:231-233 | on collection ticks, both logs are trimmed one period back: the corrected cutoff of Findings row 2, not the source's; otherwise they are unchanged |
| ServerEngines.ServerEngine.CollectNow | game/server-engine.ts:231-233 | both logs are trimmed one collection period back: the corrected cutoff of Findings row 2, not the source's constant one |
| ServerRules.ServerGcAsWrittenKeepsStale | game/server-engine.ts:231-233 | as written, the cutoff is the constant period; at tick 36000 with period 3600, an input of tick 5000 is never collected |
| ServerRules.ServerGcKeepsLastPeriod | game/server-engine.ts:231-233 | with the corrected lookback, everything newer than one period ago survives |
| ServerRules.KeptAfterCutoff | game/engine.ts:141-146 | an entry later than the cutoff survives trimming |
| ServerEngines.ServerEngine.Advance | game/server-engine.ts:163-168 | the input queue is processed, then the engine steps to StepTarget |
| ServerEngines.ServerEngine.CollectAndLower | game/server-engine.ts:231-235 | garbage collection when due, one period back (the corrected cutoff of Findings row 2; see Left out), then the broadcast flag is lowered |
| ServerEngines.ServerEngine.CloseTick | game/server-engine.ts:223-235 | sync when due, collect when due at the corrected cutoff of Findings row 2, flag lowered |
| ServerEngines.ServerEngine.FinishTick | game/server-engine.ts:169-235 | judging, syncing and collecting after the step (collection at the corrected cutoff of Findings row 2), with the flag lowered |
| ServerEngines.ServerEngine.TimerStep | game/server-engine.ts:163-236 | the queue is drained into the log, the tick reaches StepTarget, the log is collected on its period at the corrected cutoff of Findings row 2, and the broadcast flag ends lowered |
| ServerEngines.ServerEngine.constructor | game/server-engine.ts:13-29 | the server starts at tick 0 with infinite health and fuel, empty logs and queue, no connections, not running and no pending reset |
| GameStates.GameState.constructor | game/game-state.ts:34-42 | a state with the moon, no landers and no rockets, and the world extended by the ground body at the origin and the sky body at the moon's height |
| GameStates.GameState.SteppableAt | game/game-state.ts:59-66 | position n is the n-th lander, or past the landers the matching rocket |
| GameStates.GameState.ApplyPlayerInput | game/game-state.ts:68-82 | with no lander for the player nothing changes; a fire-rocket appends one new rocket owned by that lander (also on the client; see Left out); any other event changes only that lander, by Processed |
| GameStates.GameState.FireFromLander | game/game-state.ts:71-77 | one new rocket owned by the lander is appended and the landers are unchanged |
| GameStates.GameState.FireRocket | game/game-state.ts:71-77 | one fresh rocket with the Constructed fields and the given id (see Left out) is appended under its handle, and the world gains its body |
| GameStates.GameState.ProcessLanderInput | game/game-state.ts:79 | only the chosen lander changes, by Processed |
| GameStates.GameState.PreStepAll | game/game-state.ts:46-48 | every lander's fields become PreStepped, with the lander's own argument list (see Left out) |
| GameStates.GameState.PreStepLander | game/game-state.ts:46-48 | only the chosen lander is pre-stepped |
| GameStates.GameState.PostStepAll | game/game-state.ts:53-54 | every rocket ages by one tick and nothing else about it changes |
| GameStates.GameState.PostStepRocket | game/game-state.ts:53-54 | only the chosen rocket ages |
| GameStates.GameState.WrapAll | game/game-state.ts:55 | every lander and rocket body is wrapped into the world width |
| GameStates.GameState.WrapLander | game/game-state.ts:55 | only the chosen lander's body is wrapped |
| GameStates.GameState.WrapRocket | game/game-state.ts:55 | only the chosen rocket's body is wrapped |
| GameStates.GameState.Step | game/game-state.ts:44-57 | each lander pre-steps and wraps, and each rocket ages by one tick and wraps |
| GameStates.GameState.AppendLander | game/game-state.ts:146-148 | a new lander built from the payload is appended |
| GameStates.GameState.OverwriteLander | game/game-state.ts:150 | the existing lander at the position takes the payload's fields |
| GameStates.GameState.MergeLander | game/game-state.ts:143-153 | the lander table becomes Upsert of the payload item by id |
| GameStates.GameState.MergeLanders | game/game-state.ts:143-153 | the lander table becomes UpsertAll of the payload by id |
| GameStates.GameState.MergeRocket | game/game-state.ts:155-165 | the rocket table becomes Upsert of the payload item by id; a new rocket is built by the corrected CreateFrom of Findings row 4, so it keeps the payload's age |
| GameStates.GameState.AppendRocket | game/game-state.ts:155-165 | a new rocket built from the payload by the corrected CreateFrom of Findings row 4 is appended, with the payload's age |
| GameStates.GameState.OverwriteRocket | game/game-state.ts:155-165 | the existing rocket at the position takes the payload's fields |
| GameStates.GameState.MergeRockets | game/game-state.ts:155-165 | the rocket table becomes UpsertAll of the payload by id, new rockets keeping the payload's age (corrected CreateFrom, Findings row 4) |
| GameStates.GameState.MergeEntities | game/game-state.ts:131-132 | landers, then rockets, are merged by id; new rockets keep the payload's age (corrected CreateFrom, Findings row 4) |
| GameStates.GameState.MergeFull | game/game-state.ts:125-133 | the moon and world are replaced, then landers and rockets are merged by id; new rockets keep the payload's age (corrected CreateFrom, Findings row 4) |
| GameStates.GameState.ReplaceTerrain | game/game-state.ts:126-130 | the moon and world are replaced, the ground and sky re-bound, and the entities untouched |
| GameStates.GameState.MergePartial | game/game-state.ts:135-141 | the world is replaced and landers and rockets merged by id; the moon is kept; new rockets keep the payload's age (corrected CreateFrom, Findings row 4) |
| GameStates.GameState.ReplaceWorld | game/game-state.ts:136-138 | the world is replaced and the ground, then the sky, re-read; a missing ground or sky handle is the error |
| Controls.DeriveArrowKeyDirection | game/controls.ts:91-96 | a direction exactly for keys starting with "Arrow": the rest of the key in lower case (ASCII letters only; see Left out) |
| Controls.ArrowKeys | game/controls.ts:91-96 | the four arrow keys give up, down, left and right; other keys give no direction |
| Controls.OnKeyDown | game/controls.ts:24-50 | each arrow key starts its intent exactly when it is not already active (and thrust only while the throttle can still move); nothing without an own lander |
| Controls.OnKeyUp | game/controls.ts:52-77 | each arrow key stops its intent exactly when it is active; nothing without an own lander |
| Controls.OnKeyPress | game/controls.ts:79-89 | "q" fires a small rocket exactly when the player has a lander |
| Controls.KeyEventsChangeIntent | game/controls.ts:24-77 | every event a key sends changes a live lander's intents |
| Controls.KeyRepeatSilent | game/controls.ts:24-77 | a key held down (auto-repeat) sends no second event once its intent is applied |

## Left out

- TimerStep (ServerEngines.ServerEngine): the log is collected at the corrected cutoff `timestep - FREQ` of Findings row 2, where the source as written cuts at the constant tick FREQ. The contract states the tick, the drained queue, the log and the lowered flag; the outbox, the game and the snapshot list after the judge/sync/collect stages are stated only by the stage methods (JudgeIfOngoing, SyncIfDue, CollectIfDue), to keep the proof within the solver's budget.
- FinishTick: collects at the corrected cutoff of Findings row 2, not the source's constant one. It states the flag and the input log only; the other effects are those of JudgeIfOngoing, SyncIfDue and CollectIfDue, which it calls in order.
- CloseTick: collects at the corrected cutoff of Findings row 2, not the source's constant one. It states the flag and the input log only, for the same reason as FinishTick.
- CollectAndLower: trims the log at the corrected cutoff `timestep - FREQ` of Findings row 2; the source as written trims at the constant tick FREQ (ServerRules.ServerGcAsWrittenKeepsStale).
- TimerStep (ClientEngines.ClientEngine): trims both logs at the last sync, the corrected cutoff of Findings row 1; the source as written cuts at `timestep - lastSyncTimestep` (ClientEngines.ClientGcAsWrittenDropsUnsynced).
- MergeEntities: rockets new to the table are built with the corrected CreateFrom of Findings row 4 and keep the payload's age; the source as written restarts it at 0.
- MergeFull: merges through MergeEntities, so new rockets keep the payload's age as in Findings row 4 corrected.
- MergePartial: merges through MergeEntities, so new rockets keep the payload's age as in Findings row 4 corrected.
- Physics (rapier2d): stepping the world, collisions, forces and the landing test are abstract; `WorldOps` holds them as functions and `landed` is a parameter.
- Steering trigonometry in preStep (the rotation and thrust forces) and `rotateVector` are left out, because they only feed the abstract physics.
- Floating point: angles, fuel and health are `real`; there is no rounding.
- Game-wide constants and palettes whose file is not part of this model (the sync, snapshot and collection frequencies, the lander colours, the rocket stats, the reset wait times) are class parameters.
- Randomness (colour choice, new game ids and maps) and clocks (`Date.now()`, `performance.now()`) are parameters.
- Sockets are an `outbox` sequence of sent messages; `setTimeout` is a `timers` list, fired by `FireTimer`.
- Logging, mobx observability and the node `assert` are left out, except as the next two lines say. The assert on sync order in client handleMessage is modelled as the `OutOfOrderSync` no-op.
- The client's request senders (joinGame, resetGame, startGame, cancelResetGame, setPlayerSettings, sendChat) and the chat listeners are left out; they only send a message or notify the UI.
- The client's postStepOne (it removes expired rockets through the abstract physics) and isPlaying are left out.
- Server dispose (it stops the timer) is left out.
- createNew, createFromFull and the serialisation buffers are left out; the game state is built by its constructor and merged through MergeFull.
- The controller's install/uninstall (DOM listeners) and the empty stub generateGameInputEvent are left out.
- ApplyReset: the client's reset (game/client-engine.ts:129-132) also calls `controller.reset()`, which the keyboard controller of game/controls.ts does not define, so as written a reset message throws after both logs are emptied and before the merge and the tick updates. The two files come from different revisions; the controller has no modelled state, so the model treats the call as a no-op and performs the whole reset. The reset branch of HandleMessage and HandleGameMessage inherits this.
- ApplyPlayerInput: game/game-state.ts:72 asserts that it runs on the server, so a fire-rocket throws on the client. The client forwards its own player's fire-rocket there (game/client-engine.ts:43-44; game/controls.ts:84-87 sends one on "q"), so a client replay over its own rocket throws in the source. The model has no exception there and appends the rocket, as the comment at game/client-engine.ts:41-42 intends.
- PostStepOne: the stepOne of game/engine.ts:31-34 never calls postStepOne, and the model's Engine.StepOne follows it. So no modelled tick raises the immediate-broadcast flag when a rocket expires, and the immediate sync after an expiry (game/server-engine.ts:238-243) is not modelled. Advance's lowered flag after an empty queue holds only because of this.
- The base engine's timerStep, reset, insertSnapshot and postStepOne are called by the client and server engines but are not in game/engine.ts. They are modelled from their use: TimerStep is Step followed by a snapshot on multiples of the snapshot frequency; Reset empties both logs; InsertSnapshot stores a snapshot in tick order, overwriting one of the same tick; PostStepOne raises the broadcast flag when objects were removed, but nothing in the model calls it (see the PostStepOne line).
- Lander and rocket mergeFrom pass `data.handle` to updateCollider, which takes only the world and reads the object's own handle; the model follows that.
- Rebind: when the world has no collider under the new handle, game/objects/sky.ts:26-29 stores the undefined result of getCollider; the model keeps the old handle and collider, because an absent collider is not a value of the model.
- CollectIfDue (ClientEngines.ClientEngine): trims with the corrected lookback of Findings row 1 (everything after the last sync is kept); the source as written trims at tick `timestep - lastSyncTimestep`, which ClientEngines.ClientGcAsWrittenDropsUnsynced states.
- CollectIfDue (ServerEngines.ServerEngine): trims at the corrected cutoff `timestep - FREQ` of Findings row 2; the source as written trims at the constant tick FREQ, which ServerRules.ServerGcAsWrittenKeepsStale states.
- CollectNow: the same corrected cutoff of Findings row 2, not the source's constant one.
- KnownTicksFor: uses the corrected LastTicks of Findings row 3; the source's slice is KnownTicksForAsWritten, which sends fewer ticks for 51 to 99 logged inputs (ServerRules.LastTicksAsWrittenAgrees) but still covers every logged input (ServerRules.LoggedNeverUnseenAsWritten).
- TicksRecordCovers: its lists are the corrected KnownTicksFor of Findings row 3, not the source's slice.
- GetLastPlayerInputTimesteps: builds the record of the corrected KnownTicksFor of Findings row 3, not the source's slice.
- AppendRocket: new rockets are built with the corrected Rockets.CreateFrom of Findings row 4 and keep the payload's age; the source as written restarts it at 0 (Rockets.CreateFromAsWritten, Rockets.CreateFromResetsAge).
- MergeRocket: a rocket new to the table is built with the corrected CreateFrom of Findings row 4, as in AppendRocket.
- MergeRockets: the same corrected CreateFrom of Findings row 4 for every rocket new to the table.
- PreStepAll: game/game-state.ts:47 calls `preStep(world.timestep)`, while game/objects/lander.ts:172-173 takes `(dt, timestep, options)` and reads `options.infiniteHealth`; the two files come from different revisions, and the model passes the lander's own argument list (dt, tick and options, given to GameState.Step).
- Step: passes dt, the tick and the options down to PreStepAll for the same reason.
- FireRocket: game/game-state.ts:73-75 calls Rocket.create without the `id` that its options type requires (game/rocket.ts:25-27); the model takes the new rocket's id as a parameter.
- ToLower: lower-cases the ASCII letters A-Z only, where JavaScript's toLowerCase also maps other Unicode letters; there is no Unicode case table in the model.
- DeriveArrowKeyDirection: inherits ToLower's ASCII-only lower-casing; for the key names the browser sends ("ArrowUp" and so on) the result is the same.

## Findings

| source | as written | input that shows it | evidently intended | confidence | as-written member | corrected member |
|---|---|---|---|---|---|---|
| game/client-engine.ts:212 | `garbageCollect(lastSyncTimestep)` passes a tick as the lookback, so the cutoff is `timestep - lastSyncTimestep` | tick 1000, last sync 400, an unsynced input at tick 500: the cutoff is 600 and the input is dropped | keep everything after the last sync (lookback `timestep - lastSyncTimestep`) | not executed | ClientEngines.ClientGcAsWrittenDropsUnsynced | ClientEngines.ClientGcKeepsUnsynced |
| game/server-engine.ts:232 | `garbageCollect(timestep - FREQ)` passes a tick as the lookback, so the cutoff is the constant FREQ | tick 36000, period 3600: the cutoff stays 3600 and an input of tick 5000 is never collected | keep one period (lookback FREQ, cutoff `timestep - FREQ`) | not executed | ServerRules.ServerGcAsWrittenKeepsStale | ServerRules.ServerGcKeepsLastPeriod |
| game/server-engine.ts:106 | `slice(length - 100)` with fewer than 100 ticks gives a negative start, which counts from the end | 60 logged ticks: only the last 40 are sent | the last at most 100 ticks | not executed | ServerRules.LastTicksAsWrittenAgrees | ServerRules.LastTicks |
| game/rocket.ts:44-50 | createFrom builds the rocket with the constructor, which copies only id, owner, type and colour, so aliveSteps restarts at 0 | a rocket 5 ticks old in a full sync is rebuilt 0 ticks old, so it outlives its lifetime on the receiving client | the rebuilt rocket carries every serialised field | not executed | Rockets.CreateFromResetsAge | Rockets.CreateFrom |

=== FILE: client_engine.dfy ===
/**
 * The client coordinator of game/client-engine.ts: it owns a base engine in
 * the client role, turns local key events into logged and sent inputs,
 * and reconciles its prediction with the server's messages (drop, catch
 * up, restore-and-replay, or wait for a sync that has seen every local
 * input). Sending is an append to `outbox`; chat listeners are an append
 * to `chats`.
 */
module ClientEngines {
  import opened Types
  import opened Timelines
  import opened Engine
  import opened Protocol
  import Landers

  /** What handleMessage does with a server message. */
  datatype ClientAction =
    | WrongGame
      // a sync older than the last one: the source's assert throws, nothing changes
    | OutOfOrderSync
    | TooOldPartial
    | ApplySync(catchUp: bool)
    | OwnEcho
    | ObsoleteInput
    | RemoteInput
    | ResetTo
    | MergeMeta
    | ShowResetPending
    | ClearResetPending
    | DeliverChat
      // init, and a sync that arrives while a winner is recorded
    | NoHandler
  {
    /** The branches that change the game or its history. */
    predicate ChangesGame() {
      ApplySync? || RemoteInput? || ResetTo?
    }
  }

  /** The branch of handleMessage a message takes. */
  function Route(msg: ServerMessage, gameId: string, hasWinner: bool, self: string,
                 timestep: int, lastSync: int, partialSyncFreq: int): (a: ClientAction)
    // another game's messages are dropped, except a reset
    ensures a == WrongGame <==> msg.GameIdOf() != Some(gameId) && !msg.Reset?
    // syncs are handled only while no winner is recorded
    ensures (msg.Full? || msg.Partial?) && a != WrongGame ==> (a == NoHandler <==> hasWinner)
    ensures a == OutOfOrderSync <==>
      (msg.Full? || msg.Partial?) && msg.GameIdOf() == Some(gameId) && !hasWinner && msg.time < lastSync
    ensures a == TooOldPartial <==>
      msg.Partial? && msg.GameIdOf() == Some(gameId) && !hasWinner && msg.time >= lastSync
      && timestep - msg.time > 2 * partialSyncFreq
    ensures a.ApplySync? ==>
      (msg.Full? || msg.Partial?) && msg.time >= lastSync && (a.catchUp <==> msg.time > timestep)
    ensures a == OwnEcho <==> msg.Input? && msg.input.gameId == gameId && msg.input.playerId == self
    ensures a == RemoteInput <==>
      msg.Input? && msg.input.gameId == gameId && msg.input.playerId != self && msg.input.time > lastSync
    ensures a == ObsoleteInput <==>
      msg.Input? && msg.input.gameId == gameId && msg.input.playerId != self && msg.input.time <= lastSync
    ensures a == ResetTo <==> msg.Reset?
    ensures a == MergeMeta <==> msg.Meta? && msg.gameId == gameId
    ensures a == ShowResetPending <==> msg.ResetPending? && msg.gameId == gameId
    ensures a == ClearResetPending <==> msg.ResetCancelled? && msg.gameId == gameId
    ensures a == DeliverChat <==> msg.Chat? && msg.gameId == gameId
  {
    if msg.GameIdOf() != Some(gameId) && !msg.Reset? then WrongGame
    else if (msg.Full? || msg.Partial?) && !hasWinner then
      if msg.time < lastSync then OutOfOrderSync
      else if msg.Partial? && timestep - msg.time > 2 * partialSyncFreq then TooOldPartial
      else ApplySync(msg.time > timestep)
    else
      match msg
      case Input(m) =>
        if m.playerId == self then OwnEcho
        else if m.time > lastSync then RemoteInput
        else ObsoleteInput
      case Reset(_, _, _) => ResetTo
      case Meta(_, _, _) => MergeMeta
      case ResetPending(_, _, _, _) => ShowResetPending
      case ResetCancelled(_, _) => ClearResetPending
      case Chat(_, _, _, _) => DeliverChat
      case _ => NoHandler
  }

  /** The ticks the server lists for this player (none when absent). */
  function KnownTicks(known: map<string, seq<int>>, self: string): seq<int> {
    if self in known then known[self] else []
  }

  /** The oldest server-known tick, 0 when the list is empty. */
  function OldestKnown(ks: seq<int>): int {
    if |ks| > 0 then ks[0] else 0
  }

  /** An own input in the sync's window that the server's list does not mention. */
  predicate Unseen(m: PlayerInputMessage, self: string, ks: seq<int>, t: int) {
    m.playerId == self && OldestKnown(ks) <= m.time <= t && m.time !in ks
  }

  /** The unseenInputs filter, order kept. */
  function UnseenInputs(log: seq<PlayerInputMessage>, self: string, known: map<string, seq<int>>, t: int)
    : (r: seq<PlayerInputMessage>)
    ensures |r| <= |log|
    ensures forall m :: m in r <==> m in log && Unseen(m, self, KnownTicks(known, self), t)
  {
    if log == [] then []
    else
      var rest := UnseenInputs(log[..|log| - 1], self, known, t);
      var m := log[|log| - 1];
      assert log == log[..|log| - 1] + [m];
      if Unseen(m, self, KnownTicks(known, self), t) then rest + [m] else rest
  }

  /** A partial sync is stale when the server has missed one of this player's inputs. */
  predicate Stale(log: seq<PlayerInputMessage>, self: string, known: map<string, seq<int>>, t: int) {
    |UnseenInputs(log, self, known, t)| > 0
  }

  /**
   * Staleness in terms of the log itself: some own input at a tick between
   * the oldest server-known tick and the sync's tick that the server's list
   * leaves out.
   */
  lemma StaleIff(log: seq<PlayerInputMessage>, self: string, known: map<string, seq<int>>, t: int)
    ensures Stale(log, self, known, t) <==>
      exists i :: 0 <= i < |log| && Unseen(log[i], self, KnownTicks(known, self), t)
  {
    var r := UnseenInputs(log, self, known, t);
    if |r| > 0 {
      assert r[0] in r;
      var i :| 0 <= i < |log| && log[i] == r[0];
    }
    if exists i :: 0 <= i < |log| && Unseen(log[i], self, KnownTicks(known, self), t) {
      var i :| 0 <= i < |log| && Unseen(log[i], self, KnownTicks(known, self), t);
      assert log[i] in log;
      assert log[i] in r;
    }
  }

  /** Inputs of other players never make a sync stale. */
  lemma OthersNeverStale(log: seq<PlayerInputMessage>, self: string, known: map<string, seq<int>>, t: int)
    requires forall i :: 0 <= i < |log| ==> log[i].playerId != self
    ensures !Stale(log, self, known, t)
  {
    StaleIff(log, self, known, t);
  }

  /** The lookback the client passes to garbageCollect as written: the last sync's tick. */
  function ClientLookbackAsWritten(timestep: int, lastSync: int): int {
    lastSync
  }

  /** The lookback that keeps everything after the last sync: the ticks since it. */
  function ClientLookback(timestep: int, lastSync: int): int {
    timestep - lastSync
  }

  /**
   * As written, at tick 1000 with the last sync at tick 400, the cutoff is
   * tick 600: an input at tick 500, after the last sync and so still needed
   * by a rollback to it, is collected. With the corrected lookback it stays.
   */
  lemma ClientGcAsWrittenDropsUnsynced()
    ensures var early := PlayerInputMessage(500, "b", "g", Thrust(Up, true));
      var late := PlayerInputMessage(700, "b", "g", Thrust(Up, false));
      && early.time > 400
      && Trimmed([early, late], InputTime, 1000 - ClientLookbackAsWritten(1000, 400)) == [late]
      && Trimmed([early, late], InputTime, 1000 - ClientLookback(1000, 400)) == [early, late]
  {
    var early := PlayerInputMessage(500, "b", "g", Thrust(Up, true));
    var late := PlayerInputMessage(700, "b", "g", Thrust(Up, false));
    var s := [early, late];
    assert FindIndexAfter(s[1..], InputTime, 600) == 0;
    assert FindIndexAfter(s, InputTime, 600) == 1;
    assert FindIndexAfter(s, InputTime, 400) == 0;
  }

  /** With the corrected lookback, every input later than the last sync survives collection. */
  lemma ClientGcKeepsUnsynced(log: seq<PlayerInputMessage>, timestep: int, lastSync: int)
    ensures forall i :: 0 <= i < |log| && log[i].time > lastSync ==>
      log[i] in Trimmed(log, InputTime, timestep - ClientLookback(timestep, lastSync))
  {
    forall i | 0 <= i < |log| && log[i].time > lastSync
      ensures log[i] in Trimmed(log, InputTime, timestep - ClientLookback(timestep, lastSync))
    {
      TrimmedKeepsLater(log, InputTime, lastSync, i);
    }
  }

  /** ... so a replay that starts at or after the last sync sees the same inputs after collection. */
  lemma ClientGcPreservesReplay(ops: WorldOps, self: string, s: SimState, t0: int, t1: int,
                                log: seq<PlayerInputMessage>, timestep: int, lastSync: int, replaySync: int)
    requires lastSync <= t0
    ensures Replay(ClientRole(self), ops, s, t0, t1,
                   Trimmed(log, InputTime, timestep - ClientLookback(timestep, lastSync)), replaySync)
         == Replay(ClientRole(self), ops, s, t0, t1, log, replaySync)
  {
    assert timestep - ClientLookback(timestep, lastSync) == lastSync;
    ReplayTrimmed(ClientRole(self), ops, s, t0, t1, log, lastSync, replaySync);
  }

  /**
   * The game after the sync branch of handleMessage, from state `s` at tick
   * `t`: caught up to a sync from the future, then the sync applied at the
   * resulting tick (a full one restored from, a partial one restored from
   * the latest snapshot at or before its tick unless stale).
   */
  function SyncedGame(role: Role, ops: WorldOps, s: SimState, t: int, snapshots: seq<Snapshot>,
                      log: seq<PlayerInputMessage>, lastSync: int, self: string, msg: ServerMessage): GameImage
  {
    match msg
    case Full(time, _, full) =>
      var c := Replay(role, ops, s, t, time, log, lastSync);
      if t <= time then ops.mergeFull(c.game, full)
      else Replay(role, ops, SimState(ops.mergeFull(ops.mergeFull(s.game, full), full), s.broadcast),
                  time, t, log, lastSync).game
    case Partial(time, _, partial, known) =>
      var c := Replay(role, ops, s, t, time, log, lastSync);
      if Stale(log, self, known, time) then c.game
      else if t <= time then ops.mergePartial(c.game, partial)
      else (match Closest(snapshots, SnapshotTime, time)
            case None => s.game
            case Some(k) =>
              Replay(role, ops, SimState(ops.mergePartial(ops.mergeFull(s.game, snapshots[k].state), partial), s.broadcast),
                     snapshots[k].time, t, log, lastSync).game)
    case _ => s.game
  }

  /** What the sync branch sends: a full-sync request when a partial sync from the past finds no snapshot. */
  function SyncRequest(t: int, game: GameImage, snapshots: seq<Snapshot>, log: seq<PlayerInputMessage>,
                       self: string, msg: ServerMessage): seq<ClientMessage>
  {
    if msg.Partial? && !Stale(log, self, msg.lastPlayerInputTimesteps, msg.time) && t > msg.time
       && Closest(snapshots, SnapshotTime, msg.time).None?
    then [RequestFull(t, game.id)]
    else []
  }

  /** The game after another player's input `m` is logged (the log is then `log`) and replayed from its tick. */
  function RemoteInputGame(role: Role, ops: WorldOps, s: SimState, t: int, snapshots: seq<Snapshot>,
                           log: seq<PlayerInputMessage>, lastSync: int, m: PlayerInputMessage): GameImage
  {
    if t == m.time then s.game
    else match Closest(snapshots, SnapshotTime, m.time)
      case None => s.game
      case Some(k) =>
        Replay(role, ops, SimState(ops.mergeFull(s.game, snapshots[k].state), s.broadcast),
               snapshots[k].time, t, log, lastSync).game
  }

  /** Everything handleMessage can change, for stating what stays the same. */
  datatype ClientView = ClientView(
    game: GameImage, initialTimeStep: int, firstStepTime: real, timestep: int,
    snapshots: seq<Snapshot>, playerInputs: seq<PlayerInputMessage>, lastSync: int,
    broadcast: bool, resetPending: Option<ServerMessage>, outbox: seq<ClientMessage>,
    chats: seq<ServerMessage>)

  class ClientEngine {
    const eng: Engine
    /** The socket id, which is also this player's lander id. */
    const playerId: string
    /** PARTIAL_SYNC_FREQ */
    const partialSyncFreq: int
    /** CLIENT_SNAPSHOT_GC_FREQ */
    const gcFreq: int
    var resetPending: Option<ServerMessage>
    var outbox: seq<ClientMessage>
    var chats: seq<ServerMessage>

    predicate Valid()
      reads this, eng
    {
      eng.Valid() && eng.role == ClientRole(playerId)
    }

    function View(): ClientView
      reads this, eng
    {
      ClientView(eng.game, eng.initialTimeStep, eng.firstStepTime, eng.timestep, eng.snapshots,
                 eng.playerInputs, eng.lastSyncTimestep, eng.immediateBroadcast, resetPending, outbox, chats)
    }

    constructor (state: GameImage, playerId: string, initialTimeStep: int, ops: WorldOps,
                 snapshotFreq: int, partialSyncFreq: int, gcFreq: int)
      ensures Valid() && fresh(eng)
      ensures this.playerId == playerId && this.partialSyncFreq == partialSyncFreq && this.gcFreq == gcFreq
      ensures eng.ops == ops && eng.snapshotFreq == snapshotFreq && eng.game == state
      ensures eng.timestep == initialTimeStep && eng.initialTimeStep == initialTimeStep
      ensures eng.lastSyncTimestep == initialTimeStep
      ensures eng.snapshots == [] && eng.playerInputs == [] && eng.firstStepTime == 0.0
      ensures resetPending.None? && outbox == [] && chats == []
    {
      eng := new Engine(ClientRole(playerId), ops, snapshotFreq, state, initialTimeStep);
      this.playerId := playerId;
      this.partialSyncFreq := partialSyncFreq;
      this.gcFreq := gcFreq;
      resetPending := None;
      outbox := [];
      chats := [];
    }

    /** selfLander: the lander whose id is this player's. */
    function SelfLander(): (r: Option<Landers.LanderFields>)
      reads this, eng
      ensures r.Some? ==> r.value in eng.game.landers && r.value.id == playerId
      ensures r.None? ==> forall j :: 0 <= j < |eng.game.landers| ==> eng.game.landers[j].id != playerId
    {
      match FindLander(eng.game.landers, playerId)
      case Some(k) => Some(eng.game.landers[k])
      case None => None
    }

    /**
     * processLocalInput: with a lander of its own, the player's event is
     * logged at the current tick and sent; it takes effect when the tick is
     * next replayed. Without one, nothing happens.
     */
    method ProcessLocalInput(event: InputEvent)
      requires Valid()
      modifies this`outbox, eng`playerInputs
      ensures Valid()
      ensures old(SelfLander()).None? ==> eng.playerInputs == old(eng.playerInputs) && outbox == old(outbox)
      ensures old(SelfLander()).Some? ==>
        var msg := PlayerInputMessage(eng.timestep, playerId, eng.game.id, event);
        && eng.playerInputs == Inserted(old(eng.playerInputs), InputTime, msg)
        && outbox == old(outbox) + [InputMsg(msg)]
    {
      var lander := SelfLander();
      if lander.Some? {
        var msg := PlayerInputMessage(eng.timestep, playerId, eng.game.id, event);
        eng.SavePlayerEvent(msg);
        outbox := outbox + [InputMsg(msg)];
      }
    }

    /** The input branch for another player's input newer than the last sync. */
    method ReceiveRemoteInput(m: PlayerInputMessage) returns (ok: bool)
      requires Valid()
      modifies eng`playerInputs, eng`game, eng`timestep, eng`immediateBroadcast
      ensures Valid()
      ensures eng.playerInputs == Inserted(old(eng.playerInputs), InputTime, m)
      ensures old(eng.timestep) == m.time ==> ok && eng.game == old(eng.game) && eng.timestep == old(eng.timestep)
      ensures old(eng.timestep) != m.time ==> ok == Closest(eng.snapshots, SnapshotTime, m.time).Some?
      ensures !ok ==> eng.game == old(eng.game) && eng.timestep == old(eng.timestep)
      ensures old(eng.timestep) != m.time && ok ==>
        var s := eng.snapshots[Closest(eng.snapshots, SnapshotTime, m.time).value];
        && eng.timestep == Max(s.time, old(eng.timestep))
        && eng.game == Replay(eng.role, eng.ops, SimState(eng.ops.mergeFull(old(eng.game), s.state), old(eng.immediateBroadcast)),
                              s.time, old(eng.timestep), eng.playerInputs, eng.lastSyncTimestep).game
      ensures eng.game == RemoteInputGame(eng.role, eng.ops, old(eng.Current()), old(eng.timestep), eng.snapshots,
                                          eng.playerInputs, eng.lastSyncTimestep, m)
    {
      eng.SavePlayerEvent(m);
      ok := eng.RestoreApplyReplay(m.time, NoPatch);
    }

    /** The reset branch: history dropped, the payload merged in, every tick counter moved to its tick. */
    method ApplyReset(time: int, full: GameImage)
      requires Valid()
      modifies this`resetPending, eng`snapshots, eng`playerInputs, eng`game, eng`initialTimeStep,
               eng`timestep, eng`lastSyncTimestep
      ensures Valid()
      ensures eng.snapshots == [] && eng.playerInputs == []
      ensures eng.game == eng.ops.mergeFull(old(eng.game), full)
      ensures eng.initialTimeStep == time && eng.timestep == time && eng.lastSyncTimestep == time
      ensures resetPending.None?
    {
      eng.Reset();
      eng.game := eng.ops.mergeFull(eng.game, full);
      eng.initialTimeStep := time;
      eng.timestep := time;
      eng.lastSyncTimestep := time;
      resetPending := None;
    }

    /**
     * applySyncMessage for a full sync no later than the current tick: it
     * joins the snapshot history (replacing one of the same tick) and is
     * restored from, so the restore never fails; it becomes the last sync.
     */
    method ApplyFullSync(time: int, full: GameImage)
      requires Valid() && time <= eng.timestep
      modifies eng`snapshots, eng`game, eng`timestep, eng`immediateBroadcast, eng`lastSyncTimestep
      ensures Valid()
      ensures eng.timestep == old(eng.timestep)
      ensures eng.snapshots == Placed(old(eng.snapshots), SnapshotTime, Snapshot(time, full))
      ensures eng.lastSyncTimestep == time
      ensures old(eng.timestep) == time ==> eng.game == eng.ops.mergeFull(old(eng.game), full)
      ensures old(eng.timestep) != time ==>
        eng.game == Replay(eng.role, eng.ops,
                           SimState(eng.ops.mergeFull(eng.ops.mergeFull(old(eng.game), full), full), old(eng.immediateBroadcast)),
                           time, old(eng.timestep), eng.playerInputs, old(eng.lastSyncTimestep)).game
    {
      StoreFullSnapshot(time, full);
      RestoreFromFull(time, full);
      eng.lastSyncTimestep := time;
    }

    /** The full sync joins the snapshot history, where it is the latest at or before its own tick. */
    method StoreFullSnapshot(time: int, full: GameImage)
      requires Valid() && time <= eng.timestep
      modifies eng`snapshots
      ensures Valid()
      ensures eng.snapshots == Placed(old(eng.snapshots), SnapshotTime, Snapshot(time, full))
      ensures Closest(eng.snapshots, SnapshotTime, time).Some?
      ensures eng.snapshots[Closest(eng.snapshots, SnapshotTime, time).value] == Snapshot(time, full)
    {
      var snapshot := Snapshot(time, full);
      PlacedStrict(eng.snapshots, SnapshotTime, snapshot);
      eng.InsertSnapshot(snapshot);
    }

    /** The restore from the stored full sync, patched with it again, and the replay to the current tick. */
    method RestoreFromFull(time: int, full: GameImage)
      requires Valid() && time <= eng.timestep
      requires Closest(eng.snapshots, SnapshotTime, time).Some?
      requires eng.snapshots[Closest(eng.snapshots, SnapshotTime, time).value] == Snapshot(time, full)
      modifies eng`game, eng`timestep, eng`immediateBroadcast
      ensures Valid()
      ensures eng.timestep == old(eng.timestep)
      ensures old(eng.timestep) == time ==> eng.game == eng.ops.mergeFull(old(eng.game), full)
      ensures old(eng.timestep) != time ==>
        eng.game == Replay(eng.role, eng.ops,
                           SimState(eng.ops.mergeFull(eng.ops.mergeFull(old(eng.game), full), full), old(eng.immediateBroadcast)),
                           time, old(eng.timestep), eng.playerInputs, eng.lastSyncTimestep).game
    {
      var ok := eng.RestoreApplyReplay(time, FullPatch(full));
    }

    /**
     * applySyncMessage for a partial sync no later than the current tick:
     * skipped while stale; otherwise restored from the latest snapshot at or
     * before its tick, asking for a full sync when there is none, and it
     * becomes the last sync either way.
     */
    method ApplyPartialSync(time: int, partial: PartialImage, known: map<string, seq<int>>)
      requires Valid() && time <= eng.timestep
      modifies this`outbox, eng`game, eng`timestep, eng`immediateBroadcast, eng`lastSyncTimestep
      ensures Valid()
      ensures eng.timestep == old(eng.timestep)
      ensures Stale(eng.playerInputs, playerId, known, time) ==>
        eng.game == old(eng.game) && eng.lastSyncTimestep == old(eng.lastSyncTimestep) && outbox == old(outbox)
      ensures !Stale(eng.playerInputs, playerId, known, time) ==> eng.lastSyncTimestep == time
      ensures !Stale(eng.playerInputs, playerId, known, time) && old(eng.timestep) == time ==>
        eng.game == eng.ops.mergePartial(old(eng.game), partial) && outbox == old(outbox)
      ensures !Stale(eng.playerInputs, playerId, known, time) && old(eng.timestep) != time ==>
        match Closest(eng.snapshots, SnapshotTime, time)
        case None =>
          eng.game == old(eng.game) && outbox == old(outbox) + [RequestFull(old(eng.timestep), old(eng.game).id)]
        case Some(k) =>
          && outbox == old(outbox)
          && eng.game == Replay(eng.role, eng.ops,
                                SimState(eng.ops.mergePartial(eng.ops.mergeFull(old(eng.game), eng.snapshots[k].state), partial),
                                         old(eng.immediateBroadcast)),
                                eng.snapshots[k].time, old(eng.timestep), eng.playerInputs, old(eng.lastSyncTimestep)).game
    {
      var unseenInputs := UnseenInputs(eng.playerInputs, playerId, known, time);
      if |unseenInputs| > 0 {
        // stale: wait for a sync that has seen every local input
      } else {
        var success := eng.RestoreApplyReplay(time, PartialPatch(partial));
        if !success {
          outbox := outbox + [RequestFull(eng.timestep, eng.game.id)];
        }
        eng.lastSyncTimestep := time;
      }
    }

    /** The sync branch: catch up to a sync from the future, then apply it. */
    method HandleSync(msg: ServerMessage)
      requires Valid()
      requires msg.Full? || msg.Partial?
      modifies this`outbox, eng`snapshots, eng`game, eng`timestep, eng`immediateBroadcast, eng`lastSyncTimestep
      ensures Valid()
      ensures eng.timestep == Max(old(eng.timestep), msg.time)
      ensures eng.playerInputs == old(eng.playerInputs)
      ensures eng.lastSyncTimestep ==
        (if msg.Partial? && Stale(old(eng.playerInputs), playerId, msg.lastPlayerInputTimesteps, msg.time)
         then old(eng.lastSyncTimestep) else msg.time)
      ensures eng.snapshots ==
        (if msg.Full? then Placed(old(eng.snapshots), SnapshotTime, Snapshot(msg.time, msg.full)) else old(eng.snapshots))
      ensures eng.game == SyncedGame(eng.role, eng.ops, old(eng.Current()), old(eng.timestep), old(eng.snapshots),
                                     eng.playerInputs, old(eng.lastSyncTimestep), playerId, msg)
      ensures outbox == old(outbox) + SyncRequest(old(eng.timestep), old(eng.game), old(eng.snapshots),
                                                  eng.playerInputs, playerId, msg)
    {
      if msg.time > eng.timestep {
        eng.ReplayTo(msg.time);
      }
      if msg.Full? {
        ApplyFullSync(msg.time, msg.full);
      } else {
        ApplyPartialSync(msg.time, msg.partial, msg.lastPlayerInputTimesteps);
      }
    }

    /** handleMessage: the branch Route picks, and what it changes. */
    method HandleMessage(msg: ServerMessage)
      requires Valid()
      modifies this, eng
      ensures Valid()
      ensures var a := Route(msg, old(eng.game.id), old(eng.game.wonPlayer.Some?), playerId,
                             old(eng.timestep), old(eng.lastSyncTimestep), partialSyncFreq);
        && (a in {WrongGame, OutOfOrderSync, TooOldPartial, OwnEcho, ObsoleteInput, NoHandler} ==> View() == old(View()))
        // a sync: caught up to its tick, the input log kept, the last sync moved unless stale
        && (a.ApplySync? ==>
              && eng.timestep == Max(old(eng.timestep), msg.time)
              && eng.playerInputs == old(eng.playerInputs)
              && resetPending == old(resetPending) && chats == old(chats)
              && eng.lastSyncTimestep ==
                 (if msg.Partial? && Stale(old(eng.playerInputs), playerId, msg.lastPlayerInputTimesteps, msg.time)
                  then old(eng.lastSyncTimestep) else msg.time)
              && eng.snapshots ==
                 (if msg.Full? then Placed(old(eng.snapshots), SnapshotTime, Snapshot(msg.time, msg.full)) else old(eng.snapshots))
              && eng.game == SyncedGame(eng.role, eng.ops, old(eng.Current()), old(eng.timestep), old(eng.snapshots),
                                        eng.playerInputs, old(eng.lastSyncTimestep), playerId, msg)
              && outbox == old(outbox) + SyncRequest(old(eng.timestep), old(eng.game), old(eng.snapshots),
                                                     eng.playerInputs, playerId, msg))
        && (a == RemoteInput ==>
              && eng.playerInputs == Inserted(old(eng.playerInputs), InputTime, msg.input)
              && eng.game == RemoteInputGame(eng.role, eng.ops, old(eng.Current()), old(eng.timestep), eng.snapshots,
                                             eng.playerInputs, eng.lastSyncTimestep, msg.input)
              && eng.snapshots == old(eng.snapshots) && eng.lastSyncTimestep == old(eng.lastSyncTimestep)
              && resetPending == old(resetPending) && outbox == old(outbox) && chats == old(chats))
        && (a == ResetTo ==>
              && eng.snapshots == [] && eng.playerInputs == []
              && eng.game == eng.ops.mergeFull(old(eng.game), msg.full)
              && eng.initialTimeStep == msg.time && eng.timestep == msg.time && eng.lastSyncTimestep == msg.time
              && resetPending.None? && outbox == old(outbox) && chats == old(chats))
        && (a == MergeMeta ==>
              View() == old(View()).(game := eng.ops.mergeMeta(old(eng.game), msg.meta)))
        && (a == ShowResetPending ==> View() == old(View()).(resetPending := Some(msg)))
        && (a == ClearResetPending ==> View() == old(View()).(resetPending := None))
        && (a == DeliverChat ==> View() == old(View()).(chats := old(chats) + [msg]))
    {
      var action := Route(msg, eng.game.id, eng.game.wonPlayer.Some?, playerId,
                          eng.timestep, eng.lastSyncTimestep, partialSyncFreq);
      if action.ChangesGame() {
        HandleGameMessage(msg, action);
      } else {
        HandleOtherMessage(msg, action);
      }
    }

    /** The branches of handleMessage that change the game or its history. */
    method HandleGameMessage(msg: ServerMessage, a: ClientAction)
      requires Valid() && a.ChangesGame()
      requires a == Route(msg, eng.game.id, eng.game.wonPlayer.Some?, playerId,
                          eng.timestep, eng.lastSyncTimestep, partialSyncFreq)
      modifies this, eng
      ensures Valid()
      ensures
        && (a.ApplySync? ==>
              && eng.timestep == Max(old(eng.timestep), msg.time)
              && eng.playerInputs == old(eng.playerInputs)
              && resetPending == old(resetPending) && chats == old(chats)
              && eng.lastSyncTimestep ==
                 (if msg.Partial? && Stale(old(eng.playerInputs), playerId, msg.lastPlayerInputTimesteps, msg.time)
                  then old(eng.lastSyncTimestep) else msg.time)
              && eng.snapshots ==
                 (if msg.Full? then Placed(old(eng.snapshots), SnapshotTime, Snapshot(msg.time, msg.full)) else old(eng.snapshots))
              && eng.game == SyncedGame(eng.role, eng.ops, old(eng.Current()), old(eng.timestep), old(eng.snapshots),
                                        eng.playerInputs, old(eng.lastSyncTimestep), playerId, msg)
              && outbox == old(outbox) + SyncRequest(old(eng.timestep), old(eng.game), old(eng.snapshots),
                                                     eng.playerInputs, playerId, msg))
        && (a == RemoteInput ==>
              && eng.playerInputs == Inserted(old(eng.playerInputs), InputTime, msg.input)
              && eng.game == RemoteInputGame(eng.role, eng.ops, old(eng.Current()), old(eng.timestep), eng.snapshots,
                                             eng.playerInputs, eng.lastSyncTimestep, msg.input)
              && eng.snapshots == old(eng.snapshots) && eng.lastSyncTimestep == old(eng.lastSyncTimestep)
              && resetPending == old(resetPending) && outbox == old(outbox) && chats == old(chats))
        && (a == ResetTo ==>
              && eng.snapshots == [] && eng.playerInputs == []
              && eng.game == eng.ops.mergeFull(old(eng.game), msg.full)
              && eng.initialTimeStep == msg.time && eng.timestep == msg.time && eng.lastSyncTimestep == msg.time
              && resetPending.None? && outbox == old(outbox) && chats == old(chats))
    {
      match a
      case ApplySync(catchUp) =>
        HandleSync(msg);
      case RemoteInput =>
        var ok := ReceiveRemoteInput(msg.input);
      case ResetTo =>
        ApplyReset(msg.time, msg.full);
    }

    /** The branches of handleMessage that leave the game's history alone. */
    method HandleOtherMessage(msg: ServerMessage, a: ClientAction)
      requires Valid() && !a.ChangesGame()
      requires a == Route(msg, eng.game.id, eng.game.wonPlayer.Some?, playerId,
                          eng.timestep, eng.lastSyncTimestep, partialSyncFreq)
      modifies this, eng
      ensures Valid()
      ensures
        && (a in {WrongGame, OutOfOrderSync, TooOldPartial, OwnEcho, ObsoleteInput, NoHandler} ==> View() == old(View()))
        && (a == MergeMeta ==>
              View() == old(View()).(game := eng.ops.mergeMeta(old(eng.game), msg.meta)))
        && (a == ShowResetPending ==> View() == old(View()).(resetPending := Some(msg)))
        && (a == ClearResetPending ==> View() == old(View()).(resetPending := None))
        && (a == DeliverChat ==> View() == old(View()).(chats := old(chats) + [msg]))
    {
      match a
      case MergeMeta =>
        eng.game := eng.ops.mergeMeta(eng.game, msg.meta);
      case ShowResetPending =>
        resetPending := Some(msg);
      case ClearResetPending =>
        resetPending := None;
      case DeliverChat =>
        chats := chats + [msg];
      case _ =>
    }

    /**
     * timerStep: other players' inputs logged for the current tick are
     * applied before stepping (own inputs reach the game by replay), then the
     * base step-and-snapshot, then on the collection cadence everything up to
     * the last sync is collected.
     */
    method TimerStep(now: real)
      requires Valid()
      modifies eng`game, eng`immediateBroadcast, eng`timestep, eng`firstStepTime, eng`snapshots, eng`playerInputs
      ensures Valid()
      ensures eng.timestep == StepTarget(now, old(eng.firstStepTime), eng.initialTimeStep, old(eng.timestep))
      ensures var applied := ApplyAll(eng.role, eng.ops, old(eng.Current()),
                                      Select(old(eng.playerInputs), AtTimeFromOthers(old(eng.timestep), playerId)),
                                      old(eng.timestep), eng.lastSyncTimestep);
        eng.game == Iterate(eng.ops.step, applied.game, eng.timestep - old(eng.timestep))
      ensures var saved := old(eng.snapshots) +
                (if MultipleOf(eng.timestep, eng.snapshotFreq) then [Snapshot(eng.timestep, eng.game)] else []);
        eng.snapshots ==
          (if MultipleOf(eng.timestep, gcFreq) then Trimmed(saved, SnapshotTime, eng.lastSyncTimestep) else saved)
      ensures eng.playerInputs ==
        (if MultipleOf(eng.timestep, gcFreq) then Trimmed(old(eng.playerInputs), InputTime, eng.lastSyncTimestep)
         else old(eng.playerInputs))
    {
      StepWithRemoteInputs(now);
      CollectIfDue();
    }

    /** timerStep up to the collection: remote inputs of this tick, then the base step and snapshot. */
    method StepWithRemoteInputs(now: real)
      requires Valid()
      modifies eng`game, eng`immediateBroadcast, eng`timestep, eng`firstStepTime, eng`snapshots
      ensures Valid()
      ensures eng.timestep == StepTarget(now, old(eng.firstStepTime), eng.initialTimeStep, old(eng.timestep))
      ensures var applied := ApplyAll(eng.role, eng.ops, old(eng.Current()),
                                      Select(old(eng.playerInputs), AtTimeFromOthers(old(eng.timestep), playerId)),
                                      old(eng.timestep), eng.lastSyncTimestep);
        eng.game == Iterate(eng.ops.step, applied.game, eng.timestep - old(eng.timestep))
      ensures eng.snapshots == old(eng.snapshots) +
                (if MultipleOf(eng.timestep, eng.snapshotFreq) then [Snapshot(eng.timestep, eng.game)] else [])
    {
      eng.ApplyPlayerInputsAt(AtTimeFromOthers(eng.timestep, playerId));
      ghost var applied := eng.game;
      ghost var t0, first := eng.timestep, eng.firstStepTime;
      eng.TimerStep(now);
      assert eng.timestep == StepTarget(now, first, eng.initialTimeStep, t0);
    }

    /** The collection at the end of timerStep, on its cadence, up to the last sync. */
    method CollectIfDue()
      requires Valid()
      modifies eng`snapshots, eng`playerInputs
      ensures Valid()
      ensures eng.snapshots ==
        (if MultipleOf(eng.timestep, gcFreq) then Trimmed(old(eng.snapshots), SnapshotTime, eng.lastSyncTimestep)
         else old(eng.snapshots))
      ensures eng.playerInputs ==
        (if MultipleOf(eng.timestep, gcFreq) then Trimmed(old(eng.playerInputs), InputTime, eng.lastSyncTimestep)
         else old(eng.playerInputs))
    {
      if MultipleOf(eng.timestep, gcFreq) {
        eng.GarbageCollect(ClientLookback(eng.timestep, eng.lastSyncTimestep));
      }
    }
  }
}

=== FILE: controls.dfy ===
/**
 * The keyboard controller of game/controls.ts: which input event, if any,
 * a key press or release produces for the local lander. Each handler is a
 * function of the local lander's current fields (None when the player has
 * no lander) and the key name; the event it returns is the one handed to
 * the client engine's processLocalInput.
 */
module Controls {
  import opened Types
  import opened Landers

  /** ASCII lower-casing of one character; other characters are kept. */
  function LowerChar(c: char): char {
    if 'A' <= c <= 'Z' then (c as int - 'A' as int + 'a' as int) as char else c
  }

  function ToLower(s: string): (r: string)
    ensures |r| == |s| && forall i :: 0 <= i < |s| ==> r[i] == LowerChar(s[i])
  {
    seq(|s|, i requires 0 <= i < |s| => LowerChar(s[i]))
  }

  /** deriveArrowKeyDirection: the lower-cased rest of a key name that starts with "Arrow". */
  function DeriveArrowKeyDirection(key: string): (r: Option<string>)
    ensures r.Some? <==> |key| >= 5 && key[..5] == "Arrow"
    ensures r.Some? ==> |r.value| == |key| - 5
    ensures r.Some? ==> forall i :: 0 <= i < |r.value| ==> r.value[i] == LowerChar(key[5 + i])
  {
    if |key| >= 5 && key[..5] == "Arrow" then Some(ToLower(key[5..])) else None
  }

  /** The arrow direction of a key, or "" when it is not an arrow key (a falsy result in the source). */
  function Arrow(key: string): string {
    match DeriveArrowKeyDirection(key)
    case Some(d) => d
    case None => ""
  }

  /** onKeyDown: start thrusting or rotating, unless already doing so (or the throttle is at its limit). */
  function OnKeyDown(self: Option<LanderFields>, key: string): (r: Option<InputEvent>)
    ensures self.None? ==> r.None?
    ensures r == Some(Thrust(Up, true)) <==>
      self.Some? && Arrow(key) == "up" && !self.value.thrustingUp && self.value.throttle < 1.0
    ensures r == Some(Thrust(Down, true)) <==>
      self.Some? && Arrow(key) == "down" && !self.value.thrustingDown && self.value.throttle > 0.0
    ensures r == Some(Rotate(Left, true)) <==> self.Some? && Arrow(key) == "left" && !self.value.rotatingLeft
    ensures r == Some(Rotate(Right, true)) <==> self.Some? && Arrow(key) == "right" && !self.value.rotatingRight
    ensures r.Some? ==> r.value in {Thrust(Up, true), Thrust(Down, true), Rotate(Left, true), Rotate(Right, true)}
  {
    match self
    case None => None
    case Some(l) =>
      var arrow := Arrow(key);
      if arrow == "" then None
      else if arrow == "up" && !l.thrustingUp && l.throttle < 1.0 then Some(Thrust(Up, true))
      else if arrow == "down" && !l.thrustingDown && l.throttle > 0.0 then Some(Thrust(Down, true))
      else if arrow == "left" && !l.rotatingLeft then Some(Rotate(Left, true))
      else if arrow == "right" && !l.rotatingRight then Some(Rotate(Right, true))
      else None
  }

  /** onKeyUp: stop thrusting or rotating, only if currently doing so. */
  function OnKeyUp(self: Option<LanderFields>, key: string): (r: Option<InputEvent>)
    ensures self.None? ==> r.None?
    ensures r == Some(Thrust(Up, false)) <==> self.Some? && Arrow(key) == "up" && self.value.thrustingUp
    ensures r == Some(Thrust(Down, false)) <==> self.Some? && Arrow(key) == "down" && self.value.thrustingDown
    ensures r == Some(Rotate(Left, false)) <==> self.Some? && Arrow(key) == "left" && self.value.rotatingLeft
    ensures r == Some(Rotate(Right, false)) <==> self.Some? && Arrow(key) == "right" && self.value.rotatingRight
    ensures r.Some? ==> r.value in {Thrust(Up, false), Thrust(Down, false), Rotate(Left, false), Rotate(Right, false)}
  {
    match self
    case None => None
    case Some(l) =>
      var arrow := Arrow(key);
      if arrow == "" then None
      else if arrow == "up" && l.thrustingUp then Some(Thrust(Up, false))
      else if arrow == "down" && l.thrustingDown then Some(Thrust(Down, false))
      else if arrow == "left" && l.rotatingLeft then Some(Rotate(Left, false))
      else if arrow == "right" && l.rotatingRight then Some(Rotate(Right, false))
      else None
  }

  /** onKeyPress: "q" fires a small rocket. */
  function OnKeyPress(self: Option<LanderFields>, key: string): (r: Option<InputEvent>)
    ensures r.Some? <==> self.Some? && key == "q"
    ensures r.Some? ==> r.value == FireRocket(Small)
  {
    if self.Some? && key == "q" then Some(FireRocket(Small)) else None
  }

  /** The four arrow keys map to their directions; other keys have none. */
  lemma ArrowKeys()
    ensures Arrow("ArrowUp") == "up" && Arrow("ArrowDown") == "down"
    ensures Arrow("ArrowLeft") == "left" && Arrow("ArrowRight") == "right"
    ensures Arrow("q") == "" && Arrow("Arrow") == ""
  {
    assert "ArrowUp"[..5] == "Arrow" && "ArrowUp"[5..] == "Up";
    assert "ArrowDown"[..5] == "Arrow" && "ArrowDown"[5..] == "Down";
    assert "ArrowLeft"[..5] == "Arrow" && "ArrowLeft"[5..] == "Left";
    assert "ArrowRight"[..5] == "Arrow" && "ArrowRight"[5..] == "Right";
    assert "Arrow"[..5] == "Arrow" && "Arrow"[5..] == "";
  }

  /**
   * A key event is emitted only when it changes the live lander's intent:
   * processing the emitted event never leaves the fields as they were.
   */
  lemma KeyEventsChangeIntent(l: LanderFields, key: string)
    requires l.Alive()
    ensures OnKeyDown(Some(l), key).Some? ==> Processed(l, OnKeyDown(Some(l), key).value) != l
    ensures OnKeyUp(Some(l), key).Some? ==> Processed(l, OnKeyUp(Some(l), key).value) != l
  {
  }

  /** Holding a key down (auto-repeat) emits nothing after the first event. */
  lemma KeyRepeatSilent(l: LanderFields, key: string)
    requires l.Alive()
    ensures OnKeyDown(Some(l), key).Some? ==> OnKeyDown(Some(Processed(l, OnKeyDown(Some(l), key).value)), key).None?
    ensures OnKeyUp(Some(l), key).Some? ==> OnKeyUp(Some(Processed(l, OnKeyUp(Some(l), key).value)), key).None?
  {
  }
}

=== FILE: engine.dfy ===
/**
 * The base simulation engine of game/engine.ts: a tick counter that keeps
 * up with wall-clock time, a time-ordered input log, a snapshot history,
 * and rollback: restore the latest snapshot at or before a tick, apply a
 * change there, and replay the logged inputs forward to the present.
 *
 * The game container is a value (`GameImage`) that the engine only hands
 * to the container's own operations (`WorldOps`): stepping the physics,
 * applying an input, and merging a full, partial or meta payload. Client
 * and server behaviour that the replay loop itself runs (their overrides
 * of applyPlayerInput) is selected by the engine's `Role`.
 */
module Engine {
  import opened Types
  import opened Timelines
  import GameObjects
  import Landers
  import Tables

  /** 60 steps per second. */
  const STEP_INTERVAL_MS: real := 1000.0 / 60.0

  datatype WinReason = Landed(multiplier: int) | LastLander

  datatype WonPlayer = WonPlayer(playerId: string, reason: WinReason)

  /** What the engines read and hand around of the game container. */
  datatype GameImage = GameImage(
    id: string,
    landers: seq<Landers.LanderFields>,
    wonPlayer: Option<WonPlayer>,
    playerWins: map<string, int>,
    options: GameOptions,
    moon: Moon,
    world: GameObjects.World)

  /** serializePartial: the physics world and the dynamic entities. */
  datatype PartialImage = PartialImage(world: GameObjects.World, landers: seq<Landers.LanderFields>)

  /** serializeMeta: win state and scores. */
  datatype MetaImage = MetaImage(wonPlayer: Option<WonPlayer>, playerWins: map<string, int>)

  function PartialOf(g: GameImage): PartialImage { PartialImage(g.world, g.landers) }

  function MetaOf(g: GameImage): MetaImage { MetaImage(g.wonPlayer, g.playerWins) }

  function LanderId(f: Landers.LanderFields): string { f.id }

  /** landers.find(l => l.id === id), as a position. */
  function FindLander(landers: seq<Landers.LanderFields>, id: string): (r: Option<nat>)
    ensures r.Some? ==> r.value < |landers| && landers[r.value].id == id
    ensures r.Some? ==> forall j :: 0 <= j < r.value ==> landers[j].id != id
    ensures r.None? ==> forall j :: 0 <= j < |landers| ==> landers[j].id != id
  {
    var ks := Tables.Keys(landers, LanderId);
    var r := Tables.FirstIndex(ks, id);
    if r.Some? then
      assert forall j :: 0 <= j < r.value ==> ks[..r.value][j] == landers[j].id;
      r
    else
      assert forall j :: 0 <= j < |landers| ==> ks[j] == landers[j].id;
      r
  }

  /** A saved state and the tick it was taken at. */
  datatype Snapshot = Snapshot(time: int, state: GameImage)

  function SnapshotTime(s: Snapshot): int { s.time }

  function InputTime(m: PlayerInputMessage): int { m.time }

  /** The game container's operations, as the engine calls them. */
  datatype WorldOps = WorldOps(
    step: GameImage -> GameImage,
    apply: (GameImage, string, InputEvent) -> GameImage,
    mergeFull: (GameImage, GameImage) -> GameImage,
    mergePartial: (GameImage, PartialImage) -> GameImage,
    mergeMeta: (GameImage, MetaImage) -> GameImage,
    // Lander.create: the world once a body for the new lander is added
    spawn: (GameObjects.World, string) -> GameObjects.World)

  /** Which coordinator owns the engine; the client knows its own player id. */
  datatype Role = ClientRole(playerId: string) | ServerRole

  /** The change restoreApplyReplay splices in at the restored tick. */
  datatype Patch = NoPatch | FullPatch(full: GameImage) | PartialPatch(partial: PartialImage)

  function Patched(ops: WorldOps, g: GameImage, p: Patch): GameImage {
    match p
    case NoPatch => g
    case FullPatch(full) => ops.mergeFull(g, full)
    case PartialPatch(partial) => ops.mergePartial(g, partial)
  }

  /** What replaying changes: the game, and the server's immediate-broadcast flag. */
  datatype SimState = SimState(game: GameImage, broadcast: bool)

  /** The selections applyPlayerInputsAt is called with. */
  datatype InputFilter = AtTime(t: int) | AtTimeFromOthers(t: int, self: string)

  predicate Matches(f: InputFilter, m: PlayerInputMessage) {
    match f
    case AtTime(t) => m.time == t
    case AtTimeFromOthers(t, self) => m.time == t && m.playerId != self
  }

  /** getPlayerInputsAt: the log filtered by the selection, in log order. */
  function Select(log: seq<PlayerInputMessage>, f: InputFilter): (r: seq<PlayerInputMessage>)
    ensures |r| <= |log|
    ensures forall m :: m in r <==> m in log && Matches(f, m)
  {
    if log == [] then []
    else
      var rest := Select(log[..|log| - 1], f);
      var m := log[|log| - 1];
      assert log == log[..|log| - 1] + [m];
      if Matches(f, m) then rest + [m] else rest
  }

  lemma {:induction false} SelectAppend(a: seq<PlayerInputMessage>, b: seq<PlayerInputMessage>, f: InputFilter)
    ensures Select(a + b, f) == Select(a, f) + Select(b, f)
  {
    if b == [] {
      assert a + b == a;
    } else {
      var b' := b[..|b| - 1];
      assert (a + b)[..|a + b| - 1] == a + b';
      assert (a + b)[|a + b| - 1] == b[|b| - 1];
      SelectAppend(a, b', f);
    }
  }

  lemma SelectNone(s: seq<PlayerInputMessage>, f: InputFilter)
    requires forall i :: 0 <= i < |s| ==> !Matches(f, s[i])
    ensures Select(s, f) == []
  {
  }

  /** Trimming at or below a tick does not change what is selected at a later tick. */
  lemma SelectTrimmedAbove(log: seq<PlayerInputMessage>, cutoff: int, t: int)
    requires t > cutoff
    ensures Select(Trimmed(log, InputTime, cutoff), AtTime(t)) == Select(log, AtTime(t))
  {
    var index := FindIndexAfter(log, InputTime, cutoff);
    if index > 0 {
      var r := log[index..];
      assert Trimmed(log, InputTime, cutoff) == r;
      assert log == log[..index] + r;
      SelectAppend(log[..index], r, AtTime(t));
      forall i | 0 <= i < index
        ensures !Matches(AtTime(t), log[..index][i])
      {
        assert InputTime(log[i]) <= cutoff;
      }
      SelectNone(log[..index], AtTime(t));
    }
  }

  /**
   * applyPlayerInput, with the override of the engine's role: the client
   * applies a fire-rocket only for its own player; the server flags an
   * immediate broadcast for a fire-rocket or for an input applied at a tick
   * before its last partial sync.
   */
  function ApplyOne(role: Role, ops: WorldOps, s: SimState, playerId: string, event: InputEvent,
                    timestep: int, lastSync: int): (r: SimState)
    ensures role.ClientRole? && event.FireRocket? && playerId != role.playerId ==> r == s
    ensures !(role.ClientRole? && event.FireRocket? && playerId != role.playerId) ==>
      r.game == ops.apply(s.game, playerId, event)
    ensures role.ClientRole? ==> r.broadcast == s.broadcast
    ensures role.ServerRole? ==> (r.broadcast <==> s.broadcast || event.FireRocket? || timestep < lastSync)
  {
    match role
    case ClientRole(self) =>
      if event.FireRocket? && playerId != self then s
      else SimState(ops.apply(s.game, playerId, event), s.broadcast)
    case ServerRole =>
      SimState(ops.apply(s.game, playerId, event), s.broadcast || event.FireRocket? || timestep < lastSync)
  }

  /** applyPlayerInputs: the messages applied one after another, in order. */
  function ApplyAll(role: Role, ops: WorldOps, s: SimState, msgs: seq<PlayerInputMessage>,
                    timestep: int, lastSync: int): SimState
  {
    if msgs == [] then s
    else
      var m := msgs[|msgs| - 1];
      ApplyOne(role, ops, ApplyAll(role, ops, s, msgs[..|msgs| - 1], timestep, lastSync),
               m.playerId, m.event, timestep, lastSync)
  }

  /** One replayed tick: step, then apply the logged inputs of the tick just reached. */
  function Tick(role: Role, ops: WorldOps, s: SimState, t: int, log: seq<PlayerInputMessage>, lastSync: int): SimState {
    ApplyAll(role, ops, SimState(ops.step(s.game), s.broadcast), Select(log, AtTime(t)), t, lastSync)
  }

  /** The state replayTo reaches from tick `t0` at tick `t1`. */
  function Replay(role: Role, ops: WorldOps, s: SimState, t0: int, t1: int,
                  log: seq<PlayerInputMessage>, lastSync: int): SimState
    decreases t1 - t0
  {
    if t1 <= t0 then s
    else Tick(role, ops, Replay(role, ops, s, t0, t1 - 1, log, lastSync), t1, log, lastSync)
  }

  /** Replaying in two legs is replaying once. */
  lemma {:induction false} ReplayCompose(role: Role, ops: WorldOps, s: SimState, a: int, b: int, c: int,
                                         log: seq<PlayerInputMessage>, lastSync: int)
    requires a <= b <= c
    ensures Replay(role, ops, s, a, c, log, lastSync)
         == Replay(role, ops, Replay(role, ops, s, a, b, log, lastSync), b, c, log, lastSync)
    decreases c - b
  {
    if c > b {
      ReplayCompose(role, ops, s, a, b, c - 1, log, lastSync);
    }
  }

  /** A replay depends only on the inputs logged for the ticks it steps into. */
  lemma {:induction false} ReplayWindow(role: Role, ops: WorldOps, s: SimState, t0: int, t1: int,
                                        log1: seq<PlayerInputMessage>, log2: seq<PlayerInputMessage>, lastSync: int)
    requires forall t :: t0 < t <= t1 ==> Select(log1, AtTime(t)) == Select(log2, AtTime(t))
    ensures Replay(role, ops, s, t0, t1, log1, lastSync) == Replay(role, ops, s, t0, t1, log2, lastSync)
    decreases t1 - t0
  {
    if t1 > t0 {
      ReplayWindow(role, ops, s, t0, t1 - 1, log1, log2, lastSync);
      assert Select(log1, AtTime(t1)) == Select(log2, AtTime(t1));
    }
  }

  /** Trimming the log at or below a tick does not change a replay starting there or later. */
  lemma ReplayTrimmed(role: Role, ops: WorldOps, s: SimState, t0: int, t1: int,
                      log: seq<PlayerInputMessage>, cutoff: int, lastSync: int)
    requires cutoff <= t0
    ensures Replay(role, ops, s, t0, t1, Trimmed(log, InputTime, cutoff), lastSync)
         == Replay(role, ops, s, t0, t1, log, lastSync)
  {
    forall t | t0 < t <= t1
      ensures Select(Trimmed(log, InputTime, cutoff), AtTime(t)) == Select(log, AtTime(t))
    {
      SelectTrimmedAbove(log, cutoff, t);
    }
    ReplayWindow(role, ops, s, t0, t1, Trimmed(log, InputTime, cutoff), log, lastSync);
  }

  /** The server raises the broadcast flag exactly for a fire-rocket or for input behind the last sync. */
  lemma {:induction false} ServerBroadcastFlag(ops: WorldOps, s: SimState, msgs: seq<PlayerInputMessage>,
                                               timestep: int, lastSync: int)
    ensures ApplyAll(ServerRole, ops, s, msgs, timestep, lastSync).broadcast <==>
      s.broadcast || (exists i :: 0 <= i < |msgs| && msgs[i].event.FireRocket?) || (|msgs| > 0 && timestep < lastSync)
  {
    if msgs != [] {
      var msgs' := msgs[..|msgs| - 1];
      ServerBroadcastFlag(ops, s, msgs', timestep, lastSync);
      if exists i :: 0 <= i < |msgs'| && msgs'[i].event.FireRocket? {
        var i :| 0 <= i < |msgs'| && msgs'[i].event.FireRocket?;
        assert msgs[i] == msgs'[i];
      }
      if exists i :: 0 <= i < |msgs| && msgs[i].event.FireRocket? {
        var i :| 0 <= i < |msgs| && msgs[i].event.FireRocket?;
        if i < |msgs'| {
          assert msgs'[i] == msgs[i];
        }
      }
    }
  }

  /** The log without other players' fire-rocket inputs. */
  function WithoutRemoteRockets(log: seq<PlayerInputMessage>, self: string): (r: seq<PlayerInputMessage>)
    ensures forall m :: m in r <==> m in log && !(m.event.FireRocket? && m.playerId != self)
  {
    if log == [] then []
    else
      var rest := WithoutRemoteRockets(log[..|log| - 1], self);
      var m := log[|log| - 1];
      assert log == log[..|log| - 1] + [m];
      if m.event.FireRocket? && m.playerId != self then rest else rest + [m]
  }

  /** Applying inputs on the client is the same with or without other players' rockets. */
  lemma {:induction false} ClientApplyIgnoresRemoteRockets(ops: WorldOps, self: string, s: SimState,
                                                          msgs: seq<PlayerInputMessage>, timestep: int, lastSync: int)
    ensures ApplyAll(ClientRole(self), ops, s, msgs, timestep, lastSync)
         == ApplyAll(ClientRole(self), ops, s, WithoutRemoteRockets(msgs, self), timestep, lastSync)
  {
    if msgs != [] {
      var msgs' := msgs[..|msgs| - 1];
      var m := msgs[|msgs| - 1];
      ClientApplyIgnoresRemoteRockets(ops, self, s, msgs', timestep, lastSync);
      if !(m.event.FireRocket? && m.playerId != self) {
        var w := WithoutRemoteRockets(msgs', self) + [m];
        assert w[..|w| - 1] == WithoutRemoteRockets(msgs', self);
      }
    }
  }

  lemma {:induction false} SelectWithoutRemoteRockets(log: seq<PlayerInputMessage>, self: string, t: int)
    ensures Select(WithoutRemoteRockets(log, self), AtTime(t)) == WithoutRemoteRockets(Select(log, AtTime(t)), self)
  {
    if log != [] {
      var log' := log[..|log| - 1];
      var m := log[|log| - 1];
      SelectWithoutRemoteRockets(log', self, t);
      var w := WithoutRemoteRockets(log', self);
      if !(m.event.FireRocket? && m.playerId != self) {
        assert (w + [m])[..|w + [m]| - 1] == w;
        if Matches(AtTime(t), m) {
          var sl := Select(log', AtTime(t)) + [m];
          assert sl[..|sl| - 1] == Select(log', AtTime(t));
        }
      } else if Matches(AtTime(t), m) {
        var sl := Select(log', AtTime(t)) + [m];
        assert sl[..|sl| - 1] == Select(log', AtTime(t));
      }
    }
  }

  /**
   * Other players' fire-rocket inputs have no effect on a client's replay:
   * the client depends on server syncs for other players' rockets.
   */
  lemma {:induction false} ClientReplayIgnoresRemoteRockets(ops: WorldOps, self: string, s: SimState, t0: int, t1: int,
                                                           log: seq<PlayerInputMessage>, lastSync: int)
    ensures Replay(ClientRole(self), ops, s, t0, t1, log, lastSync)
         == Replay(ClientRole(self), ops, s, t0, t1, WithoutRemoteRockets(log, self), lastSync)
    decreases t1 - t0
  {
    if t1 > t0 {
      ClientReplayIgnoresRemoteRockets(ops, self, s, t0, t1 - 1, log, lastSync);
      var p := Replay(ClientRole(self), ops, s, t0, t1 - 1, log, lastSync);
      var start := SimState(ops.step(p.game), p.broadcast);
      ClientApplyIgnoresRemoteRockets(ops, self, start, Select(log, AtTime(t1)), t1, lastSync);
      SelectWithoutRemoteRockets(log, self, t1);
    }
  }

  /**
   * The history invariant: the input log is sorted by tick, snapshot ticks
   * strictly increase (a snapshot inserted at an existing tick overwrites
   * it), and no snapshot is ahead of the current tick.
   */
  predicate HistoryValid(snapshots: seq<Snapshot>, inputs: seq<PlayerInputMessage>, timestep: int) {
    && SortedBy(inputs, InputTime)
    && StrictlySortedBy(snapshots, SnapshotTime)
    && forall i :: 0 <= i < |snapshots| ==> snapshots[i].time <= timestep
  }

  /** Trimming both lists at one cutoff keeps the history invariant. */
  lemma TrimmedHistoryValid(snapshots: seq<Snapshot>, inputs: seq<PlayerInputMessage>, timestep: int, cutoff: int)
    requires HistoryValid(snapshots, inputs, timestep)
    ensures HistoryValid(Trimmed(snapshots, SnapshotTime, cutoff), Trimmed(inputs, InputTime, cutoff), timestep)
  {
    TrimmedSuffix(snapshots, SnapshotTime, cutoff);
    TrimmedSuffix(inputs, InputTime, cutoff);
  }

  /** `f` applied `n` times. */
  function Iterate(f: GameImage -> GameImage, g: GameImage, n: nat): GameImage {
    if n == 0 then g else f(Iterate(f, g, n - 1))
  }

  /** The tick wall-clock time says the engine should be at. */
  function ExpectedTimestep(now: real, firstStepTime: real, initialTimeStep: int): int {
    ((now - firstStepTime) / STEP_INTERVAL_MS).Floor + initialTimeStep
  }

  /**
   * The tick step() ends at: one step on the first call (which only records
   * the start time), otherwise one step and then as many as it takes to
   * catch up with wall-clock time.
   */
  function StepTarget(now: real, firstStepTime: real, initialTimeStep: int, timestep: int): (r: int)
    ensures firstStepTime == 0.0 ==> r == timestep + 1
    ensures firstStepTime != 0.0 ==> r >= timestep + 1 && r >= ExpectedTimestep(now, firstStepTime, initialTimeStep)
    ensures firstStepTime != 0.0 && r > timestep + 1 ==> r == ExpectedTimestep(now, firstStepTime, initialTimeStep)
  {
    if firstStepTime == 0.0 then timestep + 1
    else Max(timestep + 1, ExpectedTimestep(now, firstStepTime, initialTimeStep))
  }

  class Engine {
    const role: Role
    const ops: WorldOps
    /** A snapshot is saved on every tick that is a multiple of this. */
    const snapshotFreq: int
    var game: GameImage
    var initialTimeStep: int
    var firstStepTime: real
    var timestep: int
    var snapshots: seq<Snapshot>
    var playerInputs: seq<PlayerInputMessage>
    /** The tick of the last sync: accepted by a client, broadcast by the server. */
    var lastSyncTimestep: int
    /** The server's shouldImmediatelyBroadcastSync. */
    var immediateBroadcast: bool

    predicate Valid()
      reads this
    {
      HistoryValid(snapshots, playerInputs, timestep)
    }

    function Current(): SimState
      reads this
    {
      SimState(game, immediateBroadcast)
    }

    constructor (role: Role, ops: WorldOps, snapshotFreq: int, game: GameImage, initialTimeStep: int)
      ensures this.role == role && this.ops == ops && this.snapshotFreq == snapshotFreq && this.game == game
      ensures timestep == initialTimeStep && this.initialTimeStep == initialTimeStep
      ensures lastSyncTimestep == initialTimeStep
      ensures firstStepTime == 0.0 && snapshots == [] && playerInputs == [] && !immediateBroadcast
      ensures Valid()
    {
      this.role := role;
      this.ops := ops;
      this.snapshotFreq := snapshotFreq;
      this.game := game;
      this.initialTimeStep := initialTimeStep;
      timestep := initialTimeStep;
      lastSyncTimestep := initialTimeStep;
      firstStepTime := 0.0;
      snapshots := [];
      playerInputs := [];
      immediateBroadcast := false;
    }

    method StepOne()
      modifies this`game, this`timestep
      ensures game == ops.step(old(game)) && timestep == old(timestep) + 1
    {
      game := ops.step(game);
      timestep := timestep + 1;
    }

    /** step(), with the wall-clock reading passed in. */
    method Step(now: real)
      modifies this`game, this`timestep, this`firstStepTime
      ensures timestep == StepTarget(now, old(firstStepTime), initialTimeStep, old(timestep))
      ensures game == Iterate(ops.step, old(game), timestep - old(timestep))
      ensures firstStepTime == (if old(firstStepTime) == 0.0 then now else old(firstStepTime))
      ensures old(Valid()) ==> Valid()
    {
      if firstStepTime == 0.0 {
        firstStepTime := now;
        StepOne();
      } else {
        StepOne();
        var expectedTimestep := ExpectedTimestep(now, firstStepTime, initialTimeStep);
        while timestep < expectedTimestep
          invariant old(timestep) + 1 <= timestep <= Max(old(timestep) + 1, expectedTimestep)
          invariant game == Iterate(ops.step, old(game), timestep - old(timestep))
          invariant firstStepTime == old(firstStepTime)
          invariant unchanged(this`snapshots, this`playerInputs)
          decreases expectedTimestep - timestep
        {
          StepOne();
        }
      }
    }

    method ApplyPlayerInput(playerId: string, event: InputEvent)
      modifies this`game, this`immediateBroadcast
      ensures Current() == ApplyOne(role, ops, old(Current()), playerId, event, timestep, lastSyncTimestep)
    {
      match role
      case ClientRole(self) =>
        if !(event.FireRocket? && playerId != self) {
          game := ops.apply(game, playerId, event);
        }
      case ServerRole =>
        game := ops.apply(game, playerId, event);
        if event.FireRocket? {
          immediateBroadcast := true;
        }
        if timestep < lastSyncTimestep {
          immediateBroadcast := true;
        }
    }

    method ApplyPlayerInputs(msgs: seq<PlayerInputMessage>)
      modifies this`game, this`immediateBroadcast
      ensures Current() == ApplyAll(role, ops, old(Current()), msgs, timestep, lastSyncTimestep)
    {
      for i := 0 to |msgs|
        invariant Current() == ApplyAll(role, ops, old(Current()), msgs[..i], timestep, lastSyncTimestep)
      {
        assert msgs[..i + 1][..i] == msgs[..i];
        ApplyPlayerInput(msgs[i].playerId, msgs[i].event);
      }
      assert msgs[..|msgs|] == msgs;
    }

    method ApplyPlayerInputsAt(f: InputFilter)
      modifies this`game, this`immediateBroadcast
      ensures Current() == ApplyAll(role, ops, old(Current()), Select(playerInputs, f), timestep, lastSyncTimestep)
    {
      ApplyPlayerInputs(Select(playerInputs, f));
    }

    /** replayTo: step and apply each tick's logged inputs until the target tick. */
    method ReplayTo(targetTime: int)
      modifies this`game, this`timestep, this`immediateBroadcast
      ensures timestep == Max(old(timestep), targetTime)
      ensures old(Valid()) ==> Valid()
      ensures Current() == Replay(role, ops, old(Current()), old(timestep), timestep, playerInputs, lastSyncTimestep)
    {
      while timestep < targetTime
        invariant old(timestep) <= timestep <= Max(old(timestep), targetTime)
        invariant Current() == Replay(role, ops, old(Current()), old(timestep), timestep, playerInputs, lastSyncTimestep)
        decreases targetTime - timestep
      {
        StepOne();
        ApplyPlayerInputsAt(AtTime(timestep));
      }
    }

    method SaveSnapshot()
      modifies this`snapshots
      ensures snapshots == old(snapshots) + [Snapshot(timestep, game)]
      ensures old(Valid()) && (forall i :: 0 <= i < |old(snapshots)| ==> old(snapshots)[i].time < timestep) ==> Valid()
    {
      snapshots := snapshots + [Snapshot(timestep, game)];
    }

    /** A full sync's state joins the history at its tick, replacing a snapshot of that tick. */
    method InsertSnapshot(s: Snapshot)
      modifies this`snapshots
      ensures snapshots == Placed(old(snapshots), SnapshotTime, s)
      ensures old(Valid()) && s.time <= timestep ==> Valid()
    {
      if Valid() {
        PlacedStrict(snapshots, SnapshotTime, s);
      }
      snapshots := Placed(snapshots, SnapshotTime, s);
    }

    method RestoreSnapshot(s: Snapshot)
      modifies this`game, this`timestep
      ensures game == ops.mergeFull(old(game), s.state) && timestep == s.time
    {
      game := ops.mergeFull(game, s.state);
      timestep := s.time;
    }

    /** findClosestSnapshot: scan from the newest snapshot back. */
    method FindClosestSnapshot(time: int) returns (r: Option<Snapshot>)
      ensures r == (match Closest(snapshots, SnapshotTime, time)
                    case Some(k) => Some(snapshots[k])
                    case None => None)
    {
      var i := |snapshots|;
      while i > 0
        invariant 0 <= i <= |snapshots|
        invariant forall j :: i <= j < |snapshots| ==> snapshots[j].time > time
        decreases i
      {
        if snapshots[i - 1].time <= time {
          ClosestIs(snapshots, SnapshotTime, time, i - 1);
          return Some(snapshots[i - 1]);
        }
        i := i - 1;
      }
      return None;
    }

    method RestoreSnapshotTo(time: int) returns (ok: bool)
      modifies this`game, this`timestep
      ensures ok == Closest(snapshots, SnapshotTime, time).Some?
      ensures ok ==> var s := snapshots[Closest(snapshots, SnapshotTime, time).value];
        game == ops.mergeFull(old(game), s.state) && timestep == s.time
      ensures !ok ==> game == old(game) && timestep == old(timestep)
    {
      var snapshot := FindClosestSnapshot(time);
      if snapshot.Some? {
        RestoreSnapshot(snapshot.value);
        return true;
      }
      return false;
    }

    /**
     * restoreApplyReplay: at the current tick the patch is applied directly;
     * otherwise the closest snapshot at or before `restoreTime` is restored,
     * patched, and replayed back to the tick the engine was at. Without such
     * a snapshot nothing changes and the result is false.
     */
    method RestoreApplyReplay(restoreTime: int, patch: Patch) returns (ok: bool)
      modifies this`game, this`timestep, this`immediateBroadcast
      ensures old(timestep) == restoreTime ==>
        ok && game == Patched(ops, old(game), patch) && timestep == old(timestep)
        && immediateBroadcast == old(immediateBroadcast)
      ensures old(timestep) != restoreTime ==> ok == Closest(snapshots, SnapshotTime, restoreTime).Some?
      ensures old(timestep) != restoreTime && !ok ==> Current() == old(Current()) && timestep == old(timestep)
      ensures old(timestep) != restoreTime && ok ==>
        var s := snapshots[Closest(snapshots, SnapshotTime, restoreTime).value];
        && timestep == Max(s.time, old(timestep))
        && Current() == Replay(role, ops, SimState(Patched(ops, ops.mergeFull(old(game), s.state), patch), old(immediateBroadcast)),
                               s.time, old(timestep), playerInputs, lastSyncTimestep)
      ensures old(Valid()) ==> Valid()
    {
      var curTime := timestep;
      if curTime == restoreTime {
        game := Patched(ops, game, patch);
        return true;
      }
      ok := RestoreSnapshotTo(restoreTime);
      if ok {
        game := Patched(ops, game, patch);
        ReplayTo(curTime);
      }
    }

    /** savePlayerEvent: insert after every logged input of the same or an earlier tick. */
    method SavePlayerEvent(msg: PlayerInputMessage)
      modifies this`playerInputs
      ensures playerInputs == Inserted(old(playerInputs), InputTime, msg)
      ensures old(Valid()) ==> Valid()
    {
      if Valid() {
        InsertedSorted(playerInputs, InputTime, msg);
      }
      playerInputs := Inserted(playerInputs, InputTime, msg);
    }

    /** garbageCollect: one cutoff, `timestep - lookback`, for both lists. */
    method GarbageCollect(lookback: int)
      modifies this`snapshots, this`playerInputs
      ensures snapshots == Trimmed(old(snapshots), SnapshotTime, timestep - lookback)
      ensures playerInputs == Trimmed(old(playerInputs), InputTime, timestep - lookback)
      ensures old(Valid()) ==> Valid()
    {
      var oldestKept := timestep - lookback;
      TrimSnapshots(oldestKept);
      TrimInputs(oldestKept);
      assert timestep - lookback == oldestKept;
    }

    /** trimByTime on the snapshot list. */
    method TrimSnapshots(cutoff: int)
      modifies this`snapshots
      ensures snapshots == Trimmed(old(snapshots), SnapshotTime, cutoff)
      ensures old(StrictlySortedBy(snapshots, SnapshotTime)) ==> StrictlySortedBy(snapshots, SnapshotTime)
      ensures (forall i :: 0 <= i < |old(snapshots)| ==> old(snapshots)[i].time <= timestep) ==>
        forall i :: 0 <= i < |snapshots| ==> snapshots[i].time <= timestep
    {
      TrimmedSuffix(snapshots, SnapshotTime, cutoff);
      snapshots := Trimmed(snapshots, SnapshotTime, cutoff);
    }

    /** trimByTime on the input log. */
    method TrimInputs(cutoff: int)
      modifies this`playerInputs
      ensures playerInputs == Trimmed(old(playerInputs), InputTime, cutoff)
      ensures old(SortedBy(playerInputs, InputTime)) ==> SortedBy(playerInputs, InputTime)
    {
      TrimmedSuffix(playerInputs, InputTime, cutoff);
      playerInputs := Trimmed(playerInputs, InputTime, cutoff);
    }

    /** reset: the history is dropped. */
    method Reset()
      modifies this`snapshots, this`playerInputs
      ensures snapshots == [] && playerInputs == []
      ensures Valid()
    {
      snapshots := [];
      playerInputs := [];
    }

    /** timerStep: step to the wall-clock tick, then snapshot on the snapshot cadence. */
    method TimerStep(now: real)
      modifies this`game, this`timestep, this`firstStepTime, this`snapshots
      ensures timestep == StepTarget(now, old(firstStepTime), initialTimeStep, old(timestep))
      ensures game == Iterate(ops.step, old(game), timestep - old(timestep))
      ensures firstStepTime == (if old(firstStepTime) == 0.0 then now else old(firstStepTime))
      ensures snapshots == old(snapshots) + (if MultipleOf(timestep, snapshotFreq) then [Snapshot(timestep, game)] else [])
      ensures old(Valid()) ==> Valid()
    {
      Step(now);
      if MultipleOf(timestep, snapshotFreq) {
        SaveSnapshot();
      }
    }
  }
}

=== FILE: game_object.dfy ===
/**
 * The part of game/objects/game-object.ts the rest of the game relies on:
 * a game object bound to a physics collider, horizontal wraparound and
 * re-binding the collider after the physics world was replaced.
 */
module GameObjects {
  import opened Types

  /** A collider as a game object sees it: the pose of its body. */
  datatype Collider = Collider(translation: Vec, rotation: real)

  /**
   * The physics world, reduced to its collider lookup by handle. Body and
   * collider handles are not told apart.
   */
  datatype World = World(colliders: map<int, Collider>)

  /** Result of re-binding a collider: the source throws when the handle is unknown. */
  datatype Outcome = Pass | NoColliderFound(handle: int)

  /** The horizontal coordinate after wrapTranslation. */
  function WrappedX(x: real, worldWidth: real): (r: real)
    ensures x < 0.0 ==> r == x + worldWidth
    ensures 0.0 <= x && x > worldWidth ==> r == x - worldWidth
    ensures 0.0 <= x <= worldWidth ==> r == x
    ensures 0.0 <= worldWidth && -worldWidth <= x <= 2.0 * worldWidth ==> 0.0 <= r <= worldWidth
  {
    if x < 0.0 then x + worldWidth
    else if x > worldWidth then x - worldWidth
    else x
  }

  /** The pose after wrapTranslation: only the horizontal coordinate moves. */
  function Wrapped(c: Collider, worldWidth: real): Collider {
    Collider(Vec(WrappedX(c.translation.x, worldWidth), c.translation.y), c.rotation)
  }

  class GameObject {
    /** The handle of the object's body in the physics world. */
    var handle: int
    var collider: Collider

    constructor (handle: int, collider: Collider)
      ensures this.handle == handle && this.collider == collider
    {
      this.handle := handle;
      this.collider := collider;
    }

    /** Moves the body back into [0, worldWidth] horizontally; y is kept. */
    method WrapTranslation(worldWidth: real)
      modifies this`collider
      ensures collider == Wrapped(old(collider), worldWidth)
    {
      var t := collider.translation;
      if t.x < 0.0 {
        collider := collider.(translation := Vec(t.x + worldWidth, t.y));
      } else if t.x > worldWidth {
        collider := collider.(translation := Vec(t.x - worldWidth, t.y));
      }
    }

    /**
     * Looks the object's own handle up again in a (new) world. The lander,
     * rocket and ground merges call this with the payload's handle as an
     * extra argument, which the one-parameter method ignores. An unknown
     * handle is an error and leaves the object as it was.
     */
    method UpdateCollider(world: World) returns (result: Outcome)
      modifies this
      ensures handle == old(handle)
      ensures result == (if handle in world.colliders then Pass else NoColliderFound(handle))
      ensures collider == (if handle in world.colliders then world.colliders[handle] else old(collider))
    {
      if handle !in world.colliders {
        return NoColliderFound(handle);
      }
      collider := world.colliders[handle];
      result := Pass;
    }

    /**
     * The sky's mergeFrom: binds whatever collider the world has under
     * `handle`, without checking. The source then holds an undefined
     * collider for an unknown handle; here the old one is kept.
     */
    method Rebind(world: World, newHandle: int)
      modifies this
      ensures newHandle in world.colliders ==> handle == newHandle && collider == world.colliders[newHandle]
      ensures newHandle !in world.colliders ==> handle == old(handle) && collider == old(collider)
    {
      if newHandle in world.colliders {
        handle := newHandle;
        collider := world.colliders[newHandle];
      }
    }
  }
}

=== FILE: game_state.dfy ===
/**
 * The world container of game/game-state.ts: the terrain, the physics
 * world, the ground and sky bodies and the ordered lists of landers and
 * rockets; merging serialised payloads into it by id, dispatching an input
 * to the lander it belongs to, and the per-tick entity hooks.
 */
module GameStates {
  import opened Types
  import opened GameObjects
  import opened Tables
  import Landers
  import Rockets

  /** serializeFull(): terrain, world, ground and sky handles, and every entity. */
  datatype FullPayload = FullPayload(
    moon: Moon,
    world: World,
    ground: int,
    sky: int,
    landers: seq<Landers.LanderData>,
    rockets: seq<Rockets.RocketData>)

  /** serializePartial(): the world and every entity. */
  datatype PartialPayload = PartialPayload(
    world: World,
    landers: seq<Landers.LanderData>,
    rockets: seq<Rockets.RocketData>)

  /** An element of steppables(): landers and rockets share the step hooks. */
  datatype Steppable = LanderItem(lander: Landers.Lander) | RocketItem(rocket: Rockets.Rocket)

  function LanderKey(f: Landers.LanderFields): string { f.id }

  function RocketKey(f: Rockets.RocketFields): string { f.id }

  function LanderPayload(ps: seq<Landers.LanderData>): (r: seq<Landers.LanderFields>)
    ensures |r| == |ps| && forall i :: 0 <= i < |ps| ==> r[i] == ps[i].fields
  {
    seq(|ps|, i requires 0 <= i < |ps| => ps[i].fields)
  }

  function RocketPayload(ps: seq<Rockets.RocketData>): (r: seq<Rockets.RocketFields>)
    ensures |r| == |ps| && forall i :: 0 <= i < |ps| ==> r[i] == ps[i].fields
  {
    seq(|ps|, i requires 0 <= i < |ps| => ps[i].fields)
  }

  /** Merging one more payload lander is one more upsert. */
  lemma LanderUpsertStep(t: seq<Landers.LanderFields>, payload: seq<Landers.LanderData>, i: nat)
    requires i < |payload|
    ensures UpsertAll(t, LanderPayload(payload[..i + 1]), LanderKey)
         == Upsert(UpsertAll(t, LanderPayload(payload[..i]), LanderKey), payload[i].fields, LanderKey)
  {
    assert LanderPayload(payload[..i + 1])[..i] == LanderPayload(payload[..i]);
  }

  /** Merging one more payload rocket is one more upsert. */
  lemma RocketUpsertStep(t: seq<Rockets.RocketFields>, payload: seq<Rockets.RocketData>, i: nat)
    requires i < |payload|
    ensures UpsertAll(t, RocketPayload(payload[..i + 1]), RocketKey)
         == Upsert(UpsertAll(t, RocketPayload(payload[..i]), RocketKey), payload[i].fields, RocketKey)
  {
    assert RocketPayload(payload[..i + 1])[..i] == RocketPayload(payload[..i]);
  }

  /** The serialised fields of a lander list, in list order. */
  function LanderTable(ls: seq<Landers.Lander>): (r: seq<Landers.LanderFields>)
    reads set l | l in ls
    ensures |r| == |ls| && forall i :: 0 <= i < |ls| ==> r[i] == ls[i].Fields()
  {
    seq(|ls|, i reads set l | l in ls requires 0 <= i < |ls| => ls[i].Fields())
  }

  /** The serialised fields of a rocket list, in list order. */
  function RocketTable(rs: seq<Rockets.Rocket>): (r: seq<Rockets.RocketFields>)
    reads set x | x in rs
    ensures |r| == |rs| && forall i :: 0 <= i < |rs| ==> r[i] == rs[i].Fields()
  {
    seq(|rs|, i reads set x | x in rs requires 0 <= i < |rs| => rs[i].Fields())
  }

  /** Appending a lander appends its fields to the table. */
  lemma LanderTableSnoc(ls: seq<Landers.Lander>, l: Landers.Lander)
    ensures LanderTable(ls + [l]) == LanderTable(ls) + [l.Fields()]
  {
  }

  /** Appending a rocket appends its fields to the table. */
  lemma RocketTableSnoc(rs: seq<Rockets.Rocket>, x: Rockets.Rocket)
    ensures RocketTable(rs + [x]) == RocketTable(rs) + [x.Fields()]
  {
  }

  /** No entity, and no physics object, appears twice among the landers, the rockets, the ground and the sky. */
  predicate Apart(ls: seq<Landers.Lander>, rs: seq<Rockets.Rocket>, ground: GameObject, sky: GameObject) {
    && ground != sky
    && (forall i, j :: 0 <= i < |ls| && 0 <= j < |ls| && i != j ==> ls[i] != ls[j] && ls[i].obj != ls[j].obj)
    && (forall i, j :: 0 <= i < |rs| && 0 <= j < |rs| && i != j ==> rs[i] != rs[j] && rs[i].obj != rs[j].obj)
    && (forall i, j :: 0 <= i < |ls| && 0 <= j < |rs| ==> ls[i].obj != rs[j].obj)
    && (forall i :: 0 <= i < |ls| ==> ls[i].obj != ground && ls[i].obj != sky)
    && (forall j :: 0 <= j < |rs| ==> rs[j].obj != ground && rs[j].obj != sky)
  }

  /** A lander whose body is new to the world can be appended. */
  lemma LanderAppendedApart(ls: seq<Landers.Lander>, rs: seq<Rockets.Rocket>, ground: GameObject, sky: GameObject,
                            l: Landers.Lander)
    requires Apart(ls, rs, ground, sky)
    requires forall i :: 0 <= i < |ls| ==> ls[i] != l && ls[i].obj != l.obj
    requires forall j :: 0 <= j < |rs| ==> rs[j].obj != l.obj
    requires l.obj != ground && l.obj != sky
    ensures Apart(ls + [l], rs, ground, sky)
  {
    var ls' := ls + [l];
    assert forall i :: 0 <= i < |ls| ==> ls'[i] == ls[i];
  }

  /** A rocket whose body is new to the world can be appended. */
  lemma RocketAppendedApart(ls: seq<Landers.Lander>, rs: seq<Rockets.Rocket>, ground: GameObject, sky: GameObject,
                            x: Rockets.Rocket)
    requires Apart(ls, rs, ground, sky)
    requires forall j :: 0 <= j < |rs| ==> rs[j] != x && rs[j].obj != x.obj
    requires forall i :: 0 <= i < |ls| ==> ls[i].obj != x.obj
    requires x.obj != ground && x.obj != sky
    ensures Apart(ls, rs + [x], ground, sky)
  {
    var rs' := rs + [x];
    assert forall j :: 0 <= j < |rs| ==> rs'[j] == rs[j];
  }

  class GameState {
    var moon: Moon
    var world: World
    const ground: GameObject
    const sky: GameObject
    var landers: seq<Landers.Lander>
    var rockets: seq<Rockets.Rocket>

    /** No entity, and no physics object, appears twice. */
    predicate Valid()
      reads this`landers, this`rockets
    {
      Apart(landers, rockets, ground, sky)
    }

    /**
     * The private constructor: the ground and sky bodies are created in the
     * world under the handles the physics world hands out.
     */
    constructor (moon: Moon, world: World, groundHandle: int, skyHandle: int)
      ensures Valid()
      ensures this.moon == moon && landers == [] && rockets == []
      ensures ground.handle == groundHandle && sky.handle == skyHandle
      ensures this.world == World(world.colliders[groundHandle := Collider(Vec(0.0, 0.0), 0.0)]
                                                [skyHandle := Collider(Vec(0.0, moon.worldHeight), 0.0)])
    {
      var g := Collider(Vec(0.0, 0.0), 0.0);
      var s := Collider(Vec(0.0, moon.worldHeight), 0.0);
      this.moon := moon;
      this.world := World(world.colliders[groundHandle := g][skyHandle := s]);
      ground := new GameObject(groundHandle, g);
      sky := new GameObject(skyHandle, s);
      landers := [];
      rockets := [];
    }

    function LanderView(): seq<Landers.LanderFields>
      reads this, set l | l in landers
    {
      LanderTable(landers)
    }

    function RocketView(): seq<Rockets.RocketFields>
      reads this, set x | x in rockets
    {
      RocketTable(rockets)
    }

    /** steppables(): every lander in order, then every rocket in order. */
    function Steppables(): (r: seq<Steppable>)
      reads this
      ensures |r| == |landers| + |rockets|
    {
      seq(|landers|, i requires 0 <= i < |landers| reads this => LanderItem(landers[i]))
        + seq(|rockets|, j requires 0 <= j < |rockets| reads this => RocketItem(rockets[j]))
    }

    /** The landers come first, in order, then the rockets. */
    lemma SteppableAt(n: nat)
      requires n < |landers| + |rockets|
      ensures Steppables()[n] == if n < |landers| then LanderItem(landers[n]) else RocketItem(rockets[n - |landers|])
    {
    }

    /** mergeLanders on an id no lander has yet: create the lander and append it. */
    method AppendLander(from: Landers.LanderData, stats: RocketType -> RocketStats) returns (result: Outcome)
      requires Valid()
      modifies this`landers
      ensures Valid()
      ensures forall k :: 0 <= k < |landers| ==>
        landers[k] in old(landers) || (fresh(landers[k]) && fresh(landers[k].obj))
      ensures result.Pass? ==> LanderTable(landers) == old(LanderTable(landers)) + [from.fields]
      ensures result.NoColliderFound? ==> landers == old(landers)
    {
      var lander, r := Landers.CreateFrom(world, from, stats);
      if r.NoColliderFound? {
        return r;
      }
      LanderTableSnoc(landers, lander);
      LanderAppendedApart(landers, rockets, ground, sky, lander);
      landers := landers + [lander];
      return Pass;
    }

    /** mergeLanders on the lander at position `k`: overwrite its fields. */
    method OverwriteLander(k: nat, from: Landers.LanderData) returns (result: Outcome)
      requires Valid()
      requires k < |landers|
      modifies landers[k], landers[k].obj
      ensures LanderTable(landers) == old(LanderTable(landers))[k := from.fields]
    {
      var before := LanderTable(landers);
      result := landers[k].MergeFrom(world, from);
      assert forall j :: 0 <= j < |landers| && j != k ==> landers[j].Fields() == before[j];
    }

    /** One iteration of mergeLanders. */
    method MergeLander(from: Landers.LanderData, stats: RocketType -> RocketStats) returns (result: Outcome)
      requires Valid()
      modifies this`landers, set l | l in landers, set l | l in landers :: l.obj
      ensures Valid()
      ensures forall k :: 0 <= k < |landers| ==>
        landers[k] in old(landers) || (fresh(landers[k]) && fresh(landers[k].obj))
      ensures result.Pass? ==> LanderTable(landers) == Upsert(old(LanderTable(landers)), from.fields, LanderKey)
    {
      var found := FirstIndex(Keys(LanderTable(landers), LanderKey), from.fields.id);
      match found {
        case None =>
          result := AppendLander(from, stats);
        case Some(k) =>
          result := OverwriteLander(k, from);
      }
    }

    /**
     * mergeLanders: each payload lander overwrites the first lander with its
     * id, or is created and appended. A missing collider aborts the merge.
     */
    method MergeLanders(payload: seq<Landers.LanderData>, stats: RocketType -> RocketStats)
      returns (result: Outcome)
      requires Valid()
      modifies this`landers, set l | l in landers, set l | l in landers :: l.obj
      ensures Valid()
      ensures result.Pass? ==> LanderView() == UpsertAll(old(LanderView()), LanderPayload(payload), LanderKey)
    {
      var i := 0;
      while i < |payload|
        invariant 0 <= i <= |payload|
        invariant Valid()
        invariant LanderTable(landers) == UpsertAll(old(LanderTable(landers)), LanderPayload(payload[..i]), LanderKey)
        invariant forall k :: 0 <= k < |landers| ==>
          landers[k] in old(landers) || (fresh(landers[k]) && fresh(landers[k].obj))
      {
        LanderUpsertStep(old(LanderTable(landers)), payload, i);
        result := MergeLander(payload[i], stats);
        if result.NoColliderFound? {
          return;
        }
        i := i + 1;
      }
      assert payload[..i] == payload;
      return Pass;
    }

    /** One iteration of mergeRockets. */
    method MergeRocket(from: Rockets.RocketData) returns (result: Outcome)
      requires Valid()
      modifies this`rockets, set x | x in rockets, set x | x in rockets :: x.obj
      ensures Valid()
      ensures forall k :: 0 <= k < |rockets| ==>
        rockets[k] in old(rockets) || (fresh(rockets[k]) && fresh(rockets[k].obj))
      ensures result.Pass? ==> RocketTable(rockets) == Upsert(old(RocketTable(rockets)), from.fields, RocketKey)
    {
      var found := FirstIndex(Keys(RocketTable(rockets), RocketKey), from.fields.id);
      match found {
        case None =>
          result := AppendRocket(from);
        case Some(k) =>
          result := OverwriteRocket(k, from);
      }
    }

    /** A rocket not yet in the list: created from the payload and appended, unless its collider is missing. */
    method AppendRocket(from: Rockets.RocketData) returns (result: Outcome)
      requires Valid()
      modifies this`rockets
      ensures Valid()
      ensures forall k :: 0 <= k < |rockets| ==>
        rockets[k] in old(rockets) || (fresh(rockets[k]) && fresh(rockets[k].obj))
      ensures result.Pass? ==> RocketTable(rockets) == old(RocketTable(rockets)) + [from.fields]
      ensures result.NoColliderFound? ==> rockets == old(rockets)
    {
      var rocket, r := Rockets.CreateFrom(world, from);
      if r.NoColliderFound? {
        return r;
      }
      RocketTableSnoc(rockets, rocket);
      RocketAppendedApart(landers, rockets, ground, sky, rocket);
      rockets := rockets + [rocket];
      return Pass;
    }

    /** A rocket already in the list at `k`: merged in place. */
    method OverwriteRocket(k: nat, from: Rockets.RocketData) returns (result: Outcome)
      requires Valid() && k < |rockets|
      modifies rockets[k], rockets[k].obj
      ensures Valid()
      ensures RocketTable(rockets) == old(RocketTable(rockets))[k := from.fields]
    {
      ghost var before := RocketTable(rockets);
      result := rockets[k].MergeFrom(world, from);
      assert forall j :: 0 <= j < |rockets| && j != k ==> rockets[j].Fields() == before[j];
      assert RocketTable(rockets) == before[k := from.fields];
    }

    /** mergeRockets: the same upsert over the rocket list. */
    method MergeRockets(payload: seq<Rockets.RocketData>) returns (result: Outcome)
      requires Valid()
      modifies this`rockets, set x | x in rockets, set x | x in rockets :: x.obj
      ensures Valid()
      ensures result.Pass? ==> RocketView() == UpsertAll(old(RocketView()), RocketPayload(payload), RocketKey)
    {
      var i := 0;
      while i < |payload|
        invariant 0 <= i <= |payload|
        invariant Valid()
        invariant RocketTable(rockets) == UpsertAll(old(RocketTable(rockets)), RocketPayload(payload[..i]), RocketKey)
        invariant forall k :: 0 <= k < |rockets| ==>
          rockets[k] in old(rockets) || (fresh(rockets[k]) && fresh(rockets[k].obj))
      {
        RocketUpsertStep(old(RocketTable(rockets)), payload, i);
        result := MergeRocket(payload[i]);
        if result.NoColliderFound? {
          return;
        }
        i := i + 1;
      }
      assert payload[..i] == payload;
      return Pass;
    }

    /** The lander merge, then the rocket merge, of both payload kinds. */
    method MergeEntities(fromLanders: seq<Landers.LanderData>, fromRockets: seq<Rockets.RocketData>,
                         stats: RocketType -> RocketStats) returns (result: Outcome)
      requires Valid()
      modifies this`landers, set l | l in landers, set l | l in landers :: l.obj,
        this`rockets, set x | x in rockets, set x | x in rockets :: x.obj
      ensures Valid()
      ensures result.Pass? ==>
        && LanderView() == UpsertAll(old(LanderView()), LanderPayload(fromLanders), LanderKey)
        && RocketView() == UpsertAll(old(RocketView()), RocketPayload(fromRockets), RocketKey)
    {
      result := MergeLanders(fromLanders, stats);
      if result.NoColliderFound? {
        return;
      }
      ghost var landers1 := LanderView();
      assert RocketView() == old(RocketView());
      result := MergeRockets(fromRockets);
      assert LanderView() == landers1;
    }

    /**
     * mergeFull: terrain and world are replaced first, then the ground,
     * the sky, the landers and the rockets are merged, stopping at the
     * first missing collider. Entities absent from the payload are kept.
     */
    method MergeFull(payload: FullPayload, stats: RocketType -> RocketStats) returns (result: Outcome)
      requires Valid()
      modifies this, ground, sky, set l | l in landers, set l | l in landers :: l.obj,
        set x | x in rockets, set x | x in rockets :: x.obj
      ensures Valid()
      ensures moon == payload.moon && world == payload.world
      ensures result.Pass? ==>
        && LanderView() == UpsertAll(old(LanderView()), LanderPayload(payload.landers), LanderKey)
        && RocketView() == UpsertAll(old(RocketView()), RocketPayload(payload.rockets), RocketKey)
    {
      result := ReplaceTerrain(payload.moon, payload.world, payload.sky);
      if result.NoColliderFound? {
        return;
      }
      result := MergeEntities(payload.landers, payload.rockets, stats);
    }

    /** The first half of mergeFull: terrain and world replaced, the ground re-read, the sky re-bound to its handle. */
    method ReplaceTerrain(newMoon: Moon, newWorld: World, skyHandle: int) returns (result: Outcome)
      requires Valid()
      modifies this`moon, this`world, ground, sky
      ensures Valid()
      ensures moon == newMoon && world == newWorld
      ensures result == (if ground.handle in newWorld.colliders then Pass else NoColliderFound(ground.handle))
      ensures LanderView() == old(LanderView()) && RocketView() == old(RocketView())
    {
      moon := newMoon;
      world := newWorld;
      result := ground.UpdateCollider(world);
      if result.NoColliderFound? {
        return;
      }
      sky.Rebind(world, skyHandle);
    }

    /**
     * mergePartial: only the world is replaced; the ground and sky are
     * re-bound in it, then the landers and rockets are merged.
     */
    method MergePartial(payload: PartialPayload, stats: RocketType -> RocketStats) returns (result: Outcome)
      requires Valid()
      modifies this, ground, sky, set l | l in landers, set l | l in landers :: l.obj,
        set x | x in rockets, set x | x in rockets :: x.obj
      ensures Valid()
      ensures moon == old(moon) && world == payload.world
      ensures result.Pass? ==>
        && LanderView() == UpsertAll(old(LanderView()), LanderPayload(payload.landers), LanderKey)
        && RocketView() == UpsertAll(old(RocketView()), RocketPayload(payload.rockets), RocketKey)
    {
      result := ReplaceWorld(payload.world);
      if result.NoColliderFound? {
        return;
      }
      result := MergeEntities(payload.landers, payload.rockets, stats);
    }

    /** The first half of mergePartial: the world replaced, and the ground and then the sky re-read from it. */
    method ReplaceWorld(newWorld: World) returns (result: Outcome)
      requires Valid()
      modifies this`world, ground, sky
      ensures Valid()
      ensures world == newWorld
      ensures result ==
        if ground.handle !in newWorld.colliders then NoColliderFound(ground.handle)
        else if sky.handle !in newWorld.colliders then NoColliderFound(sky.handle)
        else Pass
      ensures LanderView() == old(LanderView()) && RocketView() == old(RocketView())
    {
      world := newWorld;
      result := ground.UpdateCollider(world);
      if result.NoColliderFound? {
        return;
      }
      result := sky.UpdateCollider(world);
    }

    /**
     * applyPlayerInput: the input goes to the first lander with the
     * player's id, and nowhere when there is none. fire-rocket creates one
     * rocket, owned by that lander, under the handle and launch pose the
     * physics world provides; every other event goes to processInput.
     */
    method ApplyPlayerInput(playerId: string, event: InputEvent, rocketId: string, rocketHandle: int,
                            launch: Collider, shade: (string, int) -> string)
      requires Valid()
      modifies this`rockets, this`world, set l | l in landers
      ensures Valid()
      ensures var found := FirstIndex(Keys(old(LanderView()), LanderKey), playerId);
        && (found.None? ==> LanderView() == old(LanderView()) && rockets == old(rockets) && world == old(world))
        && (found.Some? && event.FireRocket? ==>
              && LanderView() == old(LanderView())
              && |rockets| == |old(rockets)| + 1 && rockets[..|old(rockets)|] == old(rockets)
              && fresh(rockets[|old(rockets)|]) && rockets[|old(rockets)|].obj.handle == rocketHandle
              && rockets[|old(rockets)|].Fields() ==
                   Rockets.Constructed(rocketId, playerId, event.rocketType, shade(old(LanderView())[found.value].color, 7))
              && world == World(old(world).colliders[rocketHandle := launch]))
        && (found.Some? && !event.FireRocket? ==>
              && LanderView() == old(LanderView())[found.value := Landers.Processed(old(LanderView())[found.value], event)]
              && rockets == old(rockets) && world == old(world))
      ensures RocketTable(old(rockets)) == old(RocketTable(rockets))
    {
      var found := FirstIndex(Keys(LanderTable(landers), LanderKey), playerId);
      if found.None? {
        return;
      }
      if event.FireRocket? {
        FireFromLander(found.value, rocketId, playerId, event.rocketType, rocketHandle, launch, shade);
      } else {
        ProcessLanderInput(found.value, event);
      }
    }

    /** fire-rocket for the lander at position `k`, whose id is `playerId`: one new rocket in its shade. */
    method FireFromLander(k: nat, rocketId: string, playerId: string, rocketType: RocketType, rocketHandle: int,
                          launch: Collider, shade: (string, int) -> string)
      requires Valid() && k < |landers| && landers[k].id == playerId
      modifies this`rockets, this`world
      ensures Valid()
      ensures LanderView() == old(LanderView())
      ensures |rockets| == |old(rockets)| + 1 && rockets[..|old(rockets)|] == old(rockets)
      ensures fresh(rockets[|old(rockets)|]) && rockets[|old(rockets)|].obj.handle == rocketHandle
      ensures rockets[|old(rockets)|].Fields() ==
        Rockets.Constructed(rocketId, playerId, rocketType, shade(old(LanderView())[k].color, 7))
      ensures world == World(old(world).colliders[rocketHandle := launch])
      ensures RocketTable(old(rockets)) == old(RocketTable(rockets))
    {
      var lander := landers[k];
      FireRocket(rocketId, lander.id, rocketType, shade(lander.color, 7), rocketHandle, launch);
    }

    /** Rocket.create plus the push onto the rocket list. */
    method FireRocket(rocketId: string, owner: string, rocketType: RocketType, color: string,
                      rocketHandle: int, launch: Collider)
      requires Valid()
      modifies this`rockets, this`world
      ensures Valid()
      ensures |rockets| == |old(rockets)| + 1 && rockets[..|old(rockets)|] == old(rockets)
      ensures fresh(rockets[|old(rockets)|]) && rockets[|old(rockets)|].obj.handle == rocketHandle
      ensures rockets[|old(rockets)|].Fields() == Rockets.Constructed(rocketId, owner, rocketType, color)
      ensures world == World(old(world).colliders[rocketHandle := launch])
    {
      world := World(world.colliders[rocketHandle := launch]);
      var o := new GameObject(rocketHandle, launch);
      var rocket := new Rockets.Rocket(o, rocketId, owner, rocketType, color);
      RocketAppendedApart(landers, rockets, ground, sky, rocket);
      rockets := rockets + [rocket];
    }

    /** processInput on the lander at position `k`. */
    method ProcessLanderInput(k: nat, event: InputEvent)
      requires Valid()
      requires k < |landers|
      modifies landers[k]
      ensures LanderTable(landers) == old(LanderTable(landers))[k := Landers.Processed(old(LanderTable(landers))[k], event)]
    {
      var before := LanderTable(landers);
      landers[k].ProcessInput(event);
      assert forall j :: 0 <= j < |landers| && j != k ==> landers[j].Fields() == before[j];
    }

    /** The pre-step pass of step() over steppables(): landers pre-step, rockets have no pre-step. */
    method PreStepAll(dt: real, timestep: int, options: GameOptions, cfg: Landers.LanderConfig)
      requires Valid()
      requires cfg.pi > 0.0
      modifies set l | l in landers
      ensures forall i :: 0 <= i < |landers| ==>
        landers[i].Fields() ==
          Landers.PreStepped(old(landers[i].Fields()), dt, timestep, options, landers[i].obj.collider.rotation, cfg)
    {
      var items := Steppables();
      for n := 0 to |items|
        invariant forall i :: 0 <= i < |landers| ==>
          landers[i].Fields() ==
            if i < n then Landers.PreStepped(old(landers[i].Fields()), dt, timestep, options, landers[i].obj.collider.rotation, cfg)
            else old(landers[i].Fields())
      {
        SteppableAt(n);
        match items[n] {
          case LanderItem(l) =>
            PreStepLander(n, dt, timestep, options, cfg);
          case RocketItem(_) =>
        }
      }
    }

    /** The pre-step of the lander at position `k`: no other lander changes. */
    method PreStepLander(k: nat, dt: real, timestep: int, options: GameOptions, cfg: Landers.LanderConfig)
      requires Valid() && k < |landers|
      requires cfg.pi > 0.0
      modifies landers[k]
      ensures forall i :: 0 <= i < |landers| ==>
        landers[i].Fields() ==
          if i == k then Landers.PreStepped(old(landers[i].Fields()), dt, timestep, options, landers[i].obj.collider.rotation, cfg)
          else old(landers[i].Fields())
    {
      landers[k].PreStep(dt, timestep, options, cfg);
    }

    /** The post-step pass: rockets age by one tick, landers have no post-step. */
    method PostStepAll()
      requires Valid()
      modifies set x | x in rockets
      ensures forall j :: 0 <= j < |rockets| ==>
        rockets[j].Fields() == old(rockets[j].Fields()).(aliveSteps := old(rockets[j].aliveSteps) + 1)
    {
      var items := Steppables();
      for n := 0 to |items|
        invariant forall j :: 0 <= j < |rockets| ==>
          rockets[j].Fields() ==
            if |landers| + j < n then old(rockets[j].Fields()).(aliveSteps := old(rockets[j].aliveSteps) + 1)
            else old(rockets[j].Fields())
      {
        SteppableAt(n);
        match items[n] {
          case LanderItem(_) =>
          case RocketItem(r) =>
            PostStepRocket(n - |landers|);
        }
      }
    }

    /** The post-step of the rocket at position `k`: no other rocket changes. */
    method PostStepRocket(k: nat)
      requires Valid() && k < |rockets|
      modifies rockets[k]
      ensures forall j :: 0 <= j < |rockets| ==>
        rockets[j].Fields() ==
          if j == k then old(rockets[j].Fields()).(aliveSteps := old(rockets[j].aliveSteps) + 1)
          else old(rockets[j].Fields())
    {
      rockets[k].PostStep();
    }

    /** The wrap pass: every steppable's body is wrapped into [0, worldWidth]. */
    method WrapAll()
      requires Valid()
      modifies set l | l in landers :: l.obj, set x | x in rockets :: x.obj
      ensures forall i :: 0 <= i < |landers| ==>
        landers[i].obj.collider == Wrapped(old(landers[i].obj.collider), moon.worldWidth)
      ensures forall j :: 0 <= j < |rockets| ==>
        rockets[j].obj.collider == Wrapped(old(rockets[j].obj.collider), moon.worldWidth)
    {
      var items := Steppables();
      for n := 0 to |items|
        invariant forall i :: 0 <= i < |landers| ==>
          landers[i].obj.collider == if i < n then Wrapped(old(landers[i].obj.collider), moon.worldWidth)
                                     else old(landers[i].obj.collider)
        invariant forall j :: 0 <= j < |rockets| ==>
          rockets[j].obj.collider == if |landers| + j < n then Wrapped(old(rockets[j].obj.collider), moon.worldWidth)
                                     else old(rockets[j].obj.collider)
      {
        SteppableAt(n);
        match items[n] {
          case LanderItem(l) =>
            WrapLander(n);
          case RocketItem(r) =>
            WrapRocket(n - |landers|);
        }
      }
    }

    /** The wrap of the lander at position `i`: no other body moves. */
    method WrapLander(i: nat)
      requires Valid() && i < |landers|
      modifies landers[i].obj
      ensures forall k :: 0 <= k < |landers| ==>
        landers[k].obj.collider == if k == i then Wrapped(old(landers[k].obj.collider), moon.worldWidth)
                                   else old(landers[k].obj.collider)
      ensures forall j :: 0 <= j < |rockets| ==> rockets[j].obj.collider == old(rockets[j].obj.collider)
    {
      landers[i].obj.WrapTranslation(moon.worldWidth);
    }

    /** The wrap of the rocket at position `j`: no other body moves. */
    method WrapRocket(j: nat)
      requires Valid() && j < |rockets|
      modifies rockets[j].obj
      ensures forall k :: 0 <= k < |rockets| ==>
        rockets[k].obj.collider == if k == j then Wrapped(old(rockets[k].obj.collider), moon.worldWidth)
                                   else old(rockets[k].obj.collider)
      ensures forall i :: 0 <= i < |landers| ==> landers[i].obj.collider == old(landers[i].obj.collider)
    {
      rockets[j].obj.WrapTranslation(moon.worldWidth);
    }

    /**
     * step(): the pre-step pass, the physics step, then the post-step and
     * wrap passes, each over steppables() in order. The physics step
     * itself is not part of this model; `dt` is the world's time step.
     */
    method Step(dt: real, timestep: int, options: GameOptions, cfg: Landers.LanderConfig)
      requires Valid()
      requires cfg.pi > 0.0
      modifies set l | l in landers, set l | l in landers :: l.obj,
        set x | x in rockets, set x | x in rockets :: x.obj
      ensures forall i :: 0 <= i < |landers| ==>
        && landers[i].Fields() ==
             Landers.PreStepped(old(landers[i].Fields()), dt, timestep, options, old(landers[i].obj.collider.rotation), cfg)
        && landers[i].obj.collider == Wrapped(old(landers[i].obj.collider), moon.worldWidth)
      ensures forall j :: 0 <= j < |rockets| ==>
        && rockets[j].Fields() == old(rockets[j].Fields()).(aliveSteps := old(rockets[j].aliveSteps) + 1)
        && rockets[j].obj.collider == Wrapped(old(rockets[j].obj.collider), moon.worldWidth)
    {
      PreStepAll(dt, timestep, options, cfg);
      PostStepAll();
      WrapAll();
    }
  }
}

=== FILE: lander.dfy ===
/**
 * The lander entity of game/objects/lander.ts: intents set by input events,
 * damage and liveness, the per-tick pre-step (refills, fuel gate, throttle
 * and target rotation, fuel burn) and weapon replenishment.
 *
 * Each mutating method is tied to a function on `LanderFields`, the
 * serialised field set; the properties the source promises are stated on
 * those functions.
 */
module Landers {
  import opened Types
  import opened GameObjects
  import AngleMath

  /** THROTTLE_RATE and TURN_RATE of game/constants.ts. */
  const THROTTLE_RATE: real := 1.0
  const TURN_RATE: real := 0.8

  datatype AmmoState = AmmoState(count: int, replenishFromTimestep: int)

  /** The rocketState record: one ammo counter per weapon type. */
  datatype RocketState = RocketState(small: AmmoState, big: AmmoState) {
    function Get(t: RocketType): AmmoState {
      match t
      case Small => small
      case Big => big
    }

    function Set(t: RocketType, a: AmmoState): (r: RocketState)
      ensures r.Get(t) == a
      ensures forall u :: u != t ==> r.Get(u) == Get(u)
    {
      match t
      case Small => this.(small := a)
      case Big => this.(big := a)
    }
  }

  datatype JoystickTarget = JoystickTarget(throttle: real, rotation: Option<real>)

  /** The fields a lander serialises (SERIALIZED_FIELDS), i.e. its simulation state. */
  datatype LanderFields = LanderFields(
    id: string,
    name: string,
    color: string,
    throttle: real,
    targetRotation: Option<real>,
    joystickTarget: Option<JoystickTarget>,
    health: real,
    fuel: real,
    rotatingLeft: bool,
    rotatingRight: bool,
    thrustingUp: bool,
    thrustingDown: bool,
    rocketState: RocketState)
  {
    predicate Alive() { health > 0.0 }

    predicate NoIntents() {
      !rotatingLeft && !rotatingRight && !thrustingUp && !thrustingDown
    }
  }

  /** serialize(): the body handle plus the serialised fields. */
  datatype LanderData = LanderData(handle: int, fields: LanderFields)

  /** Tuning the pre-step needs that game/constants.ts does not show, plus the half-turn. */
  datatype LanderConfig = LanderConfig(
    throttleFuelBurnRate: real,
    rotateFuelBurnRate: real,
    stats: RocketType -> RocketStats,
    pi: real)

  function RMax(a: real, b: real): real { if a < b then b else a }
  function RMin(a: real, b: real): real { if a < b then a else b }

  /** A freshly constructed lander: idle, full health and fuel, full ammo. */
  function InitialFields(id: string, name: string, color: string, stats: RocketType -> RocketStats): (r: LanderFields)
    ensures r.id == id && r.name == name && r.color == color
    ensures r.Alive() && r.NoIntents() && r.health == 100.0 && r.fuel == 100.0 && r.throttle == 0.0
    ensures forall t :: r.rocketState.Get(t) == AmmoState(stats(t).ammo, 0)
  {
    LanderFields(id, name, color, 0.0, None, None, 100.0, 100.0, false, false, false, false,
                 RocketState(AmmoState(stats(Small).ammo, 0), AmmoState(stats(Big).ammo, 0)))
  }

  /** processInput on the field set. */
  function Processed(f: LanderFields, e: InputEvent): (r: LanderFields)
    // a dead lander ignores every input
    ensures !f.Alive() ==> r == f
    // inputs never touch identity, health, fuel, throttle, target rotation or ammo
    ensures r.id == f.id && r.name == f.name && r.color == f.color
    ensures r.health == f.health && r.fuel == f.fuel && r.throttle == f.throttle
    ensures r.targetRotation == f.targetRotation && r.rocketState == f.rocketState
    // thrust and rotate set exactly the flag that matches their direction
    ensures f.Alive() && e.Thrust? && e.thrustDir == Up ==> r == f.(thrustingUp := e.active)
    ensures f.Alive() && e.Thrust? && e.thrustDir == Down ==> r == f.(thrustingDown := e.active)
    ensures f.Alive() && e.Rotate? && e.rotateDir == Left ==> r == f.(rotatingLeft := e.active)
    ensures f.Alive() && e.Rotate? && e.rotateDir == Right ==> r == f.(rotatingRight := e.active)
    // the joystick overwrites only the rotation flags it carries, and always the target
    ensures f.Alive() && e.Joystick? ==>
      && r.rotatingLeft == (if e.rotatingLeft.Some? then e.rotatingLeft.value else f.rotatingLeft)
      && r.rotatingRight == (if e.rotatingRight.Some? then e.rotatingRight.value else f.rotatingRight)
      && r.joystickTarget == Some(JoystickTarget(e.targetThrottle, e.targetRotation))
      && r.thrustingUp == f.thrustingUp && r.thrustingDown == f.thrustingDown
    ensures e.FireRocket? ==> r == f
  {
    if !f.Alive() then f
    else match e
      case Thrust(dir, active) => Thrusted(f, dir, active)
      case Rotate(dir, active) => Rotated(f, dir, active)
      case Joystick(left, right, targetThrottle, targetRotation) =>
        Joysticked(f, left, right, targetThrottle, targetRotation)
      case FireRocket(_) => f
  }

  /** The fields no input changes: identity, health, fuel, throttle, target rotation and ammo. */
  predicate InputUntouched(f: LanderFields, r: LanderFields) {
    && r.id == f.id && r.name == f.name && r.color == f.color
    && r.health == f.health && r.fuel == f.fuel && r.throttle == f.throttle
    && r.targetRotation == f.targetRotation && r.rocketState == f.rocketState
  }

  /** The thrust branch of processInput. */
  function Thrusted(f: LanderFields, dir: ThrustDir, active: bool): (r: LanderFields)
    ensures dir == Up ==> r == f.(thrustingUp := active)
    ensures dir == Down ==> r == f.(thrustingDown := active)
    ensures InputUntouched(f, r) && r.rotatingLeft == f.rotatingLeft && r.rotatingRight == f.rotatingRight
    ensures r.joystickTarget == f.joystickTarget
  {
    if dir == Up then f.(thrustingUp := active) else f.(thrustingDown := active)
  }

  /** The rotate branch of processInput. */
  function Rotated(f: LanderFields, dir: RotateDir, active: bool): (r: LanderFields)
    ensures dir == Left ==> r == f.(rotatingLeft := active)
    ensures dir == Right ==> r == f.(rotatingRight := active)
    ensures InputUntouched(f, r) && r.thrustingUp == f.thrustingUp && r.thrustingDown == f.thrustingDown
    ensures r.joystickTarget == f.joystickTarget
  {
    if dir == Left then f.(rotatingLeft := active) else f.(rotatingRight := active)
  }

  /** The joystick branch of processInput. */
  function Joysticked(f: LanderFields, left: Option<bool>, right: Option<bool>,
                      targetThrottle: real, targetRotation: Option<real>): (r: LanderFields)
    ensures r == f.(rotatingLeft := if left.Some? then left.value else f.rotatingLeft,
                    rotatingRight := if right.Some? then right.value else f.rotatingRight,
                    joystickTarget := Some(JoystickTarget(targetThrottle, targetRotation)))
    ensures InputUntouched(f, r) && r.thrustingUp == f.thrustingUp && r.thrustingDown == f.thrustingDown
    ensures r.rotatingLeft == (if left.Some? then left.value else f.rotatingLeft)
    ensures r.rotatingRight == (if right.Some? then right.value else f.rotatingRight)
    ensures r.joystickTarget == Some(JoystickTarget(targetThrottle, targetRotation))
  {
    var f1 := if left.Some? then f.(rotatingLeft := left.value) else f;
    var f2 := if right.Some? then f1.(rotatingRight := right.value) else f1;
    f2.(joystickTarget := Some(JoystickTarget(targetThrottle, targetRotation)))
  }

  /** takeDamage on the field set. */
  function Damaged(f: LanderFields, damage: real, infiniteHealth: bool): (r: LanderFields)
    // under infinite health exactly one point is lost, whatever the damage
    ensures infiniteHealth ==> r == f.(health := f.health - 1.0)
    // otherwise health drops by the damage but never below zero
    ensures !infiniteHealth ==> r.health == RMax(0.0, f.health - damage) && r.health >= 0.0
    ensures !infiniteHealth && 0.0 <= damage && f.health <= 100.0 ==> 0.0 <= r.health <= 100.0
    // reaching zero health freezes the lander
    ensures !infiniteHealth && r.health == 0.0 ==>
      r.throttle == 0.0 && r.NoIntents() && r.targetRotation == None && r.joystickTarget == None
    ensures !infiniteHealth && r.health != 0.0 ==> r == f.(health := r.health)
    ensures r.id == f.id && r.fuel == f.fuel && r.rocketState == f.rocketState
  {
    if infiniteHealth then f.(health := f.health - 1.0)
    else
      var h := RMax(0.0, f.health - damage);
      if h == 0.0 then
        f.(health := h, throttle := 0.0, thrustingDown := false, thrustingUp := false,
           targetRotation := None, rotatingLeft := false, rotatingRight := false,
           joystickTarget := None)
      else f.(health := h)
  }

  /** One weapon type's replenishment step. */
  function ReplenishOne(a: AmmoState, timestep: int, st: RocketStats): (r: AmmoState)
    ensures a.count <= r.count <= a.count + 1
    ensures r.count == a.count + 1 <==>
      a.count < st.ammo && timestep - a.replenishFromTimestep > st.replenishSteps
    ensures r.count == a.count + 1 ==> r.replenishFromTimestep == timestep
    ensures r.count == a.count ==> r == a
    ensures a.count <= st.ammo ==> r.count <= st.ammo
  {
    if a.count < st.ammo && timestep - a.replenishFromTimestep > st.replenishSteps then
      AmmoState(a.count + 1, timestep)
    else a
  }

  /** The replenish loop after it has visited `types`, in that order. */
  function ReplenishTypes(rs: RocketState, types: seq<RocketType>, timestep: int,
                          stats: RocketType -> RocketStats): RocketState
  {
    if types == [] then rs
    else
      var prev := ReplenishTypes(rs, types[..|types| - 1], timestep, stats);
      var t := types[|types| - 1];
      prev.Set(t, ReplenishOne(prev.Get(t), timestep, stats(t)))
  }

  const WeaponTypes: seq<RocketType> := [Small, Big]

  /** The replenish loop over both weapon types: each is stepped once, independently. */
  function Replenished(rs: RocketState, timestep: int, stats: RocketType -> RocketStats): (r: RocketState)
    ensures forall t :: r.Get(t) == ReplenishOne(rs.Get(t), timestep, stats(t))
  {
    var r0 := ReplenishTypes(rs, [], timestep, stats);
    var r1 := ReplenishTypes(rs, [Small], timestep, stats);
    assert [Small][..0] == [];
    assert r1 == r0.Set(Small, ReplenishOne(rs.Get(Small), timestep, stats(Small)));
    assert WeaponTypes[..1] == [Small];
    var r := ReplenishTypes(rs, WeaponTypes, timestep, stats);
    assert r == r1.Set(Big, ReplenishOne(r1.Get(Big), timestep, stats(Big)));
    r
  }

  /** The infinite-health and infinite-fuel refills at the start of preStep. */
  function Refilled(f: LanderFields, options: GameOptions): LanderFields {
    var f1 := if options.infiniteHealth then f.(health := 100.0) else f;
    if options.infiniteFuel then f1.(fuel := 100.0) else f1
  }

  /** The target rotation preStep chooses when it has fuel. */
  function ChosenTargetRotation(f: LanderFields, dt: real, rotation: real, pi: real): (r: Option<real>)
    requires pi > 0.0
    ensures (f.rotatingLeft || f.rotatingRight) ==> r.Some? && -pi <= r.value < pi
    ensures !(f.rotatingLeft || f.rotatingRight) && f.joystickTarget.None? ==> r == None
  {
    if f.rotatingLeft || f.rotatingRight then
      var target := rotation + TURN_RATE * dt * (if f.rotatingLeft then 1.0 else -1.0);
      var snapped := if (rotation < 0.0 && target > 0.0) || (rotation > 0.0 && target < 0.0) then 0.0 else target;
      Some(AngleMath.Normalize(snapped, pi))
    else if f.joystickTarget.Some? then f.joystickTarget.value.rotation
    else None
  }

  /** The throttle preStep chooses when it has fuel. */
  function ChosenThrottle(f: LanderFields, dt: real): (r: real)
    ensures (f.thrustingUp || f.thrustingDown) ==> 0.0 <= r <= 1.0
    ensures !(f.thrustingUp || f.thrustingDown) ==>
      r == (if f.joystickTarget.Some? then f.joystickTarget.value.throttle else f.throttle)
  {
    if f.thrustingUp || f.thrustingDown then
      RMax(0.0, RMin(1.0, f.throttle + THROTTLE_RATE * dt * (if f.thrustingUp then 1.0 else -1.0)))
    else if f.joystickTarget.Some? then f.joystickTarget.value.throttle
    else f.throttle
  }

  /** Fuel after the throttle burn and the rotation burn; never below zero. */
  function BurnedFuel(fuel: real, throttle: real, targetRotation: Option<real>, rotation: real,
                      dt: real, cfg: LanderConfig): (r: real)
    ensures fuel >= 0.0 ==> r >= 0.0
    ensures throttle == 0.0 && (targetRotation.None? || targetRotation.value == rotation) ==> r == fuel
  {
    var fuel1 := if throttle != 0.0 then RMax(0.0, fuel - cfg.throttleFuelBurnRate * throttle * dt) else fuel;
    if targetRotation.Some? && targetRotation.value != rotation then RMax(0.0, fuel1 - cfg.rotateFuelBurnRate * dt)
    else fuel1
  }

  /** The fuel-gated middle of preStep: steering choice and fuel burn. */
  function Steered(f: LanderFields, dt: real, rotation: real, cfg: LanderConfig): (r: LanderFields)
    requires cfg.pi > 0.0
    ensures f.fuel == 0.0 ==> r == f.(throttle := 0.0)
    ensures f.fuel != 0.0 && (f.thrustingUp || f.thrustingDown) ==> 0.0 <= r.throttle <= 1.0
    ensures f.fuel >= 0.0 ==> r.fuel >= 0.0
    ensures r.id == f.id && r.health == f.health && r.rocketState == f.rocketState
    ensures r.rotatingLeft == f.rotatingLeft && r.rotatingRight == f.rotatingRight
    ensures r.thrustingUp == f.thrustingUp && r.thrustingDown == f.thrustingDown
  {
    if f.fuel == 0.0 then f.(throttle := 0.0)
    else
      var tr := ChosenTargetRotation(f, dt, rotation, cfg.pi);
      var th := ChosenThrottle(f, dt);
      f.(targetRotation := tr, throttle := th, fuel := BurnedFuel(f.fuel, th, tr, rotation, dt, cfg))
  }

  /** preStep on the field set; `rotation` is the body's current rotation. */
  function PreStepped(f: LanderFields, dt: real, timestep: int, options: GameOptions,
                      rotation: real, cfg: LanderConfig): (r: LanderFields)
    requires cfg.pi > 0.0
    // refills
    ensures options.infiniteHealth ==> r.health == 100.0
    ensures !options.infiniteHealth ==> r.health == f.health
    // the fuel gate: an empty tank forces the throttle to zero
    ensures !options.infiniteFuel && f.fuel == 0.0 ==> r.throttle == 0.0 && r.fuel == 0.0
    // thrust-driven throttle stays in [0, 1]
    ensures (options.infiniteFuel || f.fuel != 0.0) && (f.thrustingUp || f.thrustingDown) ==>
      0.0 <= r.throttle <= 1.0
    ensures f.fuel >= 0.0 ==> r.fuel >= 0.0
    // at most one more round per weapon type, only after the wait, never above the maximum
    ensures forall t :: r.rocketState.Get(t) == ReplenishOne(f.rocketState.Get(t), timestep, cfg.stats(t))
    ensures r.id == f.id && r.name == f.name && r.color == f.color
    ensures r.rotatingLeft == f.rotatingLeft && r.rotatingRight == f.rotatingRight
    ensures r.thrustingUp == f.thrustingUp && r.thrustingDown == f.thrustingDown
  {
    var f1 := Refilled(f, options);
    var f2 := Steered(f1, dt, rotation, cfg);
    f2.(rocketState := Replenished(f2.rocketState, timestep, cfg.stats))
  }

  class Lander {
    var id: string
    var name: string
    var color: string
    var throttle: real
    var joystickTarget: Option<JoystickTarget>
    var targetRotation: Option<real>
    var health: real
    var fuel: real
    var rotatingLeft: bool
    var rotatingRight: bool
    var thrustingUp: bool
    var thrustingDown: bool
    var rocketState: RocketState
    /** The physics side of the lander (the GameObject base class). */
    const obj: GameObject

    constructor (obj: GameObject, id: string, name: string, color: string, stats: RocketType -> RocketStats)
      ensures this.obj == obj
      ensures Fields() == InitialFields(id, name, color, stats)
    {
      this.obj := obj;
      this.id := id;
      this.name := name;
      this.color := color;
      throttle := 0.0;
      joystickTarget := None;
      targetRotation := None;
      health := 100.0;
      fuel := 100.0;
      rotatingLeft := false;
      rotatingRight := false;
      thrustingUp := false;
      thrustingDown := false;
      rocketState := RocketState(AmmoState(stats(Small).ammo, 0), AmmoState(stats(Big).ammo, 0));
    }

    function Fields(): LanderFields
      reads this
    {
      LanderFields(id, name, color, throttle, targetRotation, joystickTarget, health, fuel,
                   rotatingLeft, rotatingRight, thrustingUp, thrustingDown, rocketState)
    }

    function Serialize(): LanderData
      reads this, obj
    {
      LanderData(obj.handle, Fields())
    }

    predicate IsAlive()
      reads this
    {
      health > 0.0
    }

    method ProcessInput(event: InputEvent)
      modifies this`thrustingUp, this`thrustingDown, this`rotatingLeft, this`rotatingRight, this`joystickTarget
      ensures Fields() == Processed(old(Fields()), event)
    {
      if IsAlive() {
        match event {
          case Thrust(dir, active) => Thrust(dir, active);
          case Rotate(dir, active) => Rotate(dir, active);
          case Joystick(left, right, targetThrottle, target) => Joystick(left, right, targetThrottle, target);
          case FireRocket(_) =>
        }
      }
    }

    /** The thrust event: the flag of its direction. */
    method Thrust(dir: ThrustDir, active: bool)
      modifies this`thrustingUp, this`thrustingDown
      ensures Fields() == Thrusted(old(Fields()), dir, active)
    {
      if dir == Up {
        thrustingUp := active;
      } else if dir == Down {
        thrustingDown := active;
      }
    }

    /** The rotate event: the flag of its direction. */
    method Rotate(dir: RotateDir, active: bool)
      modifies this`rotatingLeft, this`rotatingRight
      ensures Fields() == Rotated(old(Fields()), dir, active)
    {
      if dir == Left {
        rotatingLeft := active;
      } else if dir == Right {
        rotatingRight := active;
      }
    }

    /** The joystick event: the rotation flags it carries, and the target. */
    method Joystick(left: Option<bool>, right: Option<bool>, targetThrottle: real, target: Option<real>)
      modifies this`rotatingLeft, this`rotatingRight, this`joystickTarget
      ensures Fields() == Joysticked(old(Fields()), left, right, targetThrottle, target)
    {
      if left.Some? {
        rotatingLeft := left.value;
      }
      if right.Some? {
        rotatingRight := right.value;
      }
      joystickTarget := Some(JoystickTarget(targetThrottle, target));
    }

    method TakeDamage(damage: real, options: GameOptions)
      modifies this
      ensures Fields() == Damaged(old(Fields()), damage, options.infiniteHealth)
    {
      ghost var f := Fields();
      if options.infiniteHealth {
        health := health - 1.0;
        assert Fields() == f.(health := f.health - 1.0);
      } else {
        health := RMax(0.0, health - damage);
        if health == 0.0 {
          Freeze();
          assert Fields() == f.(health := 0.0, throttle := 0.0, thrustingDown := false, thrustingUp := false,
                                targetRotation := None, rotatingLeft := false, rotatingRight := false,
                                joystickTarget := None);
        } else {
          assert Fields() == f.(health := health);
        }
      }
    }

    /** What reaching zero health resets: throttle, every intent and both targets. */
    method Freeze()
      modifies this`throttle, this`thrustingDown, this`thrustingUp, this`targetRotation,
               this`rotatingLeft, this`rotatingRight, this`joystickTarget
      ensures throttle == 0.0 && !thrustingDown && !thrustingUp && !rotatingLeft && !rotatingRight
      ensures targetRotation == None && joystickTarget == None
    {
      throttle := 0.0;
      thrustingDown := false;
      thrustingUp := false;
      targetRotation := None;
      rotatingLeft := false;
      rotatingRight := false;
      joystickTarget := None;
    }

    /** The weapon replenish loop at the end of preStep. */
    method ReplenishWeapons(timestep: int, stats: RocketType -> RocketStats)
      modifies this`rocketState
      ensures rocketState == Replenished(old(rocketState), timestep, stats)
    {
      var types := WeaponTypes;
      for i := 0 to |types|
        invariant rocketState == ReplenishTypes(old(rocketState), types[..i], timestep, stats)
      {
        var t := types[i];
        var s := rocketState.Get(t);
        assert types[..i + 1][..i] == types[..i];
        if s.count < stats(t).ammo && timestep - s.replenishFromTimestep > stats(t).replenishSteps {
          rocketState := rocketState.Set(t, AmmoState(s.count + 1, timestep));
        }
      }
      assert types[..|types|] == WeaponTypes;
    }

    /** The infinite-health and infinite-fuel refills. */
    method Refill(options: GameOptions)
      modifies this
      ensures Fields() == Refilled(old(Fields()), options)
    {
      if options.infiniteHealth {
        health := 100.0;
      }
      if options.infiniteFuel {
        fuel := 100.0;
      }
    }

    method ChooseTargetRotation(dt: real, rotation: real, pi: real)
      requires pi > 0.0
      modifies this`targetRotation
      ensures targetRotation == ChosenTargetRotation(old(Fields()), dt, rotation, pi)
    {
      if rotatingLeft || rotatingRight {
        var target := rotation + TURN_RATE * dt * (if rotatingLeft then 1.0 else -1.0);
        if (rotation < 0.0 && target > 0.0) || (rotation > 0.0 && target < 0.0) {
          target := 0.0;
        }
        var normalized := AngleMath.NormalizeAngle(target, pi);
        targetRotation := Some(normalized);
      } else if joystickTarget.Some? {
        targetRotation := joystickTarget.value.rotation;
      } else {
        targetRotation := None;
      }
    }

    method ChooseThrottle(dt: real)
      modifies this`throttle
      ensures throttle == ChosenThrottle(old(Fields()), dt)
    {
      if thrustingUp || thrustingDown {
        var target := throttle + THROTTLE_RATE * dt * (if thrustingUp then 1.0 else -1.0);
        target := RMax(0.0, RMin(1.0, target));
        throttle := target;
      } else if joystickTarget.Some? {
        throttle := joystickTarget.value.throttle;
      }
    }

    method BurnFuel(dt: real, rotation: real, cfg: LanderConfig)
      modifies this`fuel
      ensures fuel == BurnedFuel(old(fuel), throttle, targetRotation, rotation, dt, cfg)
    {
      if throttle != 0.0 {
        fuel := RMax(0.0, fuel - cfg.throttleFuelBurnRate * throttle * dt);
      }
      if targetRotation.Some? && targetRotation.value != rotation {
        fuel := RMax(0.0, fuel - cfg.rotateFuelBurnRate * dt);
      }
    }

    /** The fuel-gated part of preStep. */
    method Steer(dt: real, rotation: real, cfg: LanderConfig)
      requires cfg.pi > 0.0
      modifies this
      ensures Fields() == Steered(old(Fields()), dt, rotation, cfg)
    {
      if fuel == 0.0 {
        throttle := 0.0;
      } else {
        ChooseTargetRotation(dt, rotation, cfg.pi);
        ChooseThrottle(dt);
        BurnFuel(dt, rotation, cfg);
      }
    }

    /**
     * preStep without the physics: forces, angular velocity and the new
     * body rotation are left to the physics world; the rotation is read
     * from the body.
     */
    method PreStep(dt: real, timestep: int, options: GameOptions, cfg: LanderConfig)
      requires cfg.pi > 0.0
      modifies this
      ensures Fields() == PreStepped(old(Fields()), dt, timestep, options, obj.collider.rotation, cfg)
    {
      Refill(options);
      Steer(dt, obj.collider.rotation, cfg);
      ReplenishWeapons(timestep, cfg.stats);
    }

    /** mergeFrom: copy every serialised field, then re-bind the collider by the object's own handle. */
    method MergeFrom(world: World, data: LanderData) returns (result: Outcome)
      modifies this, obj
      ensures Fields() == data.fields
      ensures obj.handle == old(obj.handle)
      ensures result == (if obj.handle in world.colliders then Pass else NoColliderFound(obj.handle))
      ensures obj.collider == (if obj.handle in world.colliders then world.colliders[obj.handle] else old(obj.collider))
    {
      SetFields(data.fields);
      result := obj.UpdateCollider(world);
    }

    /** The field copies of mergeFrom. */
    method SetFields(f: LanderFields)
      modifies this
      ensures Fields() == f
    {
      SetIdentityAndTargets(f);
      SetStatus(f);
    }

    method SetIdentityAndTargets(f: LanderFields)
      modifies this`id, this`name, this`color, this`throttle, this`targetRotation, this`joystickTarget
      ensures id == f.id && name == f.name && color == f.color
      ensures throttle == f.throttle && targetRotation == f.targetRotation && joystickTarget == f.joystickTarget
    {
      id, name, color := f.id, f.name, f.color;
      throttle, targetRotation, joystickTarget := f.throttle, f.targetRotation, f.joystickTarget;
    }

    method SetStatus(f: LanderFields)
      modifies this`health, this`fuel, this`rotatingLeft, this`rotatingRight, this`thrustingUp,
               this`thrustingDown, this`rocketState
      ensures health == f.health && fuel == f.fuel && rocketState == f.rocketState
      ensures rotatingLeft == f.rotatingLeft && rotatingRight == f.rotatingRight
      ensures thrustingUp == f.thrustingUp && thrustingDown == f.thrustingDown
    {
      health, fuel := f.health, f.fuel;
      rotatingLeft, rotatingRight, thrustingUp, thrustingDown :=
        f.rotatingLeft, f.rotatingRight, f.thrustingUp, f.thrustingDown;
      rocketState := f.rocketState;
    }
  }

  /**
   * createFrom: a lander built from a payload entry. The source hands the
   * constructor whatever getCollider returns and then throws from
   * mergeFrom when the handle is unknown; here that is a null result.
   */
  method CreateFrom(world: World, data: LanderData, stats: RocketType -> RocketStats)
    returns (lander: Lander?, result: Outcome)
    ensures result == (if data.handle in world.colliders then Pass else NoColliderFound(data.handle))
    ensures result.Pass? <==> lander != null
    ensures lander != null ==> fresh(lander) && fresh(lander.obj)
    ensures lander != null ==> lander.Serialize() == data && lander.obj.collider == world.colliders[data.handle]
  {
    if data.handle !in world.colliders {
      return null, NoColliderFound(data.handle);
    }
    var o := new GameObject(data.handle, world.colliders[data.handle]);
    var l := new Lander(o, data.fields.id, data.fields.name, data.fields.color, stats);
    result := l.MergeFrom(world, data);
    lander := l;
  }
}

=== FILE: math.dfy ===
/**
 * Angle normalisation (utils/math.ts). The source uses Math.PI; here the
 * half-turn `pi` is a parameter about which only `pi > 0` is assumed, and
 * angles are reals.
 */
module AngleMath {

  /** Full turns still to add before `angle` reaches -pi (the first loop's measure). */
  function TurnsBelow(angle: real, pi: real): int
    requires pi > 0.0
  {
    ((-pi - angle) / (2.0 * pi)).Floor
  }

  /** Full turns still to subtract before `angle` drops below pi (the second loop's measure). */
  function TurnsAbove(angle: real, pi: real): int
    requires pi > 0.0
  {
    ((angle + pi) / (2.0 * pi)).Floor
  }

  lemma DivShift(x: real, d: real)
    requires d > 0.0
    ensures (x - d) / d == x / d - 1.0
    ensures (x + d) / d == x / d + 1.0
  {
    assert (x - d) / d == x / d - d / d;
    assert (x + d) / d == x / d + d / d;
  }

  /** One full turn up brings the first loop's measure one step closer to zero. */
  lemma TurnsBelowStep(angle: real, pi: real)
    requires pi > 0.0 && angle < -pi
    ensures 0 <= TurnsBelow(angle, pi)
    ensures TurnsBelow(angle + 2.0 * pi, pi) == TurnsBelow(angle, pi) - 1
  {
    var y := (-pi - angle) / (2.0 * pi);
    DivShift(-pi - angle, 2.0 * pi);
    assert -pi - (angle + 2.0 * pi) == (-pi - angle) - 2.0 * pi;
    assert (-pi - (angle + 2.0 * pi)) / (2.0 * pi) == y - 1.0;
    assert y > 0.0;
  }

  /** One full turn down brings the second loop's measure one step closer to zero. */
  lemma TurnsAboveStep(angle: real, pi: real)
    requires pi > 0.0 && angle >= pi
    ensures 0 <= TurnsAbove(angle, pi)
    ensures TurnsAbove(angle - 2.0 * pi, pi) == TurnsAbove(angle, pi) - 1
  {
    var y := (angle + pi) / (2.0 * pi);
    DivShift(angle + pi, 2.0 * pi);
    assert (angle - 2.0 * pi) + pi == (angle + pi) - 2.0 * pi;
    assert ((angle - 2.0 * pi) + pi) / (2.0 * pi) == y - 1.0;
    assert y > 0.0;
  }

  /** What the first loop of normalizeAngle leaves: angle raised by whole turns until >= -pi. */
  function RaiseAbove(angle: real, pi: real): (r: real)
    requires pi > 0.0
    ensures r >= -pi
    ensures angle >= -pi ==> r == angle
    decreases TurnsBelow(angle, pi)
  {
    if angle < -pi then
      TurnsBelowStep(angle, pi);
      RaiseAbove(angle + 2.0 * pi, pi)
    else angle
  }

  /** What the second loop leaves: angle lowered by whole turns until < pi. */
  function LowerBelow(angle: real, pi: real): (r: real)
    requires pi > 0.0
    ensures r < pi
    ensures angle >= -pi ==> r >= -pi
    ensures angle < pi ==> r == angle
    decreases TurnsAbove(angle, pi)
  {
    if angle >= pi then
      TurnsAboveStep(angle, pi);
      LowerBelow(angle - 2.0 * pi, pi)
    else angle
  }

  /** normalizeAngle as a function: maps any angle into [-pi, pi). */
  function Normalize(angle: real, pi: real): (r: real)
    requires pi > 0.0
    ensures -pi <= r < pi
    ensures -pi <= angle < pi ==> r == angle
  {
    LowerBelow(RaiseAbove(angle, pi), pi)
  }

  lemma {:induction false} RaiseAboveTurns(angle: real, pi: real) returns (k: nat)
    requires pi > 0.0
    ensures RaiseAbove(angle, pi) == angle + (k as real) * (2.0 * pi)
    decreases TurnsBelow(angle, pi)
  {
    if angle < -pi {
      TurnsBelowStep(angle, pi);
      var k' := RaiseAboveTurns(angle + 2.0 * pi, pi);
      k := k' + 1;
    } else {
      k := 0;
    }
  }

  lemma {:induction false} LowerBelowTurns(angle: real, pi: real) returns (k: nat)
    requires pi > 0.0
    ensures LowerBelow(angle, pi) == angle - (k as real) * (2.0 * pi)
    decreases TurnsAbove(angle, pi)
  {
    if angle >= pi {
      TurnsAboveStep(angle, pi);
      var k' := LowerBelowTurns(angle - 2.0 * pi, pi);
      k := k' + 1;
    } else {
      k := 0;
    }
  }

  /** The normalised angle differs from the input by a whole number of full turns. */
  lemma NormalizeTurns(angle: real, pi: real) returns (k: int)
    requires pi > 0.0
    ensures Normalize(angle, pi) == angle + (k as real) * (2.0 * pi)
  {
    var up := RaiseAboveTurns(angle, pi);
    var down := LowerBelowTurns(RaiseAbove(angle, pi), pi);
    k := (up as int) - (down as int);
  }

  /** Normalising twice is the same as normalising once. */
  lemma NormalizeIdempotent(angle: real, pi: real)
    requires pi > 0.0
    ensures Normalize(Normalize(angle, pi), pi) == Normalize(angle, pi)
  {
    var once := Normalize(angle, pi);
    assert -pi <= once < pi;
  }

  /** normalizeAngle: the two while loops of utils/math.ts. */
  method NormalizeAngle(angle: real, pi: real) returns (r: real)
    requires pi > 0.0
    ensures r == Normalize(angle, pi)
    ensures -pi <= r < pi
  {
    var a := angle;
    while a < -pi
      invariant RaiseAbove(a, pi) == RaiseAbove(angle, pi)
      decreases TurnsBelow(a, pi)
    {
      TurnsBelowStep(a, pi);
      a := a + 2.0 * pi;
    }
    while a >= pi
      invariant a >= -pi
      invariant LowerBelow(a, pi) == Normalize(angle, pi)
      decreases TurnsAbove(a, pi)
    {
      TurnsAboveStep(a, pi);
      a := a - 2.0 * pi;
    }
    r := a;
  }
}

=== FILE: protocol.dfy ===
/**
 * The messages the two coordinators exchange, with the fields
 * game/client-engine.ts and game/server-engine.ts read and write.
 * Payloads are the engine-level images of the game.
 */
module Protocol {
  import opened Types
  import opened Engine

  datatype ResetOptions = ResetOptions(preserveMap: bool, preserveScores: bool)

  datatype ResetCause = Requested | Won | Dead

  /** Server to client. */
  datatype ServerMessage =
      // sent on connect, before the client engine exists; it carries no game id
    | Init(time: int, full: GameImage)
    | Full(time: int, gameId: string, full: GameImage)
    | Partial(time: int, gameId: string, partial: PartialImage, lastPlayerInputTimesteps: map<string, seq<int>>)
      // another player's input, rebroadcast as received
    | Input(input: PlayerInputMessage)
    | Reset(time: int, gameId: string, full: GameImage)
    | Meta(time: int, gameId: string, meta: MetaImage)
    | ResetPending(time: int, gameId: string, cause: ResetCause, resetTimestamp: int)
    | ResetCancelled(time: int, gameId: string)
    | Chat(time: int, gameId: string, playerId: string, message: string)
  {
    /** The message's game id; an input carries it inside, init has none. */
    function GameIdOf(): Option<string> {
      match this
      case Init(_, _) => None
      case Input(m) => Some(m.gameId)
      case _ => Some(this.gameId)
    }

    /** The message's tick. */
    function TimeOf(): int {
      match this
      case Input(m) => m.time
      case _ => this.time
    }
  }

  /** Client to server. */
  datatype ClientMessage =
    | Join(time: int, gameId: string, name: string)
    | InputMsg(input: PlayerInputMessage)
    | RequestStart(time: int, gameId: string, name: string, options: GameOptions)
    | RequestReset(time: int, gameId: string, options: GameOptions, resetOptions: ResetOptions)
    | CancelReset(time: int, gameId: string)
    | PlayerInfo(time: int, gameId: string, name: string)
    | ChatMsg(time: int, gameId: string, playerId: string, message: string)
    | RequestFull(time: int, gameId: string)
  {
    function GameIdOf(): string {
      match this
      case InputMsg(m) => m.gameId
      case _ => this.gameId
    }
  }
}

=== FILE: rocket.dfy ===
/**
 * Rockets (game/rocket.ts): an identity, an owner, a weapon type and an
 * age in ticks. A rocket ages by one tick per post-step and is removed from
 * the game once its age reaches the weapon's lifetime.
 */
module Rockets {
  import opened Types
  import opened GameObjects

  /** The fields a rocket serialises (SERIALIZED_FIELDS). */
  datatype RocketFields = RocketFields(
    id: string,
    ownerLanderId: string,
    rocketType: RocketType,
    aliveSteps: int,
    color: string)

  /** serialize(): the body handle plus the serialised fields. */
  datatype RocketData = RocketData(handle: int, fields: RocketFields)

  /** The fields a rocket has right after its constructor: the options copied, age 0. */
  function Constructed(id: string, ownerLanderId: string, rocketType: RocketType, color: string): (r: RocketFields)
    ensures r.id == id && r.ownerLanderId == ownerLanderId && r.rocketType == rocketType && r.color == color
    ensures r.aliveSteps == 0
  {
    RocketFields(id, ownerLanderId, rocketType, 0, color)
  }

  /** What createFrom as written leaves: the constructor's fields, so the payload's age is dropped. */
  function CreatedFromAsWritten(data: RocketData): (r: RocketFields)
    ensures r == data.fields.(aliveSteps := 0)
  {
    Constructed(data.fields.id, data.fields.ownerLanderId, data.fields.rocketType, data.fields.color)
  }

  /** A rocket 5 ticks old, rebuilt by createFrom as written, is 0 ticks old again. */
  lemma CreateFromResetsAge()
    ensures var data := RocketData(7, RocketFields("r1", "p1", Small, 5, "red"));
      CreatedFromAsWritten(data) != data.fields && CreatedFromAsWritten(data).aliveSteps == 0
  {
  }

  /** Array.prototype pull: every occurrence of `x` removed, the rest in order. */
  function Pulled<T(==)>(s: seq<T>, x: T): (r: seq<T>)
    ensures forall i :: 0 <= i < |r| ==> r[i] in s && r[i] != x
    ensures forall i :: 0 <= i < |s| && s[i] != x ==> s[i] in r
    ensures |r| <= |s|
  {
    if s == [] then []
    else
      var rest := Pulled(s[1..], x);
      assert s == [s[0]] + s[1..];
      if s[0] == x then rest else [s[0]] + rest
  }

  /** Pulling an element that occurs once removes just that position. */
  lemma {:induction false} PulledOnce<T>(s: seq<T>, x: T, i: nat)
    requires i < |s| && s[i] == x
    requires forall j :: 0 <= j < |s| && j != i ==> s[j] != x
    ensures Pulled(s, x) == s[..i] + s[i + 1..]
  {
    if i == 0 {
      PulledAbsent(s[1..], x);
    } else {
      var t := s[1..];
      assert s[0] != x;
      assert forall j :: 0 <= j < |t| && j != i - 1 ==> t[j] != x by {
        forall j | 0 <= j < |t| && j != i - 1
          ensures t[j] != x
        {
          assert t[j] == s[j + 1];
        }
      }
      PulledOnce(t, x, i - 1);
      assert Pulled(s, x) == [s[0]] + Pulled(t, x);
      ConsSplice(s, i);
    }
  }

  /** Dropping position `i > 0` of `s` is keeping its head and dropping `i - 1` of its tail. */
  lemma ConsSplice<T>(s: seq<T>, i: nat)
    requires 0 < i < |s|
    ensures s[..i] + s[i + 1..] == [s[0]] + (s[1..][..i - 1] + s[1..][i..])
  {
    assert s[..i] == [s[0]] + s[1..][..i - 1];
    assert s[i + 1..] == s[1..][i..];
  }

  /** Pulling an absent element changes nothing. */
  lemma {:induction false} PulledAbsent<T>(s: seq<T>, x: T)
    requires x !in s
    ensures Pulled(s, x) == s
  {
    if s != [] {
      assert x !in s[1..];
      PulledAbsent(s[1..], x);
      assert s == [s[0]] + s[1..];
    }
  }

  class Rocket {
    var id: string
    var ownerLanderId: string
    var rocketType: RocketType
    var aliveSteps: int
    var color: string
    /** The physics side of the rocket (the GameObject base class). */
    const obj: GameObject

    constructor (obj: GameObject, id: string, ownerLanderId: string, rocketType: RocketType, color: string)
      ensures this.obj == obj
      ensures Fields() == Constructed(id, ownerLanderId, rocketType, color)
    {
      this.obj := obj;
      this.id := id;
      this.ownerLanderId := ownerLanderId;
      this.rocketType := rocketType;
      this.color := color;
      aliveSteps := 0;
    }

    function Fields(): RocketFields
      reads this
    {
      RocketFields(id, ownerLanderId, rocketType, aliveSteps, color)
    }

    function Serialize(): RocketData
      reads this, obj
    {
      RocketData(obj.handle, Fields())
    }

    predicate Expired(stats: RocketType -> RocketStats)
      reads this
    {
      aliveSteps >= stats(rocketType).aliveSteps
    }

    method PostStep()
      modifies this`aliveSteps
      ensures aliveSteps == old(aliveSteps) + 1
    {
      aliveSteps := aliveSteps + 1;
    }

    /** mergeFrom: copy every serialised field, then re-bind the collider by the object's own handle. */
    method MergeFrom(world: World, data: RocketData) returns (result: Outcome)
      modifies this, obj
      ensures Fields() == data.fields
      ensures obj.handle == old(obj.handle)
      ensures result == (if obj.handle in world.colliders then Pass else NoColliderFound(obj.handle))
      ensures obj.collider == (if obj.handle in world.colliders then world.colliders[obj.handle] else old(obj.collider))
    {
      var f := data.fields;
      id, ownerLanderId, rocketType, aliveSteps, color := f.id, f.ownerLanderId, f.rocketType, f.aliveSteps, f.color;
      result := obj.UpdateCollider(world);
    }

    /**
     * maybeRemove: an expired rocket is pulled from the game's rocket list
     * and its body removed from the world. The list and world come in and
     * go out as values.
     */
    method MaybeRemove(rockets: seq<Rocket>, world: World, stats: RocketType -> RocketStats)
      returns (removed: bool, rest: seq<Rocket>, world': World)
      ensures removed == Expired(stats)
      ensures removed ==> rest == Pulled(rockets, this) && world' == World(world.colliders - {obj.handle})
      ensures !removed ==> rest == rockets && world' == world
    {
      if aliveSteps >= stats(rocketType).aliveSteps {
        return true, Pulled(rockets, this), World(world.colliders - {obj.handle});
      }
      return false, rockets, world;
    }
  }

  /** createFrom as written: the payload's age is not copied. */
  method CreateFromAsWritten(world: World, data: RocketData) returns (rocket: Rocket?, result: Outcome)
    ensures result == (if data.handle in world.colliders then Pass else NoColliderFound(data.handle))
    ensures result.Pass? <==> rocket != null
    ensures rocket != null ==> fresh(rocket) && fresh(rocket.obj)
    ensures rocket != null ==> rocket.Fields() == CreatedFromAsWritten(data) && rocket.obj.handle == data.handle
  {
    if data.handle !in world.colliders {
      return null, NoColliderFound(data.handle);
    }
    var o := new GameObject(data.handle, world.colliders[data.handle]);
    var f := data.fields;
    rocket := new Rocket(o, f.id, f.ownerLanderId, f.rocketType, f.color);
    result := Pass;
  }

  /** createFrom as intended: the rebuilt rocket serialises back to its payload. */
  method CreateFrom(world: World, data: RocketData) returns (rocket: Rocket?, result: Outcome)
    ensures result == (if data.handle in world.colliders then Pass else NoColliderFound(data.handle))
    ensures result.Pass? <==> rocket != null
    ensures rocket != null ==> fresh(rocket) && fresh(rocket.obj)
    ensures rocket != null ==> rocket.Serialize() == data && rocket.obj.collider == world.colliders[data.handle]
  {
    if data.handle !in world.colliders {
      return null, NoColliderFound(data.handle);
    }
    var o := new GameObject(data.handle, world.colliders[data.handle]);
    var f := data.fields;
    var r := new Rocket(o, f.id, f.ownerLanderId, f.rocketType, f.color);
    result := r.MergeFrom(world, data);
    rocket := r;
  }
}

=== FILE: server_engine.dfy ===
/**
 * The server coordinator of game/server-engine.ts: it owns a base engine in
 * the server role, queues the players' inputs and logs them once per tick,
 * decides wins and the reset countdown, rebuilds the game on a reset, and
 * broadcasts partial syncs on their cadence or at once when history had to
 * be corrected. Sending is an append to `outbox`; the interval timer is the
 * flag `running`; a pending setTimeout of a reset is an entry of `timers`
 * that the environment fires with FireTimer; wall-clock readings, the
 * physics' landing verdicts and the random draws are parameters.
 */
module ServerEngines {
  import opened Types
  import opened Timelines
  import opened Engine
  import opened Protocol
  import opened ServerRules
  import Landers
  import Rockets

  /** LANDER_COLORS is never empty. */
  type Palette = s: seq<string> | |s| > 0 witness ["white"]

  /** A message leaving the server: to every connection, or to one. */
  datatype Outgoing = ToAll(msg: ServerMessage) | ToOne(conn: string, msg: ServerMessage)

  /**
   * A pending reset timeout. A requested reset carries the options it was
   * requested with; the end-of-game one reads the game's options when it fires.
   */
  datatype ResetTimer = RequestedReset(options: GameOptions, resetOptions: ResetOptions) | EndOfGameReset

  /** What handleMessage does with a client message. */
  datatype ServerAction =
    | Obsolete
    | JoinGame
    | QueueInput
    | StartGame
    | ScheduleReset
    | CancelPendingReset
    | Rename
    | RelayChat
      // request-full has no branch
    | Unhandled
  {
    /** The branches that change the players or the game, and send a reset or partial sync. */
    predicate ChangesPlayers() {
      JoinGame? || StartGame? || Rename?
    }
  }

  /** The branch of handleMessage a message takes. */
  function Route(msg: ClientMessage, gameId: string): (a: ServerAction)
    // another game's messages are dropped whatever their type
    ensures a == Obsolete <==> msg.GameIdOf() != gameId
    ensures a == JoinGame <==> msg.Join? && msg.gameId == gameId
    ensures a == QueueInput <==> msg.InputMsg? && msg.input.gameId == gameId
    ensures a == StartGame <==> msg.RequestStart? && msg.gameId == gameId
    ensures a == ScheduleReset <==> msg.RequestReset? && msg.gameId == gameId
    ensures a == CancelPendingReset <==> msg.CancelReset? && msg.gameId == gameId
    ensures a == Rename <==> msg.PlayerInfo? && msg.gameId == gameId
    ensures a == RelayChat <==> msg.ChatMsg? && msg.gameId == gameId
    ensures a == Unhandled <==> msg.RequestFull? && msg.gameId == gameId
  {
    if msg.GameIdOf() != gameId then Obsolete
    else
      match msg
      case Join(_, _, _) => JoinGame
      case InputMsg(_) => QueueInput
      case RequestStart(_, _, _, _) => StartGame
      case RequestReset(_, _, _, _) => ScheduleReset
      case CancelReset(_, _) => CancelPendingReset
      case PlayerInfo(_, _, _) => Rename
      case ChatMsg(_, _, _, _) => RelayChat
      case RequestFull(_, _) => Unhandled
  }

  /** Lander.create and the push onto game.landers: a new lander and its body. */
  function WithLander(g: GameImage, ops: WorldOps, id: string, name: string, color: string,
                      stats: RocketType -> RocketStats): GameImage
  {
    g.(landers := g.landers + [Landers.InitialFields(id, name, color, stats)], world := ops.spawn(g.world, id))
  }

  /** A join appends exactly the new lander, spawns its body, and changes nothing else. */
  lemma WithLanderAppends(g: GameImage, ops: WorldOps, id: string, name: string, color: string,
                          stats: RocketType -> RocketStats)
    ensures var r := WithLander(g, ops, id, name, color, stats);
      && |r.landers| == |g.landers| + 1 && r.landers[..|g.landers|] == g.landers
      && r.landers[|g.landers|] == Landers.InitialFields(id, name, color, stats)
      && r.world == ops.spawn(g.world, id)
      && r.id == g.id && r.wonPlayer == g.wonPlayer && r.playerWins == g.playerWins
      && r.options == g.options && r.moon == g.moon
  {
  }

  /** The colour addPlayer gives: the one passed, else pickColor's. */
  /** The game after player-info: the sender's lander, when there is one, takes the new name. */
  function Renamed(g: GameImage, sender: string, name: string): GameImage {
    match FindLander(g.landers, sender)
    case Some(k) => g.(landers := g.landers[k := g.landers[k].(name := name)])
    case None => g
  }

  /** Only the sender's first lander changes, and only in its name; without one the game is unchanged. */
  lemma RenamedOnlyName(g: GameImage, sender: string, name: string)
    ensures |Renamed(g, sender, name).landers| == |g.landers|
    ensures forall i :: 0 <= i < |g.landers| ==>
      Renamed(g, sender, name).landers[i] ==
        (if FindLander(g.landers, sender) == Some(i) then g.landers[i].(name := name) else g.landers[i])
    ensures Renamed(g, sender, name).(landers := g.landers) == g
    ensures (forall i :: 0 <= i < |g.landers| ==> g.landers[i].id != sender) ==> Renamed(g, sender, name) == g
  {
  }

  function ColorFor(color: Option<string>, palette: seq<string>, landers: seq<Landers.LanderFields>, choice: nat): string
    requires |palette| > 0
  {
    if color.Some? then color.value else PickedColor(palette, Colors(landers), choice)
  }

  /** The colour passed is kept; a drawn one is from the palette, and unused while an unused one exists. */
  lemma ColorForChoice(color: Option<string>, palette: seq<string>, landers: seq<Landers.LanderFields>, choice: nat)
    requires |palette| > 0
    ensures var r := ColorFor(color, palette, landers, choice);
      && (color.Some? ==> r == color.value)
      && (color.None? ==> r in palette)
      && (color.None? && (exists c :: c in palette && c !in Colors(landers)) ==> r !in Colors(landers))
  {
  }

  /** makePartialMessage: the game's partial image and each lander's known input ticks. */
  function PartialSync(g: GameImage, log: seq<PlayerInputMessage>, timestep: int): (r: ServerMessage)
    ensures r.Partial?
  {
    Partial(timestep, g.id, PartialOf(g), TicksRecord(g.landers, log, timestep))
  }

  /** A partial sync carries the tick, the game, and for each lander exactly its known input ticks. */
  lemma PartialSyncRecords(g: GameImage, log: seq<PlayerInputMessage>, timestep: int)
    ensures var r := PartialSync(g, log, timestep);
      && r.Partial? && r.time == timestep && r.gameId == g.id && r.partial == PartialOf(g)
      && r.lastPlayerInputTimesteps.Keys == LanderIds(g.landers)
      && forall id :: id in r.lastPlayerInputTimesteps ==>
           r.lastPlayerInputTimesteps[id] == KnownTicksFor(log, id, timestep)
  {
    TicksRecordCovers(g.landers, log, timestep);
  }

  /** Everything the server can change, for stating what stays the same. */
  datatype ServerView = ServerView(
    game: GameImage, timestep: int, snapshots: seq<Snapshot>, playerInputs: seq<PlayerInputMessage>,
    lastSync: int, broadcast: bool, viewerIds: seq<string>, running: bool, resetTimestamp: Option<int>,
    inputQueue: seq<PlayerInputMessage>, timers: seq<ResetTimer>, outbox: seq<Outgoing>)

  class ServerEngine {
    const eng: Engine
    /** PARTIAL_SYNC_FREQ */
    const partialSyncFreq: int
    /** SERVER_SNAPSHOT_GC_FREQ */
    const gcFreq: int
    /** LANDER_COLORS */
    const palette: Palette
    /** ROCKET_STATS */
    const stats: RocketType -> RocketStats
    /** 1000 * RESET_GAME_WAIT and 1000 * WON_GAME_WAIT, in milliseconds */
    const resetWaitMs: int
    const endWaitMs: int
    var viewerIds: seq<string>
    /** Whether the step interval is set. */
    var running: bool
    var resetTimestamp: Option<int>
    var inputQueue: seq<PlayerInputMessage>
    var timers: seq<ResetTimer>
    var outbox: seq<Outgoing>

    /** The engine's history is well formed, and the interval runs exactly while someone is connected. */
    predicate Valid()
      reads this`viewerIds, this`running, eng
    {
      && eng.Valid() && eng.role == ServerRole
      && (running <==> |viewerIds| > 0)
    }

    function View(): ServerView
      reads this, eng
    {
      ServerView(eng.game, eng.timestep, eng.snapshots, eng.playerInputs, eng.lastSyncTimestep,
                 eng.immediateBroadcast, viewerIds, running, resetTimestamp, inputQueue, timers, outbox)
    }

    /** The new game gets infinite fuel and health; nobody is connected yet. */
    constructor (game: GameImage, ops: WorldOps, snapshotFreq: int, partialSyncFreq: int, gcFreq: int,
                 palette: Palette, stats: RocketType -> RocketStats, resetWaitMs: int, endWaitMs: int)
      ensures Valid() && fresh(eng)
      ensures eng.game == game.(options := GameOptions(true, true)) && eng.ops == ops
      ensures eng.snapshotFreq == snapshotFreq && eng.timestep == 0 && eng.lastSyncTimestep == 0
      ensures eng.snapshots == [] && eng.playerInputs == [] && !eng.immediateBroadcast
      ensures this.partialSyncFreq == partialSyncFreq && this.gcFreq == gcFreq && this.palette == palette
      ensures this.stats == stats && this.resetWaitMs == resetWaitMs && this.endWaitMs == endWaitMs
      ensures viewerIds == [] && !running && resetTimestamp.None? && inputQueue == [] && timers == [] && outbox == []
    {
      eng := new Engine(ServerRole, ops, snapshotFreq, game.(options := GameOptions(true, true)), 0);
      this.partialSyncFreq := partialSyncFreq;
      this.gcFreq := gcFreq;
      this.palette := palette;
      this.stats := stats;
      this.resetWaitMs := resetWaitMs;
      this.endWaitMs := endWaitMs;
      viewerIds := [];
      running := false;
      resetTimestamp := None;
      inputQueue := [];
      timers := [];
      outbox := [];
    }

    /** broadcast: to everyone; a partial sync becomes the last sync. */
    method Broadcast(msg: ServerMessage)
      modifies this`outbox, eng`lastSyncTimestep
      ensures outbox == old(outbox) + [ToAll(msg)]
      ensures eng.lastSyncTimestep == if msg.Partial? then eng.timestep else old(eng.lastSyncTimestep)
    {
      outbox := outbox + [ToAll(msg)];
      if msg.Partial? {
        eng.lastSyncTimestep := eng.timestep;
      }
    }

    /** A broadcast of anything but a partial sync: only the outbox changes. */
    method Relay(msg: ServerMessage)
      requires !msg.Partial?
      modifies this`outbox, eng`lastSyncTimestep
      ensures View() == old(View()).(outbox := old(outbox) + [ToAll(msg)])
    {
      Broadcast(msg);
    }

    method Send(conn: string, msg: ServerMessage)
      modifies this`outbox
      ensures outbox == old(outbox) + [ToOne(conn, msg)]
    {
      outbox := outbox + [ToOne(conn, msg)];
    }

    /**
     * getLastPlayerInputTimesteps, with the corrected slice: for each lander,
     * its player's last 100 logged ticks at or before the current tick.
     */
    method GetLastPlayerInputTimesteps() returns (record: map<string, seq<int>>)
      ensures record == TicksRecord(eng.game.landers, eng.playerInputs, eng.timestep)
    {
      var landers := eng.game.landers;
      record := map[];
      for i := 0 to |landers|
        invariant record == TicksRecord(landers[..i], eng.playerInputs, eng.timestep)
      {
        var lander := landers[i];
        var playerInputs := PlayerInputsUpTo(eng.playerInputs, lander.id, eng.timestep);
        var lastPlayerInputs := LastTicks(Times(playerInputs));
        TicksRecordStep(landers, i, eng.playerInputs, eng.timestep);
        record := record[lander.id := lastPlayerInputs];
      }
      assert landers[..|landers|] == landers;
    }

    method MakePartialMessage() returns (msg: ServerMessage)
      ensures msg == PartialSync(eng.game, eng.playerInputs, eng.timestep)
    {
      var record := GetLastPlayerInputTimesteps();
      msg := Partial(eng.timestep, eng.game.id, PartialOf(eng.game), record);
      assert msg == PartialSync(eng.game, eng.playerInputs, eng.timestep);
    }

    /** A partial sync broadcast now, which becomes the last sync. */
    method SyncNow()
      modifies this`outbox, eng`lastSyncTimestep
      ensures outbox == old(outbox) + [ToAll(PartialSync(eng.game, eng.playerInputs, eng.timestep))]
      ensures eng.lastSyncTimestep == eng.timestep
    {
      var partial := MakePartialMessage();
      Broadcast(partial);
    }

    /** addPlayer: a new lander with the given colour, or one pickColor draws. */
    method AddPlayer(id: string, name: string, color: Option<string>, choice: nat)
      modifies eng`game
      ensures eng.game == WithLander(old(eng.game), eng.ops, id, name,
                                     ColorFor(color, palette, old(eng.game.landers), choice), stats)
    {
      var c := ColorFor(color, palette, eng.game.landers, choice);
      eng.game := WithLander(eng.game, eng.ops, id, name, c, stats);
    }

    /** The messages of a join: the reset to the new player, then a partial sync to everyone. */
    method AnnounceJoin(sender: string)
      modifies this`outbox, eng`lastSyncTimestep
      ensures outbox == old(outbox) + [ToOne(sender, Reset(eng.timestep, eng.game.id, eng.game)),
                                       ToAll(PartialSync(eng.game, eng.playerInputs, eng.timestep))]
      ensures eng.lastSyncTimestep == eng.timestep
    {
      Send(sender, Reset(eng.timestep, eng.game.id, eng.game));
      SyncNow();
    }

    /** join: the sender gets a lander and the reset message; everyone gets a partial sync. */
    method Join(sender: string, name: string, choice: nat)
      requires Valid()
      modifies eng`game, this`outbox, eng`lastSyncTimestep
      ensures Valid()
      ensures eng.game == WithLander(old(eng.game), eng.ops, sender, name,
                                     ColorFor(None, palette, old(eng.game.landers), choice), stats)
      ensures outbox == old(outbox) + [ToOne(sender, Reset(eng.timestep, eng.game.id, eng.game)),
                                       ToAll(PartialSync(eng.game, eng.playerInputs, eng.timestep))]
      ensures eng.lastSyncTimestep == eng.timestep
    {
      AddPlayer(sender, name, None, choice);
      AnnounceJoin(sender);
    }

    /** input: queued for the next tick and passed on to everyone. */
    method QueueInputMessage(m: PlayerInputMessage)
      modifies this`inputQueue, this`outbox, eng`lastSyncTimestep
      ensures View() == old(View()).(inputQueue := old(inputQueue) + [m], outbox := old(outbox) + [ToAll(Input(m))])
    {
      inputQueue := inputQueue + [m];
      Relay(Input(m));
    }

    /** request-reset: the countdown starts and a reset is scheduled with the requested options. */
    method ScheduleRequestedReset(options: GameOptions, resetOptions: ResetOptions, wallClock: int)
      modifies this`resetTimestamp, this`outbox, this`timers, eng`lastSyncTimestep
      ensures View() == old(View()).(resetTimestamp := Some(wallClock + resetWaitMs),
                                     outbox := old(outbox) + [ToAll(ResetPending(eng.timestep, eng.game.id, Requested, wallClock + resetWaitMs))],
                                     timers := old(timers) + [RequestedReset(options, resetOptions)])
    {
      resetTimestamp := Some(wallClock + resetWaitMs);
      Relay(ResetPending(eng.timestep, eng.game.id, Requested, wallClock + resetWaitMs));
      timers := timers + [RequestedReset(options, resetOptions)];
    }

    /** cancel-reset: the countdown is cleared, so a pending timeout no longer resets. */
    method CancelResetCountdown()
      modifies this`resetTimestamp, this`outbox, eng`lastSyncTimestep
      ensures View() == old(View()).(resetTimestamp := None, outbox := old(outbox) + [ToAll(ResetCancelled(eng.timestep, eng.game.id))])
    {
      resetTimestamp := None;
      Relay(ResetCancelled(eng.timestep, eng.game.id));
    }

    /** The name change of player-info: the sender's lander, if any, takes the new name. */
    method RenameLander(sender: string, name: string)
      modifies eng`game
      ensures eng.game == Renamed(old(eng.game), sender, name)
    {
      var k := FindLander(eng.game.landers, sender);
      if k.Some? {
        var landers := eng.game.landers;
        eng.game := eng.game.(landers := landers[k.value := landers[k.value].(name := name)]);
      }
    }

    /** player-info: the rename, then a partial sync to everyone. */
    method RenamePlayer(sender: string, name: string)
      requires Valid()
      modifies eng`game, this`outbox, eng`lastSyncTimestep
      ensures Valid()
      ensures eng.game == Renamed(old(eng.game), sender, name)
      ensures outbox == old(outbox) + [ToAll(PartialSync(eng.game, eng.playerInputs, eng.timestep))]
      ensures eng.lastSyncTimestep == eng.timestep
    {
      RenameLander(sender, name);
      SyncNow();
    }

    /** One pass of resetGame's loop: a connected player's lander is re-added with its colour, and its score kept under preserveScores. */
    method RejoinOne(lander: Landers.LanderFields, prevWins: map<string, int>, preserveScores: bool)
      modifies eng`game
      ensures lander.id !in viewerIds ==> eng.game == old(eng.game)
      ensures lander.id in viewerIds ==>
        var joined := WithLander(old(eng.game), eng.ops, lander.id, lander.name, lander.color, stats);
        eng.game == joined.(playerWins :=
          if preserveScores && lander.id in prevWins then joined.playerWins[lander.id := prevWins[lander.id]]
          else joined.playerWins)
    {
      if lander.id in viewerIds {
        AddPlayer(lander.id, lander.name, Some(lander.color), 0);
        if preserveScores && lander.id in prevWins {
          eng.game := eng.game.(playerWins := eng.game.playerWins[lander.id := prevWins[lander.id]]);
        }
      }
    }

    /**
     * The loop of resetGame, into a game without landers or scores: the
     * previous landers of connected players come back in order, their
     * bodies are spawned, and their scores are copied under preserveScores.
     */
    method RejoinPlayers(prev: GameImage, preserveScores: bool)
      requires eng.game.landers == [] && eng.game.playerWins == map[]
      modifies eng`game
      ensures eng.game == old(eng.game).(landers := Rejoined(Connected(prev.landers, viewerIds), stats),
                                         playerWins := KeptWins(prev.landers, viewerIds, prev.playerWins, preserveScores),
                                         world := SpawnAll(eng.ops, old(eng.game.world), Connected(prev.landers, viewerIds)))
    {
      ghost var base := eng.game;
      for i := 0 to |prev.landers|
        invariant eng.game == base.(landers := Rejoined(Connected(prev.landers[..i], viewerIds), stats),
                                    playerWins := KeptWins(prev.landers[..i], viewerIds, prev.playerWins, preserveScores),
                                    world := SpawnAll(eng.ops, base.world, Connected(prev.landers[..i], viewerIds)))
      {
        ConnectedStep(prev.landers, i, viewerIds);
        KeptWinsStep(prev.landers, i, viewerIds, prev.playerWins, preserveScores);
        RejoinedStep(Connected(prev.landers[..i], viewerIds), prev.landers[i], stats);
        SpawnAllStep(eng.ops, base.world, Connected(prev.landers[..i], viewerIds), prev.landers[i]);
        RejoinOne(prev.landers[i], prev.playerWins, preserveScores);
      }
      assert prev.landers[..|prev.landers|] == prev.landers;
    }

    /** The new game of resetGame: the fresh draw, the kept map, the connected players re-added. */
    method RebuildGame(options: GameOptions, resetOptions: ResetOptions, drawn: FreshGame)
      modifies eng`game
      ensures eng.game == ResetImage(old(eng.game), viewerIds, options, resetOptions, drawn, eng.ops, stats)
    {
      var prevGame := eng.game;
      eng.game := GameImage(drawn.id, [], None, map[], options,
                            if resetOptions.preserveMap then prevGame.moon else drawn.moon, drawn.world);
      RejoinPlayers(prevGame, resetOptions.preserveScores);
    }

    /** The rest of resetGame: history, countdown and queue cleared, and the new game broadcast. */
    method ClearAndAnnounce()
      requires Valid()
      modifies eng`snapshots, eng`playerInputs, this`resetTimestamp, this`inputQueue, this`outbox, eng`lastSyncTimestep
      ensures Valid()
      ensures eng.snapshots == [] && eng.playerInputs == []
      ensures resetTimestamp.None? && inputQueue == []
      ensures outbox == old(outbox) + [ToAll(Reset(eng.timestep, eng.game.id, eng.game))]
      ensures eng.lastSyncTimestep == old(eng.lastSyncTimestep)
    {
      eng.Reset();
      resetTimestamp := None;
      inputQueue := [];
      Broadcast(Reset(eng.timestep, eng.game.id, eng.game));
    }

    /** resetGame: a new game with the connected players re-added, history and countdown cleared, and a reset broadcast. */
    method ResetGame(options: GameOptions, resetOptions: ResetOptions, drawn: FreshGame)
      requires Valid()
      modifies eng`game, eng`snapshots, eng`playerInputs, this`resetTimestamp, this`inputQueue,
               this`outbox, eng`lastSyncTimestep
      ensures Valid()
      ensures eng.game == ResetImage(old(eng.game), viewerIds, options, resetOptions, drawn, eng.ops, stats)
      ensures eng.snapshots == [] && eng.playerInputs == []
      ensures resetTimestamp.None? && inputQueue == []
      ensures outbox == old(outbox) + [ToAll(Reset(eng.timestep, eng.game.id, eng.game))]
      ensures eng.lastSyncTimestep == old(eng.lastSyncTimestep)
    {
      RebuildGame(options, resetOptions, drawn);
      ClearAndAnnounce();
    }

    /** request-start: the sender joins and the game restarts on the same map with scores cleared. */
    method RequestStart(sender: string, name: string, options: GameOptions, choice: nat, drawn: FreshGame)
      requires Valid()
      modifies eng`game, eng`snapshots, eng`playerInputs, this`resetTimestamp, this`inputQueue,
               this`outbox, eng`lastSyncTimestep
      ensures Valid()
      ensures var joined := WithLander(old(eng.game), eng.ops, sender, name,
                                       ColorFor(None, palette, old(eng.game.landers), choice), stats);
        eng.game == ResetImage(joined, viewerIds, options, ResetOptions(true, false), drawn, eng.ops, stats)
      ensures eng.snapshots == [] && eng.playerInputs == [] && resetTimestamp.None? && inputQueue == []
      ensures outbox == old(outbox) + [ToAll(Reset(eng.timestep, eng.game.id, eng.game))]
    {
      AddPlayer(sender, name, None, choice);
      ResetGame(options, ResetOptions(true, false), drawn);
    }

    /** handleMessage: the branch Route picks, and what it changes. */
    method HandleMessage(sender: string, msg: ClientMessage, wallClock: int, choice: nat, drawn: FreshGame)
      requires Valid()
      modifies this, eng
      ensures Valid()
      ensures viewerIds == old(viewerIds) && running == old(running) && eng.timestep == old(eng.timestep)
      ensures var a := Route(msg, old(eng.game.id));
        && (a == Obsolete || a == Unhandled ==> View() == old(View()))
        && (a == JoinGame ==>
              && eng.game == WithLander(old(eng.game), eng.ops, sender, msg.name,
                                        ColorFor(None, palette, old(eng.game.landers), choice), stats)
              && outbox == old(outbox) + [ToOne(sender, Reset(eng.timestep, eng.game.id, eng.game)),
                                          ToAll(PartialSync(eng.game, eng.playerInputs, eng.timestep))]
              && eng.lastSyncTimestep == eng.timestep && inputQueue == old(inputQueue))
        && (a == QueueInput ==>
              View() == old(View()).(inputQueue := old(inputQueue) + [msg.input], outbox := old(outbox) + [ToAll(Input(msg.input))]))
        && (a == StartGame ==>
              && eng.game == ResetImage(WithLander(old(eng.game), eng.ops, sender, msg.name,
                                                   ColorFor(None, palette, old(eng.game.landers), choice), stats),
                                        viewerIds, msg.options, ResetOptions(true, false), drawn, eng.ops, stats)
              && eng.snapshots == [] && eng.playerInputs == [] && resetTimestamp.None? && inputQueue == []
              && outbox == old(outbox) + [ToAll(Reset(eng.timestep, eng.game.id, eng.game))])
        && (a == ScheduleReset ==>
              View() == old(View()).(resetTimestamp := Some(wallClock + resetWaitMs),
                                     outbox := old(outbox) + [ToAll(ResetPending(eng.timestep, eng.game.id, Requested, wallClock + resetWaitMs))],
                                     timers := old(timers) + [RequestedReset(msg.options, msg.resetOptions)]))
        && (a == CancelPendingReset ==>
              View() == old(View()).(resetTimestamp := None,
                                     outbox := old(outbox) + [ToAll(ResetCancelled(eng.timestep, eng.game.id))]))
        && (a == Rename ==>
              && eng.game == Renamed(old(eng.game), sender, msg.name)
              && outbox == old(outbox) + [ToAll(PartialSync(eng.game, eng.playerInputs, eng.timestep))]
              && eng.lastSyncTimestep == eng.timestep && inputQueue == old(inputQueue)
              && eng.playerInputs == old(eng.playerInputs))
        && (a == RelayChat ==>
              View() == old(View()).(outbox := old(outbox) + [ToAll(Chat(msg.time, msg.gameId, msg.playerId, msg.message))]))
    {
      if Route(msg, eng.game.id).ChangesPlayers() {
        HandlePlayerMessage(sender, msg, choice, drawn);
      } else {
        HandleRelayMessage(msg, wallClock);
      }
    }

    /** The branches of handleMessage that change the players or the game. */
    method HandlePlayerMessage(sender: string, msg: ClientMessage, choice: nat, drawn: FreshGame)
      requires Valid() && Route(msg, eng.game.id).ChangesPlayers()
      modifies this, eng
      ensures Valid()
      ensures viewerIds == old(viewerIds) && running == old(running) && eng.timestep == old(eng.timestep)
      ensures var a := Route(msg, old(eng.game.id));
        && (a == JoinGame ==>
              && eng.game == WithLander(old(eng.game), eng.ops, sender, msg.name,
                                        ColorFor(None, palette, old(eng.game.landers), choice), stats)
              && outbox == old(outbox) + [ToOne(sender, Reset(eng.timestep, eng.game.id, eng.game)),
                                          ToAll(PartialSync(eng.game, eng.playerInputs, eng.timestep))]
              && eng.lastSyncTimestep == eng.timestep && inputQueue == old(inputQueue))
        && (a == StartGame ==>
              && eng.game == ResetImage(WithLander(old(eng.game), eng.ops, sender, msg.name,
                                                   ColorFor(None, palette, old(eng.game.landers), choice), stats),
                                        viewerIds, msg.options, ResetOptions(true, false), drawn, eng.ops, stats)
              && eng.snapshots == [] && eng.playerInputs == [] && resetTimestamp.None? && inputQueue == []
              && outbox == old(outbox) + [ToAll(Reset(eng.timestep, eng.game.id, eng.game))])
        && (a == Rename ==>
              && eng.game == Renamed(old(eng.game), sender, msg.name)
              && outbox == old(outbox) + [ToAll(PartialSync(eng.game, eng.playerInputs, eng.timestep))]
              && eng.lastSyncTimestep == eng.timestep && inputQueue == old(inputQueue)
              && eng.playerInputs == old(eng.playerInputs))
    {
      match Route(msg, eng.game.id)
      case JoinGame =>
        Join(sender, msg.name, choice);
      case StartGame =>
        RequestStart(sender, msg.name, msg.options, choice, drawn);
      case Rename =>
        RenamePlayer(sender, msg.name);
    }

    /** The branches of handleMessage that only queue, schedule, cancel or relay. */
    method HandleRelayMessage(msg: ClientMessage, wallClock: int)
      requires Valid() && !Route(msg, eng.game.id).ChangesPlayers()
      modifies this, eng
      ensures Valid()
      ensures viewerIds == old(viewerIds) && running == old(running) && eng.timestep == old(eng.timestep)
      ensures var a := Route(msg, old(eng.game.id));
        && (a == Obsolete || a == Unhandled ==> View() == old(View()))
        && (a == QueueInput ==>
              View() == old(View()).(inputQueue := old(inputQueue) + [msg.input], outbox := old(outbox) + [ToAll(Input(msg.input))]))
        && (a == ScheduleReset ==>
              View() == old(View()).(resetTimestamp := Some(wallClock + resetWaitMs),
                                     outbox := old(outbox) + [ToAll(ResetPending(eng.timestep, eng.game.id, Requested, wallClock + resetWaitMs))],
                                     timers := old(timers) + [RequestedReset(msg.options, msg.resetOptions)]))
        && (a == CancelPendingReset ==>
              View() == old(View()).(resetTimestamp := None,
                                     outbox := old(outbox) + [ToAll(ResetCancelled(eng.timestep, eng.game.id))]))
        && (a == RelayChat ==>
              View() == old(View()).(outbox := old(outbox) + [ToAll(Chat(msg.time, msg.gameId, msg.playerId, msg.message))]))
    {
      match Route(msg, eng.game.id)
      case QueueInput =>
        QueueInputMessage(msg.input);
      case ScheduleReset =>
        ScheduleRequestedReset(msg.options, msg.resetOptions, wallClock);
      case CancelPendingReset =>
        CancelResetCountdown();
      case RelayChat =>
        Relay(Chat(msg.time, msg.gameId, msg.playerId, msg.message));
      case _ =>
    }

    /**
     * A reset timeout fires: it resets only while a countdown is set (a
     * cancelled or already completed countdown leaves the game alone).
     */
    method FireTimer(i: nat, drawn: FreshGame)
      requires Valid() && i < |timers|
      modifies eng`game, eng`snapshots, eng`playerInputs, this`resetTimestamp, this`inputQueue,
               this`outbox, this`timers, eng`lastSyncTimestep
      ensures Valid()
      ensures timers == old(timers[..i] + timers[i + 1..])
      ensures old(resetTimestamp).None? ==> View() == old(View()).(timers := timers)
      ensures old(resetTimestamp).Some? ==>
        var (options, resetOptions) := match old(timers[i])
          case RequestedReset(o, ro) => (o, ro)
          case EndOfGameReset => (old(eng.game.options), ResetOptions(false, true));
        && eng.game == ResetImage(old(eng.game), viewerIds, options, resetOptions, drawn, eng.ops, stats)
        && eng.snapshots == [] && eng.playerInputs == [] && resetTimestamp.None? && inputQueue == []
        && outbox == old(outbox) + [ToAll(Reset(eng.timestep, eng.game.id, eng.game))]
    {
      var timer := timers[i];
      timers := timers[..i] + timers[i + 1..];
      if resetTimestamp.Some? {
        match timer
        case RequestedReset(options, resetOptions) =>
          ResetGame(options, resetOptions, drawn);
        case EndOfGameReset =>
          ResetGame(eng.game.options, ResetOptions(false, true), drawn);
      }
    }

    /** onConnect: the viewer is recorded and sent the init message; the interval starts. */
    method OnConnect(conn: string)
      requires Valid()
      modifies this`viewerIds, this`outbox, this`running
      ensures Valid()
      ensures viewerIds == old(viewerIds) + [conn] && running
      ensures outbox == old(outbox) + [ToOne(conn, Init(eng.timestep, eng.game))]
    {
      viewerIds := viewerIds + [conn];
      Send(conn, Init(eng.timestep, eng.game));
      MaybeStart();
    }

    /** onDisconnect: every entry of the viewer is pulled; the interval stops when nobody is left. */
    method OnDisconnect(conn: string)
      requires Valid()
      modifies this`viewerIds, this`running
      ensures Valid()
      ensures viewerIds == Rockets.Pulled(old(viewerIds), conn) && conn !in viewerIds
      ensures running <==> |viewerIds| > 0
    {
      viewerIds := Rockets.Pulled(viewerIds, conn);
      MaybeStop();
    }

    method MaybeStart()
      modifies this`running
      ensures running == (old(running) || |viewerIds| > 0)
    {
      if !running && |viewerIds| > 0 {
        running := true;
      }
    }

    method MaybeStop()
      modifies this`running
      ensures running == (old(running) && |viewerIds| > 0)
    {
      if running && |viewerIds| == 0 {
        running := false;
      }
    }

    /** postStepOne: a removed object calls for an immediate sync. */
    method PostStepOne(removedObjects: bool)
      modifies eng`immediateBroadcast
      ensures eng.immediateBroadcast == (old(eng.immediateBroadcast) || removedObjects)
    {
      if removedObjects {
        eng.immediateBroadcast := true;
      }
    }

    /** The save loop of processInputQueue: each message logged in turn. */
    method SaveAll(msgs: seq<PlayerInputMessage>)
      requires eng.Valid()
      modifies eng`playerInputs
      ensures eng.Valid()
      ensures eng.playerInputs == InsertedAll(old(eng.playerInputs), msgs)
    {
      for i := 0 to |msgs|
        invariant eng.Valid()
        invariant eng.playerInputs == InsertedAll(old(eng.playerInputs), msgs[..i])
      {
        assert msgs[..i + 1][..i] == msgs[..i];
        eng.SavePlayerEvent(msgs[i]);
      }
      assert msgs[..|msgs|] == msgs;
    }

    /** The first half of processInputQueue: the queue sorted by tick, emptied, and logged in that order. */
    method DrainQueue() returns (msgs: seq<PlayerInputMessage>)
      requires Valid()
      modifies this`inputQueue, eng`playerInputs
      ensures Valid()
      ensures msgs == SortByTime(old(inputQueue)) && inputQueue == []
      ensures eng.playerInputs == InsertedAll(old(eng.playerInputs), msgs)
      ensures multiset(eng.playerInputs) == multiset(old(eng.playerInputs)) + multiset(old(inputQueue))
    {
      SortByTimeSpec(inputQueue);
      InsertedAllSorted(eng.playerInputs, SortByTime(inputQueue));
      msgs := SortByTime(inputQueue);
      inputQueue := [];
      SaveAll(msgs);
    }

    /** The second half of processInputQueue: history replayed from tick `t`, which ends at the same tick. */
    method ReplayFromTick(t: int)
      requires Valid()
      modifies eng`game, eng`timestep, eng`immediateBroadcast
      ensures Valid() && eng.timestep == old(eng.timestep)
      ensures t == old(eng.timestep) ==> eng.Current() == old(eng.Current())
      ensures t != old(eng.timestep) ==>
        match Closest(eng.snapshots, SnapshotTime, t)
        case None => eng.Current() == old(eng.Current())
        case Some(k) =>
          eng.Current() == Replay(ServerRole, eng.ops,
                                  SimState(eng.ops.mergeFull(old(eng.game), eng.snapshots[k].state), old(eng.immediateBroadcast)),
                                  eng.snapshots[k].time, old(eng.timestep), eng.playerInputs, eng.lastSyncTimestep)
    {
      var ok := eng.RestoreApplyReplay(t, NoPatch);
    }

    /**
     * processInputQueue: the queued inputs are logged in tick order and
     * history is replayed from the earliest of them; an empty queue
     * changes nothing.
     */
    method ProcessInputQueue()
      requires Valid()
      modifies this`inputQueue, eng`playerInputs, eng`game, eng`timestep, eng`immediateBroadcast
      ensures Valid()
      ensures inputQueue == [] && eng.timestep == old(eng.timestep)
      ensures eng.playerInputs == InsertedAll(old(eng.playerInputs), SortByTime(old(inputQueue)))
      ensures old(inputQueue) == [] ==> eng.Current() == old(eng.Current())
      ensures old(inputQueue) != [] ==>
        var t := SortByTime(old(inputQueue))[0].time;
        && (t == old(eng.timestep) ==> eng.Current() == old(eng.Current()))
        && (t != old(eng.timestep) ==>
              match Closest(eng.snapshots, SnapshotTime, t)
              case None => eng.Current() == old(eng.Current())
              case Some(k) =>
                eng.Current() == Replay(ServerRole, eng.ops,
                                        SimState(eng.ops.mergeFull(old(eng.game), eng.snapshots[k].state), old(eng.immediateBroadcast)),
                                        eng.snapshots[k].time, old(eng.timestep), eng.playerInputs, eng.lastSyncTimestep))
    {
      var msgs := DrainQueue();
      if |msgs| > 0 {
        ReplayFromTick(msgs[0].time);
      }
    }

    /**
     * The landing loop of timerStep: every live lander that the physics
     * reports safely landed becomes the winner in turn and scores its pad's
     * multiplier.
     */
    method CheckLandings(landed: Landers.LanderFields -> Option<int>)
      modifies eng`game
      ensures var st := Landings(old(eng.game.landers), landed, Standing(old(eng.game.wonPlayer), old(eng.game.playerWins)));
        eng.game == old(eng.game).(wonPlayer := st.won, playerWins := st.wins)
    {
      var landers := eng.game.landers;
      for i := 0 to |landers|
        invariant var st := Landings(landers[..i], landed, Standing(old(eng.game.wonPlayer), old(eng.game.playerWins)));
          eng.game == old(eng.game).(wonPlayer := st.won, playerWins := st.wins)
      {
        var lander := landers[i];
        assert landers[..i + 1][..i] == landers[..i];
        if lander.Alive() {
          var pad := landed(lander);
          if pad.Some? {
            eng.game := eng.game.(wonPlayer := Some(WonPlayer(lander.id, Landed(pad.value))),
                                  playerWins := AddWins(eng.game.playerWins, lander.id, pad.value));
          }
        }
      }
      assert landers[..|landers|] == landers;
    }

    /** The last-lander check of timerStep. */
    method CheckLastLander()
      modifies eng`game
      ensures var st := LastLanderRule(Standing(old(eng.game.wonPlayer), old(eng.game.playerWins)), old(eng.game.landers), viewerIds);
        eng.game == old(eng.game).(wonPlayer := st.won, playerWins := st.wins)
    {
      if eng.game.wonPlayer.None? {
        var controlledLanders := Connected(eng.game.landers, viewerIds);
        var aliveLanders := AliveOf(controlledLanders);
        if |controlledLanders| > 1 && |aliveLanders| == 1 {
          eng.game := eng.game.(wonPlayer := Some(WonPlayer(aliveLanders[0].id, LastLander)),
                                playerWins := AddWins(eng.game.playerWins, aliveLanders[0].id, 1));
        }
      }
    }

    /** Both win checks: the landing loop only while there is no winner, then the last-lander rule. */
    method CheckWinners(landed: Landers.LanderFields -> Option<int>)
      modifies eng`game
      ensures var st := Judged(old(eng.game), viewerIds, landed);
        eng.game == old(eng.game).(wonPlayer := st.won, playerWins := st.wins)
    {
      if eng.game.wonPlayer.None? {
        CheckLandings(landed);
      }
      CheckLastLander();
    }

    /** With a winner, or with every lander dead, the end-of-game countdown starts. */
    method StartCountdownIfOver(wallClock: int)
      modifies this`resetTimestamp, this`outbox, this`timers, eng`lastSyncTimestep
      ensures var st := Standing(eng.game.wonPlayer, eng.game.playerWins);
        if CountdownStarts(st, eng.game.landers) then
          && resetTimestamp == Some(wallClock + endWaitMs)
          && outbox == old(outbox) + [ToAll(Meta(eng.timestep, eng.game.id, MetaOf(eng.game))),
                                      ToAll(ResetPending(eng.timestep, eng.game.id, CountdownCause(st), wallClock + endWaitMs))]
          && timers == old(timers) + [EndOfGameReset]
        else resetTimestamp == old(resetTimestamp) && outbox == old(outbox) && timers == old(timers)
      ensures eng.lastSyncTimestep == old(eng.lastSyncTimestep)
    {
      var allPlayersDead := AllDead(eng.game.landers);
      if eng.game.wonPlayer.Some? || allPlayersDead {
        resetTimestamp := Some(wallClock + endWaitMs);
        Broadcast(Meta(eng.timestep, eng.game.id, MetaOf(eng.game)));
        var cause := CountdownCause(Standing(eng.game.wonPlayer, eng.game.playerWins));
        Broadcast(ResetPending(eng.timestep, eng.game.id, cause, resetTimestamp.value));
        timers := timers + [EndOfGameReset];
      }
    }

    /** The part of timerStep that runs only while no countdown is set. */
    method JudgeIfOngoing(wallClock: int, landed: Landers.LanderFields -> Option<int>)
      modifies eng`game, this`resetTimestamp, this`outbox, this`timers, eng`lastSyncTimestep
      ensures old(resetTimestamp).Some? ==>
        eng.game == old(eng.game) && resetTimestamp == old(resetTimestamp) && outbox == old(outbox) && timers == old(timers)
      ensures old(resetTimestamp).None? ==>
        var st := Judged(old(eng.game), viewerIds, landed);
        && eng.game == old(eng.game).(wonPlayer := st.won, playerWins := st.wins)
        && (CountdownStarts(st, eng.game.landers) <==> resetTimestamp.Some?)
        && (resetTimestamp.Some? ==>
              && resetTimestamp == Some(wallClock + endWaitMs)
              && outbox == old(outbox) + [ToAll(Meta(eng.timestep, eng.game.id, MetaOf(eng.game))),
                                          ToAll(ResetPending(eng.timestep, eng.game.id, CountdownCause(st), wallClock + endWaitMs))]
              && timers == old(timers) + [EndOfGameReset])
        && (resetTimestamp.None? ==> outbox == old(outbox) && timers == old(timers))
      ensures eng.lastSyncTimestep == old(eng.lastSyncTimestep)
    {
      if resetTimestamp.None? {
        CheckWinners(landed);
        StartCountdownIfOver(wallClock);
      }
    }

    /** The partial sync of timerStep: on its cadence, or at once when the flag is up. */
    method SyncIfDue()
      modifies this`outbox, eng`lastSyncTimestep
      ensures MultipleOf(eng.timestep, partialSyncFreq) || eng.immediateBroadcast ==>
        && outbox == old(outbox) + [ToAll(PartialSync(eng.game, eng.playerInputs, eng.timestep))]
        && eng.lastSyncTimestep == eng.timestep
      ensures !(MultipleOf(eng.timestep, partialSyncFreq) || eng.immediateBroadcast) ==>
        outbox == old(outbox) && eng.lastSyncTimestep == old(eng.lastSyncTimestep)
    {
      if MultipleOf(eng.timestep, partialSyncFreq) || eng.immediateBroadcast {
        SyncNow();
      }
    }

    /** The collection of timerStep, with the corrected lookback: the last period is kept. */
    method CollectIfDue()
      requires Valid()
      modifies eng`snapshots, eng`playerInputs
      ensures Valid()
      ensures MultipleOf(eng.timestep, gcFreq) ==>
        && eng.snapshots == Trimmed(old(eng.snapshots), SnapshotTime, eng.timestep - gcFreq)
        && eng.playerInputs == Trimmed(old(eng.playerInputs), InputTime, eng.timestep - gcFreq)
      ensures !MultipleOf(eng.timestep, gcFreq) ==>
        eng.snapshots == old(eng.snapshots) && eng.playerInputs == old(eng.playerInputs)
    {
      if MultipleOf(eng.timestep, gcFreq) {
        CollectNow();
      }
    }

    /** garbageCollect with the corrected lookback. */
    method CollectNow()
      requires Valid()
      modifies eng`snapshots, eng`playerInputs
      ensures Valid()
      ensures eng.snapshots == Trimmed(old(eng.snapshots), SnapshotTime, eng.timestep - gcFreq)
      ensures eng.playerInputs == Trimmed(old(eng.playerInputs), InputTime, eng.timestep - gcFreq)
    {
      var lookback := ServerLookback(eng.timestep, gcFreq);
      assert eng.timestep - lookback == eng.timestep - gcFreq;
      eng.GarbageCollect(lookback);
    }

    /** timerStep up to the win checks: the flag lowered, the queue processed, the base step and snapshot. */
    method Advance(now: real)
      requires Valid()
      modifies this`inputQueue, eng`playerInputs, eng`game, eng`timestep, eng`immediateBroadcast,
               eng`firstStepTime, eng`snapshots
      ensures Valid()
      ensures inputQueue == []
      ensures eng.playerInputs == InsertedAll(old(eng.playerInputs), SortByTime(old(inputQueue)))
      ensures eng.timestep == StepTarget(now, old(eng.firstStepTime), eng.initialTimeStep, old(eng.timestep))
      ensures old(inputQueue) == [] ==> !eng.immediateBroadcast
    {
      eng.immediateBroadcast := false;
      ProcessInputQueue();
      ghost var t0, first := eng.timestep, eng.firstStepTime;
      eng.TimerStep(now);
      assert eng.timestep == StepTarget(now, first, eng.initialTimeStep, t0);
    }

    /** The last two lines of timerStep: the collection when due, then the flag lowered. */
    method CollectAndLower()
      requires Valid()
      modifies eng`immediateBroadcast, eng`snapshots, eng`playerInputs
      ensures Valid() && !eng.immediateBroadcast
      ensures eng.playerInputs ==
        (if MultipleOf(eng.timestep, gcFreq) then Trimmed(old(eng.playerInputs), InputTime, eng.timestep - gcFreq)
         else old(eng.playerInputs))
    {
      CollectIfDue();
      eng.immediateBroadcast := false;
    }

    /** The end of timerStep: the sync when due, then the collection when due and the flag lowered. */
    method CloseTick()
      requires Valid()
      modifies this`outbox, eng`immediateBroadcast, eng`snapshots, eng`playerInputs, eng`lastSyncTimestep
      ensures Valid() && !eng.immediateBroadcast
      ensures eng.playerInputs ==
        (if MultipleOf(eng.timestep, gcFreq) then Trimmed(old(eng.playerInputs), InputTime, eng.timestep - gcFreq)
         else old(eng.playerInputs))
    {
      SyncIfDue();
      CollectAndLower();
    }

    /** timerStep after the base step: the win checks while no countdown is set, then the end of the tick. */
    method FinishTick(wallClock: int, landed: Landers.LanderFields -> Option<int>)
      requires Valid()
      modifies this`resetTimestamp, this`outbox, this`timers, eng`game, eng`immediateBroadcast,
               eng`snapshots, eng`playerInputs, eng`lastSyncTimestep
      ensures Valid() && !eng.immediateBroadcast
      ensures eng.playerInputs ==
        (if MultipleOf(eng.timestep, gcFreq) then Trimmed(old(eng.playerInputs), InputTime, eng.timestep - gcFreq)
         else old(eng.playerInputs))
    {
      JudgeIfOngoing(wallClock, landed);
      CloseTick();
    }

    /**
     * timerStep: inputs logged and replayed, one or more steps, the win
     * checks and countdown while none is set, a partial sync when due, the
     * collection when due; the immediate-broadcast flag is down at the end.
     */
    method TimerStep(now: real, wallClock: int, landed: Landers.LanderFields -> Option<int>)
      requires Valid()
      modifies this`inputQueue, this`resetTimestamp, this`outbox, this`timers,
               eng`playerInputs, eng`game, eng`timestep, eng`immediateBroadcast, eng`firstStepTime,
               eng`snapshots, eng`lastSyncTimestep
      ensures Valid()
      ensures inputQueue == [] && !eng.immediateBroadcast
      ensures eng.timestep == StepTarget(now, old(eng.firstStepTime), eng.initialTimeStep, old(eng.timestep))
      ensures var logged := InsertedAll(old(eng.playerInputs), SortByTime(old(inputQueue)));
        eng.playerInputs ==
          (if MultipleOf(eng.timestep, gcFreq) then Trimmed(logged, InputTime, eng.timestep - gcFreq) else logged)
    {
      Advance(now);
      FinishTick(wallClock, landed);
    }
  }
}

=== FILE: server_rules.dfy ===
/**
 * The decisions of the server coordinator (game/server-engine.ts) as
 * functions of the game and its history: the colour a new lander gets, the
 * per-player list of recent input ticks sent with every partial sync, the
 * order the input queue is logged in, the win and countdown rules, what a
 * reset keeps, and the garbage-collection cutoff.
 */
module ServerRules {
  import opened Types
  import opened Timelines
  import opened Engine
  import Landers
  import GameObjects
  import ClientEngines
  import Protocol

  // ---------------------------------------------------------------------
  // pickColor

  /** The colours of the landers, in lander order. */
  function Colors(landers: seq<Landers.LanderFields>): (r: seq<string>)
    ensures |r| == |landers| && forall i :: 0 <= i < |landers| ==> r[i] == landers[i].color
  {
    seq(|landers|, i requires 0 <= i < |landers| => landers[i].color)
  }

  /** The palette without the used colours, order kept. */
  function Unused(palette: seq<string>, used: seq<string>): (r: seq<string>)
    ensures forall c :: c in r <==> c in palette && c !in used
  {
    if palette == [] then []
    else
      var rest := Unused(palette[1..], used);
      assert palette == [palette[0]] + palette[1..];
      if palette[0] in used then rest else [palette[0]] + rest
  }

  /**
   * pickColor: a colour no lander uses when there is one, any colour of the
   * palette otherwise. `choice` is the random draw, taken modulo the number
   * of candidates.
   */
  function PickedColor(palette: seq<string>, used: seq<string>, choice: nat): (r: string)
    requires |palette| > 0
    ensures r in palette
    ensures (exists c :: c in palette && c !in used) ==> r !in used
  {
    var available := Unused(palette, used);
    var pool := if |available| == 0 then palette else available;
    pool[choice % |pool|]
  }

  // ---------------------------------------------------------------------
  // getLastPlayerInputTimesteps

  /** One player's logged inputs at or before a tick, log order kept. */
  function PlayerInputsUpTo(log: seq<PlayerInputMessage>, id: string, timestep: int): (r: seq<PlayerInputMessage>)
    ensures |r| <= |log|
    ensures forall m :: m in r <==> m in log && m.playerId == id && m.time <= timestep
  {
    if log == [] then []
    else
      var rest := PlayerInputsUpTo(log[..|log| - 1], id, timestep);
      var m := log[|log| - 1];
      assert log == log[..|log| - 1] + [m];
      if m.playerId == id && m.time <= timestep then rest + [m] else rest
  }

  /** Filtering a sorted log leaves it sorted. */
  lemma {:induction false} PlayerInputsSorted(log: seq<PlayerInputMessage>, id: string, timestep: int)
    requires SortedBy(log, InputTime)
    ensures SortedBy(PlayerInputsUpTo(log, id, timestep), InputTime)
  {
    if log != [] {
      var prefix := log[..|log| - 1];
      var m := log[|log| - 1];
      var rest := PlayerInputsUpTo(prefix, id, timestep);
      PlayerInputsSorted(prefix, id, timestep);
      if m.playerId == id && m.time <= timestep {
        var r := rest + [m];
        forall i, j | 0 <= i < j < |r|
          ensures InputTime(r[i]) <= InputTime(r[j])
        {
          if j == |r| - 1 {
            assert r[i] in rest;
            var k :| 0 <= k < |prefix| && prefix[k] == r[i];
            assert log[k] == r[i];
            assert InputTime(log[k]) <= InputTime(log[|log| - 1]);
          } else {
            assert r[i] == rest[i] && r[j] == rest[j];
            assert InputTime(rest[i]) <= InputTime(rest[j]);
          }
        }
      }
    }
  }

  /** The ticks of a list of inputs. */
  function Times(ms: seq<PlayerInputMessage>): (r: seq<int>)
    ensures |r| == |ms| && forall i :: 0 <= i < |ms| ==> r[i] == ms[i].time
  {
    seq(|ms|, i requires 0 <= i < |ms| => ms[i].time)
  }

  /** Array slice(start) with a JavaScript start: a negative start counts back from the end, clamped at 0. */
  function SliceFrom<T>(s: seq<T>, start: int): seq<T> {
    if start < 0 then s[Max(0, |s| + start)..]
    else if start > |s| then []
    else s[start..]
  }

  /** The tick list as written: slice(length - 100). */
  function LastTicksAsWritten(ticks: seq<int>): seq<int> {
    SliceFrom(ticks, |ticks| - 100)
  }

  /** The tick list as intended: the last 100 ticks, or all of them when there are fewer. */
  function LastTicks(ticks: seq<int>): (r: seq<int>)
    ensures |r| == (if |ticks| < 100 then |ticks| else 100)
    ensures r == ticks[|ticks| - |r|..]
  {
    if |ticks| > 100 then ticks[|ticks| - 100..] else ticks
  }

  /**
   * The list as written is the intended one exactly when there are at most
   * 50 or at least 100 ticks; with 60 ticks it holds only the last 40.
   */
  lemma LastTicksAsWrittenAgrees(ticks: seq<int>)
    ensures LastTicksAsWritten(ticks) == LastTicks(ticks) <==> |ticks| <= 50 || |ticks| >= 100
    ensures |ticks| == 60 ==> |LastTicksAsWritten(ticks)| == 40
  {
    if 50 < |ticks| < 100 {
      assert |LastTicksAsWritten(ticks)| == 100 - |ticks| < |ticks|;
    }
  }

  /** The ticks the server lists for one player. */
  function KnownTicksFor(log: seq<PlayerInputMessage>, id: string, timestep: int): seq<int> {
    LastTicks(Times(PlayerInputsUpTo(log, id, timestep)))
  }

  /** The record over all landers: one entry per lander id. */
  function TicksRecord(landers: seq<Landers.LanderFields>, log: seq<PlayerInputMessage>, timestep: int)
    : map<string, seq<int>>
  {
    if landers == [] then map[]
    else
      var l := landers[|landers| - 1];
      TicksRecord(landers[..|landers| - 1], log, timestep)[l.id := KnownTicksFor(log, l.id, timestep)]
  }

  /** The record has exactly the landers' ids as keys, each with its player's known ticks. */
  lemma {:induction false} TicksRecordCovers(landers: seq<Landers.LanderFields>, log: seq<PlayerInputMessage>, timestep: int)
    ensures TicksRecord(landers, log, timestep).Keys == LanderIds(landers)
    ensures forall id :: id in TicksRecord(landers, log, timestep) ==>
      TicksRecord(landers, log, timestep)[id] == KnownTicksFor(log, id, timestep)
  {
    if landers != [] {
      TicksRecordCovers(landers[..|landers| - 1], log, timestep);
    }
  }

  /** The record over one more lander adds that lander's entry. */
  lemma TicksRecordStep(landers: seq<Landers.LanderFields>, i: nat, log: seq<PlayerInputMessage>, timestep: int)
    requires i < |landers|
    ensures TicksRecord(landers[..i + 1], log, timestep)
         == TicksRecord(landers[..i], log, timestep)[landers[i].id := KnownTicksFor(log, landers[i].id, timestep)]
  {
    assert landers[..i + 1][..i] == landers[..i];
  }

  /** The ids of a list of landers. */
  function LanderIds(landers: seq<Landers.LanderFields>): (r: set<string>)
    ensures forall i :: 0 <= i < |landers| ==> landers[i].id in r
    ensures forall id :: id in r ==> exists i :: 0 <= i < |landers| && landers[i].id == id
  {
    if landers == [] then {}
    else
      var prefix := landers[..|landers| - 1];
      var rest := LanderIds(prefix);
      assert forall i :: 0 <= i < |prefix| ==> prefix[i] == landers[i];
      rest + {landers[|landers| - 1].id}
  }

  /** The list the source sends for one player, with its slice as written. */
  function KnownTicksForAsWritten(log: seq<PlayerInputMessage>, id: string, timestep: int): seq<int> {
    LastTicksAsWritten(Times(PlayerInputsUpTo(log, id, timestep)))
  }

  /**
   * A player's logged input up to the current tick has its tick at some
   * position of that player's tick list, which is sorted when the log is.
   */
  lemma LoggedTick(log: seq<PlayerInputMessage>, id: string, timestep: int, m: PlayerInputMessage)
    returns (j: nat)
    requires SortedBy(log, InputTime) && m in log && m.playerId == id && m.time <= timestep
    ensures var ts := Times(PlayerInputsUpTo(log, id, timestep));
      && j < |ts| && ts[j] == m.time
      && forall a, b :: 0 <= a < b < |ts| ==> ts[a] <= ts[b]
  {
    var p := PlayerInputsUpTo(log, id, timestep);
    PlayerInputsSorted(log, id, timestep);
    assert m in p;
    j :| 0 <= j < |p| && p[j] == m;
    var ts := Times(p);
    forall a, b | 0 <= a < b < |ts|
      ensures ts[a] <= ts[b]
    {
      assert InputTime(p[a]) <= InputTime(p[b]);
    }
  }

  /**
   * An input the server has logged is never one a client counts as unseen
   * against the server's list: from its oldest entry up to the current
   * tick, the list holds every tick at which the player has a logged input.
   */
  lemma LoggedNeverUnseen(log: seq<PlayerInputMessage>, id: string, timestep: int, m: PlayerInputMessage)
    requires SortedBy(log, InputTime) && m in log
    ensures !ClientEngines.Unseen(m, id, KnownTicksFor(log, id, timestep), timestep)
  {
    if m.playerId == id && m.time <= timestep {
      var j := LoggedTick(log, id, timestep, m);
      TailCovers(Times(PlayerInputsUpTo(log, id, timestep)), j);
    }
  }

  /**
   * The same holds for the list as written: its short slice for 51 to 99
   * ticks is still a tail of the sorted ticks, so it only narrows the
   * window the client checks.
   */
  lemma LoggedNeverUnseenAsWritten(log: seq<PlayerInputMessage>, id: string, timestep: int, m: PlayerInputMessage)
    requires SortedBy(log, InputTime) && m in log
    ensures !ClientEngines.Unseen(m, id, KnownTicksForAsWritten(log, id, timestep), timestep)
  {
    if m.playerId == id && m.time <= timestep {
      var j := LoggedTick(log, id, timestep, m);
      var ts := Times(PlayerInputsUpTo(log, id, timestep));
      var d := if |ts| - 100 < 0 then Max(0, 2 * |ts| - 100) else |ts| - 100;
      assert LastTicksAsWritten(ts) == ts[d..];
      SuffixCovers(ts, d, j);
    }
  }

  /**
   * In a sorted tick list, a tick no earlier than the first of the last
   * (up to) 100 is among them.
   */
  lemma TailCovers(ts: seq<int>, j: nat)
    requires forall a, b :: 0 <= a < b < |ts| ==> ts[a] <= ts[b]
    requires j < |ts|
    ensures ClientEngines.OldestKnown(LastTicks(ts)) <= ts[j] ==> ts[j] in LastTicks(ts)
  {
    SuffixCovers(ts, |ts| - |LastTicks(ts)|, j);
  }

  /** In a sorted tick list, a tick no earlier than the first of a non-empty tail is in that tail. */
  lemma SuffixCovers(ts: seq<int>, d: nat, j: nat)
    requires forall a, b :: 0 <= a < b < |ts| ==> ts[a] <= ts[b]
    requires d < |ts| && j < |ts|
    ensures ClientEngines.OldestKnown(ts[d..]) <= ts[j] ==> ts[j] in ts[d..]
  {
    var ks := ts[d..];
    if j >= d {
      assert ks[j - d] == ts[j];
    } else if ts[d] <= ts[j] {
      assert ts[j] <= ts[d];
      assert ks[0] == ts[j];
    }
  }

  // ---------------------------------------------------------------------
  // processInputQueue

  /** sortBy(queue, m => m.time): each message inserted after those of its tick or earlier. */
  function SortByTime(q: seq<PlayerInputMessage>): (r: seq<PlayerInputMessage>)
    ensures |r| == |q|
  {
    if q == [] then []
    else Inserted(SortByTime(q[..|q| - 1]), InputTime, q[|q| - 1])
  }

  /** The queue sorted by tick is sorted, and holds exactly the queued inputs. */
  lemma {:induction false} SortByTimeSpec(q: seq<PlayerInputMessage>)
    ensures SortedBy(SortByTime(q), InputTime)
    ensures multiset(SortByTime(q)) == multiset(q)
  {
    if q != [] {
      var prefix, x := q[..|q| - 1], q[|q| - 1];
      SortByTimeSpec(prefix);
      InsertedSorted(SortByTime(prefix), InputTime, x);
      LastSplit(q);
    }
  }

  /** The first sorted message is a queued one at the earliest queued tick. */
  lemma SortedFirstIsEarliest(q: seq<PlayerInputMessage>)
    requires |q| > 0
    ensures |SortByTime(q)| == |q|
    ensures SortByTime(q)[0] in q
    ensures forall i :: 0 <= i < |q| ==> SortByTime(q)[0].time <= q[i].time
  {
    SortByTimeSpec(q);
    var r := SortByTime(q);
    assert |r| == |multiset(r)| == |multiset(q)| == |q|;
    assert r[0] in multiset(q);
    forall i | 0 <= i < |q|
      ensures r[0].time <= q[i].time
    {
      assert q[i] in multiset(r);
      var k :| 0 <= k < |r| && r[k] == q[i];
      assert InputTime(r[0]) <= InputTime(r[k]);
    }
  }

  /** A non-empty sequence's multiset is its prefix's plus its last element. */
  lemma LastSplit<T>(s: seq<T>)
    requires |s| > 0
    ensures multiset(s) == multiset(s[..|s| - 1]) + multiset{s[|s| - 1]}
  {
    assert s == s[..|s| - 1] + [s[|s| - 1]];
  }

  /** The log after savePlayerEvent of each message in turn. */
  function InsertedAll(log: seq<PlayerInputMessage>, msgs: seq<PlayerInputMessage>): (r: seq<PlayerInputMessage>)
    ensures |r| == |log| + |msgs|
  {
    if msgs == [] then log
    else Inserted(InsertedAll(log, msgs[..|msgs| - 1]), InputTime, msgs[|msgs| - 1])
  }

  /** Logging a batch keeps the log sorted and adds exactly the batch. */
  lemma {:induction false} InsertedAllSorted(log: seq<PlayerInputMessage>, msgs: seq<PlayerInputMessage>)
    requires SortedBy(log, InputTime)
    ensures SortedBy(InsertedAll(log, msgs), InputTime)
    ensures multiset(InsertedAll(log, msgs)) == multiset(log) + multiset(msgs)
  {
    if msgs != [] {
      var prefix := msgs[..|msgs| - 1];
      InsertedAllSorted(log, prefix);
      InsertedSorted(InsertedAll(log, prefix), InputTime, msgs[|msgs| - 1]);
      LastSplit(msgs);
    }
  }

  // ---------------------------------------------------------------------
  // The win checks and the countdown of timerStep

  /** The win state and the scores: the part of the game the win checks change. */
  datatype Standing = Standing(won: Option<WonPlayer>, wins: map<string, int>)

  /** addWins: a player's count, 0 when absent, raised by `n`. */
  function AddWins(wins: map<string, int>, id: string, n: int): (r: map<string, int>)
    ensures r.Keys == wins.Keys + {id}
    ensures r[id] == (if id in wins then wins[id] else 0) + n
    ensures forall k :: k in wins && k != id ==> r[k] == wins[k]
  {
    wins[id := (if id in wins then wins[id] else 0) + n]
  }

  /** A live lander that the physics reports safely landed; `landed` gives the pad's win multiplier. */
  predicate LandedAlive(l: Landers.LanderFields, landed: Landers.LanderFields -> Option<int>) {
    l.Alive() && landed(l).Some?
  }

  /**
   * One turn of the landing loop. The source records the reason "landed"
   * together with the lander's velocity and rotation at the touchdown;
   * those come from the physics, so the model records the pad's multiplier
   * in their place.
   */
  function LandOne(st: Standing, l: Landers.LanderFields, landed: Landers.LanderFields -> Option<int>): Standing {
    if LandedAlive(l, landed) then
      Standing(Some(WonPlayer(l.id, Landed(landed(l).value))), AddWins(st.wins, l.id, landed(l).value))
    else st
  }

  /** The landing loop over every lander in order; it does not stop at the first lander that landed. */
  function Landings(ls: seq<Landers.LanderFields>, landed: Landers.LanderFields -> Option<int>, st: Standing): Standing {
    if ls == [] then st
    else LandOne(Landings(ls[..|ls| - 1], landed, st), ls[|ls| - 1], landed)
  }

  /** With no lander landed, the landing loop changes nothing. */
  lemma {:induction false} LandingsNone(ls: seq<Landers.LanderFields>, landed: Landers.LanderFields -> Option<int>, st: Standing)
    requires forall i :: 0 <= i < |ls| ==> !LandedAlive(ls[i], landed)
    ensures Landings(ls, landed, st) == st
  {
    if ls != [] {
      LandingsNone(ls[..|ls| - 1], landed, st);
    }
  }

  /** The winner is the last live lander that landed, with its pad's multiplier. */
  lemma {:induction false} LandingsWinner(ls: seq<Landers.LanderFields>, landed: Landers.LanderFields -> Option<int>,
                                          st: Standing, j: nat)
    requires j < |ls| && LandedAlive(ls[j], landed)
    requires forall k :: j < k < |ls| ==> !LandedAlive(ls[k], landed)
    ensures Landings(ls, landed, st).won == Some(WonPlayer(ls[j].id, Landed(landed(ls[j]).value)))
  {
    if j < |ls| - 1 {
      var prefix := ls[..|ls| - 1];
      assert prefix[j] == ls[j];
      assert !LandedAlive(ls[|ls| - 1], landed);
      LandingsWinner(prefix, landed, st, j);
    }
  }

  /** Scores only grow in players, and a player with no landed lander keeps its count. */
  lemma {:induction false} LandingsWins(ls: seq<Landers.LanderFields>, landed: Landers.LanderFields -> Option<int>,
                                        st: Standing, id: string)
    requires id in st.wins
    ensures id in Landings(ls, landed, st).wins
    ensures (forall i :: 0 <= i < |ls| && ls[i].id == id ==> !LandedAlive(ls[i], landed)) ==>
      Landings(ls, landed, st).wins[id] == st.wins[id]
  {
    if ls != [] {
      var prefix := ls[..|ls| - 1];
      LandingsWins(prefix, landed, st, id);
      if forall i :: 0 <= i < |ls| && ls[i].id == id ==> !LandedAlive(ls[i], landed) {
        assert forall i :: 0 <= i < |prefix| ==> prefix[i] == ls[i];
      }
    }
  }

  /** landers.filter(l => viewerIds.includes(l.id)), order kept. */
  function Connected(ls: seq<Landers.LanderFields>, viewers: seq<string>): (r: seq<Landers.LanderFields>)
    ensures |r| <= |ls|
  {
    if ls == [] then []
    else
      var rest := Connected(ls[..|ls| - 1], viewers);
      var l := ls[|ls| - 1];
      if l.id in viewers then rest + [l] else rest
  }

  /** The filter keeps exactly the landers of connected players. */
  lemma {:induction false} ConnectedMembers(ls: seq<Landers.LanderFields>, viewers: seq<string>)
    ensures forall l :: l in Connected(ls, viewers) <==> l in ls && l.id in viewers
  {
    if ls != [] {
      ConnectedMembers(ls[..|ls| - 1], viewers);
      assert ls == ls[..|ls| - 1] + [ls[|ls| - 1]];
    }
  }

  /** Filtering drops nothing when every lander is connected. */
  lemma {:induction false} ConnectedAll(ls: seq<Landers.LanderFields>, viewers: seq<string>)
    requires forall i :: 0 <= i < |ls| ==> ls[i].id in viewers
    ensures Connected(ls, viewers) == ls
  {
    if ls != [] {
      ConnectedAll(ls[..|ls| - 1], viewers);
      assert ls == ls[..|ls| - 1] + [ls[|ls| - 1]];
    }
  }

  /** The live landers among a list, order kept. */
  function AliveOf(ls: seq<Landers.LanderFields>): (r: seq<Landers.LanderFields>)
    ensures |r| <= |ls|
  {
    if ls == [] then []
    else
      var rest := AliveOf(ls[..|ls| - 1]);
      var l := ls[|ls| - 1];
      if l.Alive() then rest + [l] else rest
  }

  /** The filter keeps exactly the live landers. */
  lemma {:induction false} AliveOfMembers(ls: seq<Landers.LanderFields>)
    ensures forall l :: l in AliveOf(ls) <==> l in ls && l.Alive()
  {
    if ls != [] {
      AliveOfMembers(ls[..|ls| - 1]);
      assert ls == ls[..|ls| - 1] + [ls[|ls| - 1]];
    }
  }

  /**
   * The last-lander rule: with no winner yet and more than one connected
   * lander, the only connected lander still alive wins, with one point.
   */
  function LastLanderRule(st: Standing, ls: seq<Landers.LanderFields>, viewers: seq<string>): Standing {
    var controlled := Connected(ls, viewers);
    var alive := AliveOf(controlled);
    if st.won.None? && |controlled| > 1 && |alive| == 1 then
      Standing(Some(WonPlayer(alive[0].id, LastLander)), AddWins(st.wins, alive[0].id, 1))
    else st
  }

  /**
   * The rule decides only without a winner, exactly when more than one
   * connected lander exists and one of them is alive; that one is the
   * only connected live lander, and it scores one point.
   */
  lemma LastLanderRuleSpec(st: Standing, ls: seq<Landers.LanderFields>, viewers: seq<string>)
    ensures var r := LastLanderRule(st, ls, viewers);
      && (st.won.Some? ==> r == st)
      && (st.won.None? ==>
            (r.won.Some? <==> |Connected(ls, viewers)| > 1 && |AliveOf(Connected(ls, viewers))| == 1))
      && (st.won.None? && r.won.None? ==> r == st)
      && (st.won.None? && r.won.Some? ==>
            && r.won.value.reason == LastLander
            && r.wins == AddWins(st.wins, r.won.value.playerId, 1)
            && (exists l :: l in ls && l.id in viewers && l.Alive() && l.id == r.won.value.playerId)
            && (forall l :: l in ls && l.id in viewers && l.Alive() ==> l.id == r.won.value.playerId))
  {
    var controlled := Connected(ls, viewers);
    var alive := AliveOf(controlled);
    ConnectedMembers(ls, viewers);
    AliveOfMembers(controlled);
    if st.won.None? && |controlled| > 1 && |alive| == 1 {
      assert alive[0] in alive;
      assert forall l :: l in alive ==> l == alive[0];
    }
  }

  /** Every lander is dead, and there is at least one. */
  predicate AllDead(ls: seq<Landers.LanderFields>) {
    |ls| > 0 && forall i :: 0 <= i < |ls| ==> !ls[i].Alive()
  }

  /** Both win checks of one tick: landings first, then, still without a winner, the last-lander rule. */
  function Judged(g: GameImage, viewers: seq<string>, landed: Landers.LanderFields -> Option<int>): (r: Standing)
    // a recorded winner stays and nobody scores
    ensures g.wonPlayer.Some? ==> r == Standing(g.wonPlayer, g.playerWins)
  {
    var afterLanding :=
      if g.wonPlayer.None? then Landings(g.landers, landed, Standing(None, g.playerWins))
      else Standing(g.wonPlayer, g.playerWins);
    LastLanderRule(afterLanding, g.landers, viewers)
  }

  /** A landing decides the game before the last-lander rule is looked at. */
  lemma LandingBeatsLastLander(g: GameImage, viewers: seq<string>, landed: Landers.LanderFields -> Option<int>, j: nat)
    requires g.wonPlayer.None?
    requires j < |g.landers| && LandedAlive(g.landers[j], landed)
    requires forall k :: j < k < |g.landers| ==> !LandedAlive(g.landers[k], landed)
    ensures Judged(g, viewers, landed).won == Some(WonPlayer(g.landers[j].id, Landed(landed(g.landers[j]).value)))
  {
    LandingsWinner(g.landers, landed, Standing(None, g.playerWins), j);
  }

  /** The countdown starts when there is a winner or every lander is dead. */
  predicate CountdownStarts(st: Standing, ls: seq<Landers.LanderFields>) {
    st.won.Some? || AllDead(ls)
  }

  /** The cause the reset-pending message gives. */
  function CountdownCause(st: Standing): Protocol.ResetCause {
    if st.won.Some? then Protocol.Won else Protocol.Dead
  }

  // ---------------------------------------------------------------------
  // resetGame

  /** What LanderGameState.createNew draws at random: a game id, a map and an empty world. */
  datatype FreshGame = FreshGame(id: string, moon: Moon, world: GameObjects.World)

  /** A re-added lander: the same id, name and colour, every other field as new. */
  function Rejoined(ls: seq<Landers.LanderFields>, stats: RocketType -> RocketStats): (r: seq<Landers.LanderFields>)
    ensures |r| == |ls|
    ensures forall i :: 0 <= i < |ls| ==> r[i] == Landers.InitialFields(ls[i].id, ls[i].name, ls[i].color, stats)
  {
    seq(|ls|, i requires 0 <= i < |ls| => Landers.InitialFields(ls[i].id, ls[i].name, ls[i].color, stats))
  }

  /** The world once a body is spawned for each lander in turn. */
  function SpawnAll(ops: WorldOps, w: GameObjects.World, ls: seq<Landers.LanderFields>): GameObjects.World {
    if ls == [] then w else ops.spawn(SpawnAll(ops, w, ls[..|ls| - 1]), ls[|ls| - 1].id)
  }

  /**
   * The scores carried over: only with preserveScores, only for connected
   * players that had one. The source also writes an entry for a connected
   * player without a previous score, holding undefined; the model has no
   * undefined score and leaves that player out.
   */
  function KeptWins(ls: seq<Landers.LanderFields>, viewers: seq<string>, prev: map<string, int>, preserve: bool)
    : (r: map<string, int>)
    ensures !preserve ==> r == map[]
    ensures preserve ==> forall id :: id in r <==>
      id in prev && id in viewers && exists i :: 0 <= i < |ls| && ls[i].id == id
    ensures forall id :: id in r ==> id in prev && r[id] == prev[id]
  {
    if ls == [] then map[]
    else
      var l := ls[|ls| - 1];
      var prefix := ls[..|ls| - 1];
      assert forall i :: 0 <= i < |prefix| ==> prefix[i] == ls[i];
      var rest := KeptWins(prefix, viewers, prev, preserve);
      if preserve && l.id in viewers && l.id in prev then rest[l.id := prev[l.id]] else rest
  }

  /** The game resetGame ends with. */
  function ResetImage(prev: GameImage, viewers: seq<string>, options: GameOptions, resetOptions: Protocol.ResetOptions,
                      drawn: FreshGame, ops: WorldOps, stats: RocketType -> RocketStats): GameImage
  {
    var kept := Connected(prev.landers, viewers);
    GameImage(drawn.id, Rejoined(kept, stats), None,
              KeptWins(prev.landers, viewers, prev.playerWins, resetOptions.preserveScores), options,
              if resetOptions.preserveMap then prev.moon else drawn.moon, SpawnAll(ops, drawn.world, kept))
  }

  /**
   * After a reset: a new game id and no winner; exactly the previous
   * landers of connected players come back, in order and as new landers
   * with their id, name and colour; the map is kept only with preserveMap.
   */
  lemma ResetKeepsConnected(prev: GameImage, viewers: seq<string>, options: GameOptions,
                            resetOptions: Protocol.ResetOptions, drawn: FreshGame, ops: WorldOps,
                            stats: RocketType -> RocketStats)
    ensures var g := ResetImage(prev, viewers, options, resetOptions, drawn, ops, stats);
      && g.id == drawn.id && g.wonPlayer.None? && g.options == options
      && |g.landers| == |Connected(prev.landers, viewers)|
      && (forall i :: 0 <= i < |g.landers| ==>
            var l := Connected(prev.landers, viewers)[i];
            && l in prev.landers && l.id in viewers
            && g.landers[i].id == l.id && g.landers[i].name == l.name && g.landers[i].color == l.color
            && g.landers[i].Alive() && g.landers[i].NoIntents())
      && (forall l :: l in prev.landers && l.id in viewers ==> l in Connected(prev.landers, viewers))
      && (resetOptions.preserveMap ==> g.moon == prev.moon)
      && (!resetOptions.preserveScores ==> g.playerWins == map[])
  {
    var kept := Connected(prev.landers, viewers);
    ConnectedMembers(prev.landers, viewers);
    forall i | 0 <= i < |kept|
      ensures kept[i] in prev.landers && kept[i].id in viewers
    {
      assert kept[i] in kept;
    }
  }

  /** One more previous lander: the connected list grows by it exactly when its player is connected. */
  lemma ConnectedStep(ls: seq<Landers.LanderFields>, i: nat, viewers: seq<string>)
    requires i < |ls|
    ensures Connected(ls[..i + 1], viewers)
         == (if ls[i].id in viewers then Connected(ls[..i], viewers) + [ls[i]] else Connected(ls[..i], viewers))
  {
    assert ls[..i + 1][..i] == ls[..i];
  }

  /** One more previous lander: its score is copied exactly under preserveScores, when connected and scored. */
  lemma KeptWinsStep(ls: seq<Landers.LanderFields>, i: nat, viewers: seq<string>, prev: map<string, int>, preserve: bool)
    requires i < |ls|
    ensures var l := ls[i];
      KeptWins(ls[..i + 1], viewers, prev, preserve)
      == (if preserve && l.id in viewers && l.id in prev then KeptWins(ls[..i], viewers, prev, preserve)[l.id := prev[l.id]]
          else KeptWins(ls[..i], viewers, prev, preserve))
  {
    assert ls[..i + 1][..i] == ls[..i];
  }

  /** Re-adding one more lander appends its new lander. */
  lemma RejoinedStep(c: seq<Landers.LanderFields>, l: Landers.LanderFields, stats: RocketType -> RocketStats)
    ensures Rejoined(c + [l], stats) == Rejoined(c, stats) + [Landers.InitialFields(l.id, l.name, l.color, stats)]
  {
  }

  /** Spawning for one more lander spawns its body last. */
  lemma SpawnAllStep(ops: WorldOps, w: GameObjects.World, c: seq<Landers.LanderFields>, l: Landers.LanderFields)
    ensures SpawnAll(ops, w, c + [l]) == ops.spawn(SpawnAll(ops, w, c), l.id)
  {
    assert (c + [l])[..|c|] == c;
  }

  // ---------------------------------------------------------------------
  // garbageCollect on the server

  /** The lookback the server passes as written: timestep - SERVER_SNAPSHOT_GC_FREQ. */
  function ServerLookbackAsWritten(timestep: int, freq: int): int {
    timestep - freq
  }

  /** The lookback that keeps the last collection period. */
  function ServerLookback(timestep: int, freq: int): int {
    freq
  }

  /**
   * As written the cutoff is the constant tick `freq`, whatever the
   * current tick: at tick 36000 with a period of 3600, an input at tick
   * 5000 is kept though it is far older than one period; with the corrected
   * lookback it is collected and the input at tick 35000 is kept.
   */
  lemma ServerGcAsWrittenKeepsStale(timestep: int, freq: int)
    ensures timestep - ServerLookbackAsWritten(timestep, freq) == freq
    ensures var early := PlayerInputMessage(5000, "p", "g", Thrust(Up, true));
      var recent := PlayerInputMessage(35000, "p", "g", Thrust(Up, false));
      && Trimmed([early, recent], InputTime, 36000 - ServerLookbackAsWritten(36000, 3600)) == [early, recent]
      && Trimmed([early, recent], InputTime, 36000 - ServerLookback(36000, 3600)) == [recent]
  {
    var early := PlayerInputMessage(5000, "p", "g", Thrust(Up, true));
    var recent := PlayerInputMessage(35000, "p", "g", Thrust(Up, false));
    var s := [early, recent];
    assert FindIndexAfter(s, InputTime, 3600) == 0;
    assert FindIndexAfter(s[1..], InputTime, 32400) == 0;
    assert FindIndexAfter(s, InputTime, 32400) == 1;
  }

  /**
   * With the corrected lookback, an entry of the last period survives, and
   * in a sorted list with such an entry nothing older does.
   */
  lemma ServerGcKeepsLastPeriod<T>(s: seq<T>, time: T -> int, timestep: int, freq: int, i: nat)
    requires i < |s| && time(s[i]) > timestep - freq
    ensures var r := Trimmed(s, time, timestep - ServerLookback(timestep, freq));
      && s[i] in r
      && (SortedBy(s, time) ==> forall k :: 0 <= k < |r| ==> time(r[k]) > timestep - freq)
  {
    KeptAfterCutoff(s, time, timestep - freq, i);
  }

  lemma KeptAfterCutoff<T>(s: seq<T>, time: T -> int, cutoff: int, i: nat)
    requires i < |s| && time(s[i]) > cutoff
    ensures var r := Trimmed(s, time, cutoff);
      && s[i] in r
      && (SortedBy(s, time) ==> forall k :: 0 <= k < |r| ==> time(r[k]) > cutoff)
  {
    var r := Trimmed(s, time, cutoff);
    TrimmedKeepsLater(s, time, cutoff, i);
    assert r[i - (|s| - |r|)] in r;
    if SortedBy(s, time) {
      TrimmedSortedAllLater(s, time, cutoff);
    }
  }
}

=== FILE: tables.dfy ===
/**
 * Upsert-by-id merging of an entity list, the pattern mergeLanders and
 * mergeRockets of game/game-state.ts share: for each incoming entry, the
 * first entry with the same id is overwritten, or the entry is appended
 * when no entry has that id yet.
 */
module Tables {
  import opened Types

  /** The ids of a list, in list order. */
  function Keys<T>(t: seq<T>, key: T -> string): (r: seq<string>)
    ensures |r| == |t|
    ensures forall i :: 0 <= i < |t| ==> r[i] == key(t[i])
  {
    seq(|t|, i requires 0 <= i < |t| => key(t[i]))
  }

  /** Array.find by id, as an index: the first position holding `k`. */
  function FirstIndex(ks: seq<string>, k: string): (r: Option<nat>)
    ensures r.None? <==> k !in ks
    ensures r.Some? ==> r.value < |ks| && ks[r.value] == k && k !in ks[..r.value]
  {
    if ks == [] then None
    else if ks[0] == k then Some(0)
    else
      var rest := FirstIndex(ks[1..], k);
      assert ks == [ks[0]] + ks[1..];
      if rest.Some? then
        assert ks[..rest.value + 1] == [ks[0]] + ks[1..][..rest.value];
        Some(rest.value + 1)
      else None
  }

  /** The first position is the only one with the property FirstIndex promises. */
  lemma {:induction false} FirstIndexUnique(ks: seq<string>, k: string, i: nat)
    requires i < |ks| && ks[i] == k && k !in ks[..i]
    ensures FirstIndex(ks, k) == Some(i)
  {
    if i > 0 {
      assert ks[0] == ks[..i][0];
      assert ks[1..][..i - 1] == ks[..i][1..];
      FirstIndexUnique(ks[1..], k, i - 1);
    }
  }

  /** Merging one incoming entry. */
  function Upsert<T>(t: seq<T>, p: T, key: T -> string): seq<T> {
    match FirstIndex(Keys(t, key), key(p))
    case Some(i) => t[i := p]
    case None => t + [p]
  }

  /** The merge loop after it has visited all of `ps`, in order. */
  function UpsertAll<T>(t: seq<T>, ps: seq<T>, key: T -> string): seq<T>
  {
    if ps == [] then t
    else Upsert(UpsertAll(t, ps[..|ps| - 1], key), ps[|ps| - 1], key)
  }

  /** The ids of `ks` that are not in `existing`, each once, in first-occurrence order. */
  function NewKeys(ks: seq<string>, existing: seq<string>): (r: seq<string>)
    ensures forall k :: k in r <==> k in ks && k !in existing
  {
    if ks == [] then []
    else
      var prev := NewKeys(ks[..|ks| - 1], existing);
      var k := ks[|ks| - 1];
      assert ks == ks[..|ks| - 1] + [k];
      if k in existing || k in prev then prev else prev + [k]
  }

  /**
   * The ids after a merge: the old ids keep their positions, and the new
   * ids follow in the order the incoming list first mentions them.
   */
  lemma {:induction false} UpsertAllKeys<T>(t: seq<T>, ps: seq<T>, key: T -> string)
    ensures Keys(UpsertAll(t, ps, key), key) == Keys(t, key) + NewKeys(Keys(ps, key), Keys(t, key))
  {
    if ps != [] {
      var ps' := ps[..|ps| - 1];
      var p := ps[|ps| - 1];
      var prev := UpsertAll(t, ps', key);
      UpsertAllKeys(t, ps', key);
      assert Keys(ps, key)[..|ps| - 1] == Keys(ps', key);
      var ks := Keys(prev, key);
      match FirstIndex(ks, key(p))
      case Some(i) =>
        assert Keys(prev[i := p], key) == ks;
      case None =>
        assert Keys(prev + [p], key) == ks + [key(p)];
    }
  }

  /** After a merge every incoming id is present. */
  lemma UpsertAllCovers<T>(t: seq<T>, ps: seq<T>, key: T -> string)
    ensures forall k :: k in Keys(UpsertAll(t, ps, key), key) <==> k in Keys(t, key) || k in Keys(ps, key)
  {
    UpsertAllKeys(t, ps, key);
  }

  /** Entries whose id no incoming entry carries stay where they were, unchanged. */
  lemma {:induction false} UpsertAllUntouched<T>(t: seq<T>, ps: seq<T>, key: T -> string, i: nat)
    requires i < |t|
    requires key(t[i]) !in Keys(ps, key)
    ensures i < |UpsertAll(t, ps, key)| && UpsertAll(t, ps, key)[i] == t[i]
  {
    if ps != [] {
      var ps' := ps[..|ps| - 1];
      var p := ps[|ps| - 1];
      assert Keys(ps, key) == Keys(ps', key) + [key(p)];
      UpsertAllUntouched(t, ps', key, i);
      UpsertAllKeys(t, ps', key);
      var prev := UpsertAll(t, ps', key);
      match FirstIndex(Keys(prev, key), key(p))
      case Some(j) =>
        assert key(prev[j]) == key(p);
        assert j != i;
      case None =>
    }
  }

  /** The list never shrinks: a merge only overwrites and appends. */
  lemma UpsertAllGrows<T>(t: seq<T>, ps: seq<T>, key: T -> string)
    ensures |t| <= |UpsertAll(t, ps, key)| <= |t| + |ps|
  {
    UpsertAllKeys(t, ps, key);
    NewKeysBound(Keys(ps, key), Keys(t, key));
  }

  lemma {:induction false} NewKeysBound(ks: seq<string>, existing: seq<string>)
    ensures |NewKeys(ks, existing)| <= |ks|
  {
    if ks != [] {
      NewKeysBound(ks[..|ks| - 1], existing);
    }
  }

  /** One upsert: the incoming entry is found under its id, and every other id finds what it found before. */
  lemma UpsertFind<T>(t: seq<T>, p: T, key: T -> string, k: string)
    ensures var r := Upsert(t, p, key);
      var f := FirstIndex(Keys(r, key), k);
      && (k == key(p) ==> f.Some? && r[f.value] == p)
      && (k != key(p) ==> f == FirstIndex(Keys(t, key), k) && (f.Some? ==> r[f.value] == t[f.value]))
  {
    var ks := Keys(t, key);
    var r := Upsert(t, p, key);
    match FirstIndex(ks, key(p))
    case Some(i) =>
      assert Keys(r, key) == ks;
    case None =>
      assert Keys(r, key) == ks + [key(p)];
      if k == key(p) {
        assert FirstIndex(Keys(r, key), k) == Some(|t|);
      } else {
        var f := FirstIndex(ks, k);
        if f.Some? {
          assert Keys(r, key)[..f.value] == ks[..f.value];
          FirstIndexUnique(Keys(r, key), k, f.value);
        } else {
          assert k !in Keys(r, key);
        }
      }
  }

  /** An entry that shares its id with an incoming entry holds the last such incoming entry. */
  lemma {:induction false} UpsertAllLatest<T>(t: seq<T>, ps: seq<T>, key: T -> string, j: nat)
    requires j < |ps|
    requires forall m :: j < m < |ps| ==> key(ps[m]) != key(ps[j])
    ensures var r := UpsertAll(t, ps, key);
      var i := FirstIndex(Keys(r, key), key(ps[j]));
      i.Some? && r[i.value] == ps[j]
  {
    var ps' := ps[..|ps| - 1];
    var p := ps[|ps| - 1];
    var prev := UpsertAll(t, ps', key);
    UpsertFind(prev, p, key, key(ps[j]));
    if j < |ps| - 1 {
      UpsertAllLatest(t, ps', key, j);
    }
  }
}

=== FILE: timeline.dfy ===
/**
 * Time-ordered lists, as the base engine keeps them (game/engine.ts): the
 * input log and the snapshot list are both ordered by tick; entries are
 * inserted after every entry of the same tick, looked up as "the latest at
 * or before a tick", and trimmed from the front by trimByTime.
 */
module Timelines {
  import opened Types

  predicate SortedBy<T>(s: seq<T>, time: T -> int) {
    forall i, j {:trigger time(s[i]), time(s[j])} :: 0 <= i < j < |s| ==> time(s[i]) <= time(s[j])
  }

  /** findIndex(x => x.time > t), with -1 when there is none. */
  function FindIndexAfter<T>(s: seq<T>, time: T -> int, t: int): (r: int)
    ensures -1 <= r < |s|
    ensures r == -1 <==> forall i {:trigger time(s[i])} :: 0 <= i < |s| ==> time(s[i]) <= t
    ensures r >= 0 ==> time(s[r]) > t && forall i {:trigger time(s[i])} :: 0 <= i < r ==> time(s[i]) <= t
  {
    if s == [] then -1
    else if time(s[0]) > t then 0
    else
      var rest := FindIndexAfter(s[1..], time, t);
      if rest == -1 then -1 else rest + 1
  }

  /** Where savePlayerEvent puts a new entry: before the first later entry, else at the end. */
  function InsertPosition<T>(s: seq<T>, time: T -> int, t: int): (k: nat)
    ensures k <= |s|
    ensures forall i {:trigger time(s[i])} :: 0 <= i < k ==> time(s[i]) <= t
    ensures k < |s| ==> time(s[k]) > t
  {
    var index := FindIndexAfter(s, time, t);
    if index < 0 then |s| else index
  }

  /** savePlayerEvent's splice: `x` goes after every entry not later than it. */
  function Inserted<T>(s: seq<T>, time: T -> int, x: T): (r: seq<T>)
    ensures var k := InsertPosition(s, time, time(x));
      r == s[..k] + [x] + s[k..]
    ensures |r| == |s| + 1
  {
    var k := InsertPosition(s, time, time(x));
    s[..k] + [x] + s[k..]
  }

  /** Inserting keeps a sorted list sorted, and adds exactly the one entry. */
  lemma InsertedSorted<T>(s: seq<T>, time: T -> int, x: T)
    requires SortedBy(s, time)
    ensures SortedBy(Inserted(s, time, x), time)
    ensures multiset(Inserted(s, time, x)) == multiset(s) + multiset{x}
  {
    var k := InsertPosition(s, time, time(x));
    var r := Inserted(s, time, x);
    SplicedIndex(s, x, k);
    forall i, j | 0 <= i < j < |r|
      ensures time(r[i]) <= time(r[j])
    {
      if j == k {
        assert r[i] == s[i];
      } else if i == k {
        assert r[j] == s[j - 1];
      } else if j < k {
        assert r[i] == s[i] && r[j] == s[j];
      } else if i < k {
        assert r[i] == s[i] && r[j] == s[j - 1];
      } else {
        assert r[i] == s[i - 1] && r[j] == s[j - 1];
      }
    }
    InsertedMultiset(s, x, k);
  }

  /** Where each entry of a splice comes from. */
  lemma SplicedIndex<T>(s: seq<T>, x: T, k: nat)
    requires k <= |s|
    ensures var r := s[..k] + [x] + s[k..];
      && |r| == |s| + 1 && r[k] == x
      && (forall i :: 0 <= i < k ==> r[i] == s[i])
      && (forall i :: k < i < |r| ==> r[i] == s[i - 1])
  {
  }

  /** A splice adds exactly the one entry. */
  lemma InsertedMultiset<T>(s: seq<T>, x: T, k: nat)
    requires k <= |s|
    ensures multiset(s[..k] + [x] + s[k..]) == multiset(s) + multiset{x}
  {
    assert s == s[..k] + s[k..];
  }

  /** An inserted entry is found after every earlier entry of its own tick. */
  lemma InsertedAfterEqual<T>(s: seq<T>, time: T -> int, x: T)
    requires SortedBy(s, time)
    ensures var k := InsertPosition(s, time, time(x));
      var r := Inserted(s, time, x);
      && (forall i :: 0 <= i < k ==> time(r[i]) <= time(x))
      && (forall i :: k < i < |r| ==> time(r[i]) > time(x))
  {
    var k := InsertPosition(s, time, time(x));
    var r := Inserted(s, time, x);
    forall i | k < i < |r|
      ensures time(r[i]) > time(x)
    {
      assert r[i] == s[i - 1];
      assert time(s[k]) <= time(s[i - 1]);
    }
  }

  /**
   * trimByTime: drop the prefix before the first entry later than
   * `cutoff`, but only when that entry is not the first; when no entry is
   * later than the cutoff nothing is dropped.
   */
  function Trimmed<T>(s: seq<T>, time: T -> int, cutoff: int): seq<T> {
    var index := FindIndexAfter(s, time, cutoff);
    if index > 0 then s[index..] else s
  }

  /** What trimByTime removes and what it keeps. */
  lemma TrimmedSpec<T>(s: seq<T>, time: T -> int, cutoff: int)
    ensures var r := Trimmed(s, time, cutoff);
      // the survivors are a suffix, in their original order
      && |r| <= |s| && r == s[|s| - |r|..]
      // only entries not later than the cutoff are removed
      && (forall i :: 0 <= i < |s| - |r| ==> time(s[i]) <= cutoff)
      // when something was removed, the first survivor is later than the cutoff
      && (|r| < |s| ==> 0 < |r| && time(r[0]) > cutoff)
      // when nothing is later than the cutoff, nothing is removed
      && ((forall i :: 0 <= i < |s| ==> time(s[i]) <= cutoff) ==> r == s)
      // when the first entry is already later than the cutoff, nothing is removed
      && (|s| > 0 && time(s[0]) > cutoff ==> r == s)
  {
  }

  /** Trimming keeps a list's order, and every survivor was in the list. */
  lemma TrimmedSuffix<T>(s: seq<T>, time: T -> int, cutoff: int)
    ensures var r := Trimmed(s, time, cutoff);
      && (SortedBy(s, time) ==> SortedBy(r, time))
      && (StrictlySortedBy(s, time) ==> StrictlySortedBy(r, time))
      && (forall i :: 0 <= i < |r| ==> r[i] in s)
  {
    var index := FindIndexAfter(s, time, cutoff);
    var d := if index > 0 then index else 0;
    var r := Trimmed(s, time, cutoff);
    assert r == s[d..];
    assert forall i :: 0 <= i < |r| ==> r[i] == s[d + i];
  }

  /** In a sorted list every entry later than the cutoff survives trimming. */
  lemma TrimmedKeepsLater<T>(s: seq<T>, time: T -> int, cutoff: int, i: nat)
    requires i < |s| && time(s[i]) > cutoff
    ensures var r := Trimmed(s, time, cutoff);
      |s| - |r| <= i && r[i - (|s| - |r|)] == s[i]
  {
    TrimmedSpec(s, time, cutoff);
  }

  /** After trimming a sorted list, everything left is later than the cutoff, unless nothing was. */
  lemma TrimmedSortedAllLater<T>(s: seq<T>, time: T -> int, cutoff: int)
    requires SortedBy(s, time)
    requires exists i :: 0 <= i < |s| && time(s[i]) > cutoff
    ensures forall i :: 0 <= i < |Trimmed(s, time, cutoff)| ==> time(Trimmed(s, time, cutoff)[i]) > cutoff
  {
    var index := FindIndexAfter(s, time, cutoff);
    assert index != -1;
    var r := Trimmed(s, time, cutoff);
    assert r == s[index..];
    forall i | 0 <= i < |r|
      ensures time(r[i]) > cutoff
    {
      assert r[i] == s[index + i];
      assert time(s[index]) <= time(s[index + i]);
    }
  }

  /** The highest position whose tick is at or before `t`, if any. */
  function Closest<T>(s: seq<T>, time: T -> int, t: int): (r: Option<nat>)
    ensures r.Some? ==> r.value < |s| && time(s[r.value]) <= t
    ensures r.Some? ==> forall j :: r.value < j < |s| ==> time(s[j]) > t
    ensures r.None? ==> forall j :: 0 <= j < |s| ==> time(s[j]) > t
  {
    ClosestBelow(s, time, t, |s|)
  }

  /** Closest among the first `n` entries. */
  function ClosestBelow<T>(s: seq<T>, time: T -> int, t: int, n: nat): (r: Option<nat>)
    requires n <= |s|
    ensures r.Some? ==> r.value < n && time(s[r.value]) <= t
    ensures r.Some? ==> forall j :: r.value < j < n ==> time(s[j]) > t
    ensures r.None? ==> forall j :: 0 <= j < n ==> time(s[j]) > t
  {
    if n == 0 then None
    else if time(s[n - 1]) <= t then Some(n - 1)
    else ClosestBelow(s, time, t, n - 1)
  }

  /** Ticks strictly increase: no two entries share a tick. */
  predicate StrictlySortedBy<T>(s: seq<T>, time: T -> int) {
    forall i, j {:trigger time(s[i]), time(s[j])} :: 0 <= i < j < |s| ==> time(s[i]) < time(s[j])
  }

  /**
   * Sorted insertion that overwrites an entry of the same tick instead of
   * adding a second one (how a full sync's snapshot joins the history).
   */
  function Placed<T>(s: seq<T>, time: T -> int, x: T): (r: seq<T>)
    ensures |s| <= |r| <= |s| + 1
  {
    var k := InsertPosition(s, time, time(x));
    if k > 0 && time(s[k - 1]) == time(x) then s[k - 1 := x] else s[..k] + [x] + s[k..]
  }

  /**
   * Placing keeps ticks strictly increasing, drops only the entry that had
   * the same tick, and the placed entry is what a lookup at its tick finds.
   */
  lemma PlacedStrict<T>(s: seq<T>, time: T -> int, x: T)
    requires StrictlySortedBy(s, time)
    ensures var r := Placed(s, time, x);
      && StrictlySortedBy(r, time)
      && (forall i :: 0 <= i < |s| && time(s[i]) != time(x) ==> s[i] in r)
      && (forall i :: 0 <= i < |r| ==> r[i] == x || r[i] in s)
      && Closest(r, time, time(x)).Some? && r[Closest(r, time, time(x)).value] == x
  {
    var k := InsertPosition(s, time, time(x));
    var r := Placed(s, time, x);
    if k > 0 && time(s[k - 1]) == time(x) {
      PlacedOverwrites(s, time, x, k);
    } else {
      PlacedInserts(s, time, x, k);
    }
  }

  /** The case of an entry already at that tick: it is replaced in place. */
  lemma PlacedOverwrites<T>(s: seq<T>, time: T -> int, x: T, k: nat)
    requires StrictlySortedBy(s, time)
    requires k == InsertPosition(s, time, time(x)) && k > 0 && time(s[k - 1]) == time(x)
    ensures var r := Placed(s, time, x);
      && StrictlySortedBy(r, time)
      && (forall i :: 0 <= i < |s| && time(s[i]) != time(x) ==> s[i] in r)
      && (forall i :: 0 <= i < |r| ==> r[i] == x || r[i] in s)
      && r[k - 1] == x && Closest(r, time, time(x)) == Some(k - 1)
  {
    assert Placed(s, time, x) == s[k - 1 := x];
    Overwritten(s, time, x, k - 1);
  }

  /** The facts of an overwrite, stated on the updated sequence itself. */
  lemma Overwritten<T>(s: seq<T>, time: T -> int, x: T, p: nat)
    requires StrictlySortedBy(s, time) && p < |s| && time(s[p]) == time(x)
    ensures var r := s[p := x];
      && StrictlySortedBy(r, time)
      && (forall i :: 0 <= i < |s| && time(s[i]) != time(x) ==> s[i] in r)
      && (forall i :: 0 <= i < |r| ==> r[i] == x || r[i] in s)
      && r[p] == x && Closest(r, time, time(x)) == Some(p)
  {
    var r := s[p := x];
    forall i | 0 <= i < |s| && time(s[i]) != time(x)
      ensures s[i] in r
    {
      assert i != p && r[i] == s[i];
    }
    forall i | 0 <= i < |r|
      ensures r[i] == x || r[i] in s
    {
      if i != p {
        assert r[i] == s[i];
      }
    }
    forall i, j | 0 <= i < j < |r|
      ensures time(r[i]) < time(r[j])
    {
      assert time(r[i]) == time(s[i]) && time(r[j]) == time(s[j]);
    }
    ClosestIs(r, time, time(x), p);
  }

  /** The case of a new tick: the entry is spliced in at its position. */
  lemma PlacedInserts<T>(s: seq<T>, time: T -> int, x: T, k: nat)
    requires StrictlySortedBy(s, time)
    requires k == InsertPosition(s, time, time(x)) && !(k > 0 && time(s[k - 1]) == time(x))
    ensures var r := Placed(s, time, x);
      && StrictlySortedBy(r, time)
      && (forall i :: 0 <= i < |s| && time(s[i]) != time(x) ==> s[i] in r)
      && (forall i :: 0 <= i < |r| ==> r[i] == x || r[i] in s)
      && r[k] == x && Closest(r, time, time(x)) == Some(k)
  {
    var r := s[..k] + [x] + s[k..];
    assert Placed(s, time, x) == r;
    forall i | 0 <= i < k
      ensures time(s[i]) < time(x)
    {
      assert time(s[i]) <= time(s[k - 1]) <= time(x);
    }
    SplicedStrict(s, time, x, k);
    SplicedMembers(s, x, k);
    ClosestIs(r, time, time(x), k);
  }

  lemma SplicedMembers<T>(s: seq<T>, x: T, k: nat)
    requires k <= |s|
    ensures var r := s[..k] + [x] + s[k..];
      && (forall i :: 0 <= i < |s| ==> s[i] in r)
      && (forall i :: 0 <= i < |r| ==> r[i] == x || r[i] in s)
  {
    var r := s[..k] + [x] + s[k..];
    forall i | 0 <= i < |s|
      ensures s[i] in r
    {
      if i < k { assert r[i] == s[i]; } else { assert r[i + 1] == s[i]; }
    }
    forall i | 0 <= i < |r|
      ensures r[i] == x || r[i] in s
    {
      if i < k { assert r[i] == s[i]; } else if i > k { assert r[i] == s[i - 1]; }
    }
  }

  lemma SplicedStrict<T>(s: seq<T>, time: T -> int, x: T, k: nat)
    requires StrictlySortedBy(s, time) && k <= |s|
    requires forall i :: 0 <= i < k ==> time(s[i]) < time(x)
    requires k < |s| ==> time(s[k]) > time(x)
    ensures StrictlySortedBy(s[..k] + [x] + s[k..], time)
  {
    var r := s[..k] + [x] + s[k..];
    forall i, j | 0 <= i < j < |r|
      ensures time(r[i]) < time(r[j])
    {
      if j == k {
        assert r[i] == s[i];
      } else if i == k {
        assert r[j] == s[j - 1];
        assert time(s[k]) <= time(s[j - 1]);
      } else {
        var i' := if i < k then i else i - 1;
        var j' := if j < k then j else j - 1;
        assert r[i] == s[i'] && r[j] == s[j'];
      }
    }
  }

  /** Closest is the last position at or before the tick: any such position is it. */
  lemma ClosestIs<T>(s: seq<T>, time: T -> int, t: int, k: nat)
    requires k < |s| && time(s[k]) <= t
    requires forall j :: k < j < |s| ==> time(s[j]) > t
    ensures Closest(s, time, t) == Some(k)
  {
    ClosestBelowIs(s, time, t, |s|, k);
  }

  lemma {:induction false} ClosestBelowIs<T>(s: seq<T>, time: T -> int, t: int, n: nat, k: nat)
    requires k < n <= |s| && time(s[k]) <= t
    requires forall j :: k < j < n ==> time(s[j]) > t
    ensures ClosestBelow(s, time, t, n) == Some(k)
  {
    if n - 1 != k {
      ClosestBelowIs(s, time, t, n - 1, k);
    }
  }
}

=== FILE: types.dfy ===
/**
 * Shared shapes of the lander game: optional values, input events as the
 * lander and the keyboard controller use them, the logged input message,
 * game options and the per-weapon statistics table.
 */
module Types {

  datatype Option<+T> = None | Some(value: T)

  datatype RocketType = Small | Big

  datatype ThrustDir = Up | Down

  datatype RotateDir = Left | Right

  /** A movement or weapon intent, as processed by a lander. */
  datatype InputEvent =
    | Thrust(thrustDir: ThrustDir, active: bool)
    | Rotate(rotateDir: RotateDir, active: bool)
      // the two optional flags are written only when present
    | Joystick(rotatingLeft: Option<bool>, rotatingRight: Option<bool>,
               targetThrottle: real, targetRotation: Option<real>)
    | FireRocket(rocketType: RocketType)

  /** An input event tagged with the tick it belongs to and its player. */
  datatype PlayerInputMessage = PlayerInputMessage(
    time: int,
    playerId: string,
    gameId: string,
    event: InputEvent)

  datatype GameOptions = GameOptions(infiniteFuel: bool, infiniteHealth: bool)

  /** One row of the weapon table: starting ammo, ticks between refills, lifetime. */
  datatype RocketStats = RocketStats(radius: real, ammo: int, replenishSteps: int, aliveSteps: int)

  datatype Vec = Vec(x: real, y: real)

  /** Terrain description produced by the map generator (not modelled further). */
  datatype Moon = Moon(worldWidth: real, worldHeight: real, vertices: seq<Vec>)

  function Max(a: int, b: int): int { if a < b then b else a }

  /** `a % n === 0` in JavaScript: never true for n == 0 (the remainder is NaN). */
  predicate MultipleOf(a: int, n: int) { n != 0 && a % n == 0 }
}
